=== FILE: README.md ===
# brainrot interpreter core, modelled in Dafny

brainrot is a C-like toy language whose keywords are internet slang. Its
interpreter parses a program into a syntax tree and walks that tree directly.
This project models the walker in Dafny. It covers:

- the evaluation of expressions at `int`, `short` and `bool` width;
- static typing and binary promotion;
- the scope chain that holds variables;
- the function registry and calls;
- `return`, `break` and the `setjmp`/`longjmp` frames they jump to;
- the `if`, `switch`, `for`, `while` and `do`-`while` statements;
- array initializers.

It also models the libraries under `lib/`:

- the FNV-1a open-addressing hash map that every scope uses (with its root-level copy `hm.c`);
- the region arena;
- the checked allocator `safe_*`;
- the console line readers.

Each C global (the current scope, the function table, the return slot, the
jump-buffer stack, the output streams) becomes a field of one explicit state
value. Statements report whether they finished normally or are unwinding to
the topmost jump frame. The ways a run can end are modelled as distinct
outcomes:

- a fatal diagnostic followed by `exit`;
- C undefined behaviour;
- a loop that never ends;
- behaviour the model does not cover (floating point, I/O builtins);
- fuel running out. Every evaluator step spends one unit of fuel, so the interpreter is a total function.

Non-fatal diagnostics (`yyerror` without `exit`) are recorded in order.

| module | file | models |
|---|---|---|
| `Outcome` | outcome.dfy | `Option`, `Result`, the ways a run stops |
| `CInt` | cint.dfy | C integer widths, truncating casts, truncating `/` and `%` |
| `Syntax` | syntax.dfy | the syntax tree, `VarType`, modifiers, functions (ast.h) |
| `Env` | env.dfy | variables and the scope chain |
| `Registry` | registry.dfy | the function table |
| `JumpStack` | jumpstack.dfy | the jump-buffer macros |
| `Arith` | arith.dfy | one operator at `int` or `short` width |
| `Typing` | typing.dfy | `get_expression_type`, the kind tests, `sizeof` |
| `ExprList` | exprlist.dfy | the circular initializer lists |
| `Interp` | interp.dfy | evaluation and execution |
| `InterpFacts` | interp_facts.dfy | which `switch` cases run, what a call binds and returns, how loops leave scopes and frames |
| `HashMap` | hashmap.dfy | lib/hm.c and hm.c |
| `Arena` | arena.dfy | lib/arena.c |
| `Mem` | mem.dfy | lib/mem.c |
| `Input` | input.dfy | lib/input.c |

### Where the model follows the code against the documentation

- `safe_memcpy` is documented to return NULL for `n == 0`, but it returns `dest`.
- `arena_reset` is meant to keep one region for reuse. It frees every region but the last one, yet leaves `start` on freed memory (see Findings).

### Behaviour kept as written

These are modelled as the code has them and, where useful, pinned by a lemma:

- A declaration falls through into the assignment. The new variable, holding 0, is visible on the right-hand side.
- A parameter is added to the callee's scope before its argument is evaluated there.
- An argument/parameter count mismatch is only reported through `yyerror` (ast.c:3586), which does not exit. The callee's scope is then left and the body skipped, and the caller carries on.
- A `for` loop ending on its condition leaves one scope more than it entered (`InterpFacts.ForLeavesAScope`).
- A `break` or `return` unwinds to the top frame without leaving the scopes opened since that frame was pushed (`InterpFacts.WhileBreakLeavesAScope`).
- A call leaves only the innermost scope when its body ends. After a `return` from inside an `if` or a loop, that is the block's scope, so the callee's scope stays on the caller's chain (`InterpFacts.ReturnInIfLeavesCalleeScope`).
- A `break` in the first pass of a `do`-`while` jumps to a frame that `setjmp` never filled (`InterpFacts.DoWhileBreakFirstPass`).
- `return` marks the return slot as holding a value before it evaluates its expression. A call inside that expression clears the mark again, so `return g();` with a `g` that runs no `return` leaves the slot without a value and the caller reads 0 (`InterpFacts.ReturnOfValuelessCall`).
- The array-declaration statement tests a comma expression and never creates the array. It reports "Failed to create array" for an `int` element type.
- `short % 0` has no zero guard and is undefined.
- `get_expression_type` calls `short + short` an `int`, but `handle_binary_operation` computes it in `short` (`Typing.StaticTypeOfOperation`).
- Each scope's hash map is never resized. The put that reaches the load limit calls `hm_resize`, which loops forever, so the 49th variable of one scope diverges.

## Model

| member | source | states |
|---|---|---|
| Syntax.BoolValue | ast.h:395 | a stored bool is exactly 1 for true and 0 for false |
| Env.Find | ast.c:3416-3429 | the scope found binds the name and no inner scope does; nothing is found exactly when no scope binds it |
| Env.FindAt | ast.c:3416-3429 | conversely, a binding with no inner binding of the same name is the one the lookup finds |
| Env.Get | ast.c:3416-3429 | `get_variable` yields a variable exactly when the name is bound, and it is the innermost binding |
| Env.SetVariable | ast.c:25-56 | fails exactly for an unbound name; otherwise only the innermost binding changes, taking the new type, value and modifiers, and no scope gains or loses a name |
| Env.SetArrayVariable | ast.c:63-133 | reports an unbound name exactly when nothing binds it; a resized binding holds `length` zeroed elements (a negative length cannot succeed) and other scopes are untouched |
| Env.EnterScope | ast.c:3452-3455 | a new empty innermost scope on top of the unchanged chain |
| Env.ExitScope | ast.c:3431-3442 | fatal exactly when there is no scope; otherwise the chain without its innermost scope |
| Env.AddVariable | ast.c:3469-3485 | fatal without a scope or for a duplicate in the current scope (an outer binding is shadowed); succeeds exactly when neither holds and the scope's map is below its load limit, adding the one binding to the current scope only |
| Env.CheckConst | ast.c:1887-1895 | assigning is fatal exactly when the innermost binding is const |
| Registry.Create | ast.c:3500-3517 | the new function goes in front of the unchanged table |
| Registry.Lookup | ast.c:1939-1951 | a function found has the name and is in the table; nothing is found exactly when no entry has the name |
| Registry.LatestDefinitionWins | ast.c:3500-3517 | after a definition, looking up its name finds that definition |
| Registry.OtherNamesUnaffected | ast.c:1939-1951 | a definition leaves the lookup of every other name unchanged |
| JumpStack.Push | ast.h:437-443 | one new unarmed frame on top of the unchanged stack |
| JumpStack.Arm | ast.c:2447-2448 | `setjmp` arms the top frame and leaves the frames below alone |
| JumpStack.Pop | ast.h:445-451 | the stack without its top frame |
| JumpStack.LongJmp | ast.h:453-465 | fatal "No jump buffer available" on an empty stack; lands exactly when the top frame is armed; a jump to an unarmed top frame is undefined |
| JumpStack.PopUndoesPush | ast.h:437-451 | popping a pushed frame, armed or not, restores the stack |
| JumpStack.ArmKeepsLowerFrames | ast.h:445-451 | arming the top frame does not change what a pop returns to |
| Arith.IntBinary | ast.c:676-895 | an `int` result; a diagnostic exactly for `/` or `%` by 0; a trap exactly for `&&`/`||` and the two `INT_MIN / -1` cases; comparisons give 1 exactly when the relation holds |
| Arith.ShortBinary | ast.c:676-895 | a `short` result; a diagnostic exactly for `/` by 0; a trap exactly for `&&`/`||` and `% 0`; comparisons give 1 exactly when the relation holds |
| Arith.IntDivModIdentity | ast.c:710-812 | C's `(a / b) * b + a % b == a` for signed `int` operands |
| Arith.UnsignedModulo | ast.c:784-799 | the unsigned remainder is below the unsigned divisor and agrees with the signed one on non-negative operands |
| Arith.ShortIsTruncatedInt | ast.c:643-895 | a `short` operation is the `int` one truncated to 16 bits |
| Arith.ShortQuotientWraps | ast.c:767-775 | `SHRT_MIN / -1` in `short` wraps to `SHRT_MIN`, while in `int` it is `SHRT_MAX + 1` |
| Typing.Promote | ast.c:599-606 | the computed width is the higher-ranked operand type, and `short` exactly when neither is `int`, `float` or `double` |
| Typing.ShortSumWidth | ast.c:555-606 | `short + short` is typed `int` but computed at `short` width |
| Typing.StaticTypeOfOperation | ast.c:555-606 | the type `get_expression_type` gives an operation is the width `handle_binary_operation` computes it at, except that a `short` computation is typed `int` |
| Typing.OperationType | ast.c:555-568 | an operation is typed `int`, `float` or `double`: the promoted width with `short` reported as `int` |
| Typing.ExprType | ast.c:497-581 | an operation never has type `short` or none; a char literal is `int`; a typed name is bound |
| Typing.HasKind | ast.c:1897-2042 | defined whenever every name is bound, otherwise fatal "Undefined variable in type check"; unary, element and `sizeof` nodes are never of a kind |
| Typing.KindAgreesWithType | ast.c:1964-2042 | on plain expressions the double test agrees with the static type, and passing the float test means type float or double |
| Typing.TypeSize | ast.c:1280-1348 | an element size exists exactly for a real type |
| Typing.SizeOf | ast.c:1280-1379 | a `size_t` result, 0 after a diagnostic; for a non-name the size of its static type, with a diagnostic exactly when it has none |
| ExprList.Create | ast.c:3095-3107 | a one-node ring holding the element |
| ExprList.Append | ast.c:3109-3131 | the ring stays well linked and the element becomes its last |
| ExprList.Build | ast.c:3109-3131 | appending one by one gives a ring of exactly those elements |
| ExprList.WalkIsAppendOrder | ast.c:3109-3131 | following `next` from the head visits the nodes in append order and returns to the head |
| ExprList.CountExpressionList | ast.c:3133-3145 | the loop as written counts every list correctly except a one-element list |
| ExprList.CountElements | ast.c:3133-3145 | the corrected loop counts exactly the list's elements |
| ExprList.TooManyDiffers | ast.c:3171-3175 | the initializer check with the count as written and the corrected check differ exactly for a one-element list and length 1 |
| HashMap.Fnv1aHash | lib/hm.c:13-23 | the loop computes FNV-1a, byte by byte, in 64-bit arithmetic |
| HashMap.KeyEqual | lib/hm.c:35-38 | equal keys match; a match means the query is a prefix of the stored key, and the whole key when the lengths agree |
| HashMap.Occupied | lib/hm.h:21-26 | the count is below the capacity exactly when some slot is empty |
| HashMap.New | lib/hm.c:48-55 | 64 empty slots, size 0, and a valid map |
| HashMap.ProbeEnds | lib/hm.c:148-151 | with an empty slot somewhere, every probe ends within one lap |
| HashMap.Find | lib/hm.c:117-131 | a result comes from a stored node; nothing is found when no stored key matches; a key stored exactly is always found |
| HashMap.Get | hm.c:62-74 | the probing loop returns what `Find` specifies |
| HashMap.FindExact | lib/hm.c:117-131 | with whole-key comparison, or a query that is no proper prefix of a stored key, lookup is the plain key-to-value map |
| HashMap.InsertValid | lib/hm.c:154-173 | the slot written keeps the map valid and a new node is counted once |
| HashMap.Put | lib/hm.c:146-174 | diverges exactly at the load limit; otherwise the map stays valid, the key then finds the new value, the size grows by one exactly for a new key, and only the probe's stop slot changes |
| HashMap.PutProbing | hm.c:76-101 | the probing loop diverges at the load limit and otherwise writes what `Put` specifies |
| HashMap.PutKeepsOtherKeys | lib/hm.c:146-174 | with whole-key comparison, a put changes the lookup of its own key only |
| HashMap.PutOverwritesLongerKey | lib/hm.c:154-161 | with query-length comparison, a put that meets a longer key extending it overwrites that key's value and stores the new key nowhere |
| HashMap.PrefixCollision | lib/hm.c:35-38 | with query-length comparison, a map holding `ct` answers a lookup of `c` with `ct`'s value; with whole keys it answers nothing |
| HashMap.NewFindsNothing | lib/hm.c:48-55 | a fresh map finds no key |
| Interp.Convert | ast.c:1508-1631 | the value as the evaluator's C type; unchanged when it fits; a bool is 1 exactly for non-zero |
| Interp.Eval | ast.c:1508-1631 | a result fits the evaluator's width, the jump stack is unchanged and no binding disappears; an expression without increments or calls changes nothing but the diagnostics; the value itself is stated for plain expressions by `ExprFacts.EvalDenotes` |
| Interp.Literal | ast.c:1508-1631 | a literal that fits is its own value, a bool literal is 0 or 1, and exactly the floating literals leave the model |
| Interp.SizeOfValue | ast.c:1350-1379 | `sizeof` always yields a value in width and changes nothing but diagnostics; the bool evaluator reports it as invalid |
| Interp.ReadVariable | ast.c:419-495 | fatal for an unbound name; succeeds exactly for a bound scalar of integer type and changes nothing |
| Interp.ReadReturn | ast.c:1633-1672 | the caller reads 0 when no `return` ran |
| Interp.Apply | ast.c:676-895 | a diagnostic yields 0 and execution continues; only a trap stops it |
| Interp.EvalOperation | ast.c:583-895 | the result fits the caller's width; pure operands change nothing but the diagnostics; the value is the operator applied to the operands' values by `ExprFacts.OperationSteps` and `ExprFacts.ApplyCombine` |
| Interp.OperandWidth | ast.c:583-675 | `&&`/`||` evaluate their operands at the caller's width; other operators at the promoted width, never as bool, and only when it is not floating point |
| Interp.Combine | ast.c:676-895 | `&&`/`||` combine both operands to 0/1; other operators are the `short` or `int` operation |
| Interp.ApplyUnary | ast.c:897-1078 | negation is arithmetic at `int` width and logical NOT otherwise; an increment needs a named, non-bool operand, stores the stepped value under that name, and yields the new value (prefix) or the old one (postfix) |
| Interp.EvalElement | ast.c:3048-3093 | an element read fits the width; with a pure index it changes nothing but the diagnostics |
| Interp.ReadElement | ast.c:3048-3093 | an index outside the array reports and yields 0; a silent read is the stored element |
| Interp.EvaluateExpr | ast.c:2044-2059 | the value is an `int` and the state evolves without touching the jump stack |
| Interp.CallFunction | ast.c:3519-3608 | an unknown name reports "Undefined function" and changes nothing else; a call keeps the jump stack and the caller's bindings, and the slot gains a value only if a `return` ran |
| Interp.Invoke | ast.c:3547-3601 | the jump stack is as before and at least the caller's scopes and bindings remain (a `return` from inside a nested block leaves the callee's scope on the chain, `InterpFacts.ReturnInIfLeavesCalleeScope`); a count mismatch ends with the mismatch diagnostic as the last one; with matching counts the slot holds a value afterwards only if a `return` ran |
| Interp.RunBody | ast.c:3592-3601 | the body's frame is popped, so the jump stack is the caller's, and the scopes below the callee's remain with their bindings; since the slot is cleared before the body, it holds a value afterwards only if a `return` ran |
| Interp.BindParams | ast.c:3547-3582 | binding keeps the jump stack, adds bindings without removing any, and gives the slot no value |
| Interp.BindArgument | ast.c:3554-3573 | the parameter takes the argument's value and stored type, and no binding disappears |
| Interp.ExecReturn | ast.c:3610-3640 | one more `return` has run; the slot is marked before the expression is evaluated, so it holds a value afterwards whenever the expression has no call or increment; control unwinds exactly when a frame exists, and only to an armed one |
| Interp.Exec | ast.c:2179-2426 | a statement keeps the jump stack and the bindings; it unwinds only when the top frame is armed |
| Interp.ExecSimple | ast.c:2185-2415 | the same for declarations, output, definitions, calls, `break` and unknown nodes |
| Interp.Output | ast.c:2353-2380 | `print` appends the item to standard output and `error` to standard error, the other stream unchanged |
| Interp.Render | ast.c:2353-2366 | a string literal is written as it is, without evaluation |
| Interp.ExecList | ast.c:2428-2443 | a list keeps the jump stack and unwinds only to an armed frame |
| Interp.Store | ast.c:2190-2236 | an unbound name reports the store's diagnostic; a bound one takes the type and value |
| Interp.WriteCell | ast.c:2206-2215 | an element write succeeds exactly within the buffer and changes that element only |
| Interp.Assign | ast.c:2190-2296 | assignment to a const binding is fatal before anything is written; otherwise a store completes normally, keeping the jump stack and every binding; the value read back is stated by `ExprFacts.AssignReadsBack` |
| Interp.FloatingAssignment | ast.c:2272-2287 | a `float` declaration is floating; a non-floating answer excludes `float` and `double` declarations; the tests are defined whenever the right-hand side's names are bound |
| Interp.AssignElement | ast.c:2194-2236 | an element store keeps the jump stack and the bindings |
| Interp.ExecIf | ast.c:2384-2395 | normal completion leaves at least the scopes it found; an unwind goes to an armed frame; which branch runs is stated by `InterpFacts.IfRunsChosenBranch` |
| Interp.ExecSwitch | ast.c:210-247 | the frame pushed for the switch is popped, the bindings are kept, and the statement completes normally |
| Interp.CaseWalk | ast.c:212-246 | the walk keeps the jump stack and the bindings, and unwinds only to an armed frame |
| Interp.ExecFor | ast.c:2445-2486 | the loop's frame is popped and the loop completes normally |
| Interp.ForIterations | ast.c:2450-2470 | normal completion leaves more scopes than it found |
| Interp.ExecWhile | ast.c:2488-2500 | the loop completes normally with the jump stack as it found it, never fewer scopes and no binding lost; a `break` may leave a scope behind |
| Interp.WhileIterations | ast.c:2492-2498 | iterations keep the frames below the loop's and never drop scopes |
| Interp.ExecDoWhile | ast.c:2502-2514 | a normal end keeps the jump stack as it found it, never fewer scopes and no binding lost; the first-pass `break` is stated by `InterpFacts.DoWhileBreakFirstPass` |
| Interp.DoIterations | ast.c:2505-2511 | iterations keep the frames below the loop's and never drop scopes |
| Interp.Populate | ast.c:3161-3217 | an unbound name reports; too long an initializer is fatal; a successful fill of a positive length had between 1 and `length` elements; the cell values are stated by `ExprFacts.PopulateCells` |
| InterpFacts.SelectedExactly | ast.c:212-246 | the reference list `Selected` holds exactly the positions that run: those with no `default` before them that are a `default` themselves or have a label equal to the scrutinee at or before them |
| InterpFacts.CaseWalkRunsSelected | ast.c:212-246 | for literal labels, walking the cases is running exactly the selected bodies in order, the first unwind ending the run |
| InterpFacts.SwitchRunsSelected | ast.c:210-247 | a switch evaluates its scrutinee once, runs the selected bodies on an armed frame, and pops that frame |
| InterpFacts.BreakEndsCases | ast.c:216-247 | a `break` as the first selected body ends the run at once on the switch's frame |
| InterpFacts.BindParamsLocal | ast.c:3547-3582 | with pure arguments, binding changes only the innermost scope (and the diagnostics) |
| InterpFacts.BindParamsPositional | ast.c:3547-3582 | with pure arguments and distinct parameter names, every parameter that has an argument is bound, by position, at its declared type (`char` as `int`), and the innermost scope is as it was outside those names |
| InterpFacts.CallBindsParameters | ast.c:3519-3582 | with pure arguments and distinct parameter names, a call enters exactly one scope above the caller's unchanged scopes, and that scope holds the parameters with arguments, at their declared types, and nothing else |
| InterpFacts.InvokeMismatch | ast.c:3547-3589 | with pure arguments, a count mismatch reports last, leaves the callee's scope, and skips the body: the slot, the frames, the streams and the `return` count are as before |
| InterpFacts.CallWithoutReturn | ast.c:3519-3607 | a call whose body runs no `return` clears the slot's mark, even when it was set before, and leaves the stack as it was |
| InterpFacts.CallReturnsLiteral | ast.c:3588-3640 | a call whose body returns a literal leaves that value in the slot, marked, after one `return` |
| InterpFacts.ReturnOfValuelessCall | ast.c:3610-3640 | `return g();` with a `g` that runs no `return` ends with the slot unmarked and holding 0 |
| InterpFacts.ValuelessCallReadsZero | ast.c:1616-1672 | the caller reads 0 from a call that ran no `return` |
| InterpFacts.WhileFalseAtOnce | ast.c:2488-2500 | a `while` whose condition is 0 leaves the state exactly as it found it |
| InterpFacts.WhileBreakLeavesAScope | ast.c:2488-2500 | `while (1) break;` completes with one scope more than it started with |
| InterpFacts.DoWhileBreakFirstPass | ast.c:2502-2514 | a `break` in the first pass of a `do`-`while` jumps to a frame `setjmp` never filled, which is undefined |
| InterpFacts.ForLeavesAScope | ast.c:2445-2486 | `for (; 0; ) ;` completes with one scope more than it started with |
| InterpFacts.IfRunsChosenBranch | ast.c:2384-2395 | an `if` enters a scope and evaluates its condition once there; a failing condition stops the program; otherwise the then-branch runs when the value is non-zero, else the else-branch if any, and a normal finish leaves exactly that scope while a stop or jump passes through unchanged |
| InterpFacts.ReturnInIfLeavesCalleeScope | ast.c:3588-3601 | a call whose body is `if (1) return 7;` leaves the slot holding 7 after one `return`, with the callee's scope still on the caller's chain |
| ExprFacts.EvalDenotes | ast.c:1508-1631 | given fuel for its nesting, the evaluator finishes on a plain expression (literals, names, binary operations) exactly when the reference value `ExprFacts.Denote` exists, and returns that value: a literal converted to the width, a name's scalar converted, an operation's C operator on its operands' values at the promoted width |
| ExprFacts.OperationSteps | ast.c:583-676 | a binary operation evaluates its left operand, then its right one, both at the operand width; if either stops, so does the operation; otherwise its result is the operator applied to the two values, converted to the result width |
| ExprFacts.ApplyCombine | ast.c:676-895 | the interpreter's last step of an operation succeeds exactly when the reference operator has a value, and gives that value |
| ExprFacts.DenoteReads | ast.c:1508-1631 | the reference value of a plain expression depends only on how its names read |
| ExprFacts.WriteCellReads | ast.c:3185-3201 | storing one array cell changes no plain expression's value and leaves the array's binding where it was |
| ExprFacts.AssignReadsBack | ast.c:2247-2294 | assigning a plain right-hand side to a bound, non-const variable: a char, bool or short literal is stored unevaluated and read back (a char as `int`, a short wrapped, a bool as 0 or 1); a right-hand side that the floating-point tests send to the float or double path stops; otherwise the assignment finishes exactly when the reference value exists, and the variable then holds it as an `int` |
| ExprFacts.PopulateCells | ast.c:3161-3217 | with plain elements, a finished initialization of an array of a supported type and non-zero length had a non-empty list; its first cells, as many as the shorter of the list and the array, hold the elements' values in order (as `char`s in a char array), and the other cells are unchanged |
| ExprFacts.PopulateFromCells | ast.c:3177-3212 | the loop from position `index` fills the cells from `index` up to the shorter of the list and the array with the elements' values, leaves every other cell and every read of a plain expression as it was, and keeps the binding where it was |
| Arena.Words | lib/arena.c:41 | the request rounded up to whole words, and 0 words for the seven largest sizes where the sum wraps |
| Arena.RegionNew | lib/arena.c:8-16 | an empty region of the requested capacity, undefined exactly when the byte count overflows |
| Arena.NewCapacity | lib/arena.c:45-46 | the larger of the default size and the request |
| Arena.FirstFit | lib/arena.c:51-54 | the first region from `end` on with room, or the last; every region skipped is full |
| Arena.WalkToFit | lib/arena.c:51-54 | the loop stops at the region `FirstFit` specifies |
| Arena.Alloc | lib/arena.c:33-68 | the words handed out sit at the old count of `end`, which grows by their number; at most one region is appended; other regions are untouched; fails exactly when a needed region overflows |
| Arena.AllocKeepsAtLast | lib/arena.c:51-63 | `end` stays the last region, so the walk never moves |
| Arena.AllocIn | lib/arena.c:35-40 | on a NULL arena the words come from an arena the caller never sees |
| Arena.Store | lib/arena.c:81-82 | the bytes written read back and nothing outside them changes |
| Arena.Strdup | lib/arena.c:77-84 | the copy and its terminator lie inside the words handed out |
| Arena.CopyInto | lib/arena.c:81-82 | the copy is undefined exactly when it would run past the region; otherwise the string and terminator are at the place handed out |
| Arena.CopyFits | lib/arena.c:79-82 | the words handed out for `strlen + 1` bytes hold the string and its terminator |
| Arena.StrdupFitsItsWords | lib/arena.c:79-82 | unless the byte count wraps, only the allocation can fail |
| Arena.StrdupReadsBack | lib/arena.c:77-84 | the copy reads back as the original string |
| Arena.ResetAsWritten | lib/arena.c:91-101 | keeps the last region with count 0; `start` is left on freed memory exactly when there were several regions |
| Arena.Reset | lib/arena.c:91-101 | the corrected reset keeps the last region with count 0 and the arena whole |
| Arena.Free | lib/arena.c:107-122 | a NULL arena is left alone; otherwise the arena becomes empty, and it is undefined exactly when `start` dangles |
| Arena.ResetReuses | lib/arena.c:91-101 | after a reset, a request that fits is served from word 0 of the kept region |
| Arena.ResetThenFreeAsWritten | lib/arena.c:93-117 | with several regions, the reset as written makes a later free or reset undefined; the corrected reset does not |
| Arena.TwoRegions | lib/arena.c:56-63 | a full default region followed by one more byte makes a second region |
| Mem.AlignSize | lib/mem.c:61-64 | a multiple of 8 within `size_t` |
| Mem.AlignSizeIsLeastMultiple | lib/mem.c:61-64 | unless the sum wraps, the least multiple of 8 not below the size |
| Mem.AlignSizeWraps | lib/mem.c:61-64 | the seven largest sizes align to 0 |
| Mem.SafeMalloc | lib/mem.c:20-50 | a block exactly for a positive size up to the limit when memory is available; NULL without `errno` for 0; NULL and ENOMEM otherwise; the block is new, zero-filled and of the aligned size |
| Mem.SafeMallocArray | lib/mem.c:93-100 | a product above MAX_ALLOC_SIZE is refused with ENOMEM; otherwise the product is allocated |
| Mem.ArrayGuardIsExact | lib/mem.c:95-98 | the division test refuses exactly the products above the limit |
| Mem.SafeFree | lib/mem.c:115-132 | no pointer-to-pointer only warns; a NULL pointer is left; a block start is released and the caller's pointer nulled |
| Mem.ReadString | lib/mem.c:162-179 | the string read is NUL-free and no longer than the bytes |
| Mem.SafeStrdup | lib/mem.c:162-179 | NULL and EINVAL for a NULL string; otherwise a block exactly when the allocator is available and the string, its terminator and the alignment fit `MAX_ALLOC_SIZE`, whose first bytes are the string and its terminator, with errno untouched; NULL and ENOMEM when not |
| Mem.StrdupReadsBack | lib/mem.c:162-179 | the copy reads back as the original string |
| Mem.OverlapTestMissesSelfCopy | lib/mem.c:214-221 | the overlap test as written misses exactly a copy of a range onto itself |
| Mem.SafeMemcpy | lib/mem.c:193-238 | NULL arguments give EINVAL; `n == 0` gives `dest`; overlapping ranges give NULL; a copy changes only the first `n` bytes of the destination, which become the source bytes |
| Input.Code | lib/input.h:23-36 | success is code 0 and every status has a code from -10 to 0 |
| Input.FromCode | lib/input.h:23-36 | the codes -10 to 0 are exactly the ones that name a status |
| Input.LineCut | lib/input.c:75 | `fgets` stops after the first newline or at the limit |
| Input.Fgets | lib/input.c:75 | stored bytes are a prefix of the input, shorter than the count, and the rest stays pending |
| Input.ClearLine | lib/input.c:12-17 | what remains is a suffix of the input |
| Input.StrLen | lib/input.c:87 | the position of the first NUL, or the length |
| Input.InputString | lib/input.c:59-106 | NULL pointers give NullPtr and nothing else does; size 0 is an overflow; undefined exactly for a size of 1; a success holds a NUL-free text shorter than the buffer and without its newline; only the four statuses of a line read occur; what is left of the input is a suffix of it |
| Input.ReadLine | lib/input.c:75-105 | past the argument checks, undefined exactly for a size of 1, never NullPtr, and a success is stored text |
| Input.Respond | lib/input.c:75-105 | a NULL from `fgets` is a read error on a failing stream and otherwise an empty success |
| Input.Classify | lib/input.c:87-105 | a full buffer without a newline is an overflow that discards the rest of the line; otherwise a success without the final newline; undefined exactly for a buffer of 1 |
| Input.LineReadBack | lib/input.c:75-105 | a line that fits with its newline and terminator is read back exactly, and the input after it is left |
| Input.LongLineTruncated | lib/input.c:89-95 | a line too long for the buffer is an overflow and the rest of the line is discarded |
| Input.CharFrom | lib/input.c:25-49 | a success holds exactly one character, which is the value returned |
| Input.InputCharNeverSucceeds | lib/input.c:25-49 | as written, `input_char` never succeeds, and a character followed by a newline is an overflow with the newline discarded |
| Input.OneChar | lib/input.c:36-48 | a success is exactly one character, returned; any other read status is passed on without a value |
| Input.InputCharFixedReads | lib/input.c:42-48 | with room for the character, its newline and the terminator, a one-character line is read |
| Input.CheckNumber | lib/input.c:136-148 | a conversion error exactly when nothing or not everything was converted; otherwise an overflow exactly on ERANGE or out of range; success exactly when a value is returned |
| Input.InputInt | lib/input.c:114-149 | a returned value is the whole line's conversion, within `int`, without ERANGE |
| Input.InputShort | lib/input.c:157-192 | a returned value is the whole line's conversion, within `short`, without ERANGE |
| Input.Convert | lib/input.c:125-148 | a successful line takes the status of its conversion checks; a value is returned only with Success, within range and without ERANGE |
| Input.IntOverflowReported | lib/input.c:142-145 | one past INT_MAX is an integer overflow |

## Findings

| source | as written | input that shows it | evidently intended | confidence | as-written member | corrected member |
|---|---|---|---|---|---|---|
| lib/hm.c:35-38 | `key_equal` compares only the query's length of the stored key | a scope holding `ct` looked up as `c` (same home slot in 64 slots) | whole keys compared, lengths included | high, not executed | HashMap.PrefixCollision | HashMap.FindExact |
| ast.c:3133-3145 | the do-while counts the head again before it compares with the head | `int a[1] = {5};` is refused as too many elements | one count per list element | high, not executed | ExprList.CountExpressionList | ExprList.CountElements |
| lib/input.c:25-49 | the line is read into `char buffer[2]` | the line `x` and a newline gives a buffer overflow | room for the character, its newline and the terminator | high, not executed | Input.InputCharNeverSucceeds | Input.InputCharFixedReads |
| lib/mem.c:214-221 | the overlap test uses strict comparisons on both sides | `safe_memcpy(p, p, 1)` passes the test | every pair of ranges that share a byte refused | high, not executed | Mem.OverlapTestMissesSelfCopy | Mem.SafeMemcpy |
| lib/arena.c:91-101 | `start` is not moved to the region kept | an arena grown to two regions, reset, then freed | `start` moved to the surviving region | high, not executed | Arena.ResetThenFreeAsWritten | Arena.Reset |

The corrected definitions are the ones the rest of the model uses:

- `Interp.Populate` uses `ExprList.TooMany`, not the count as written.
- `Mem.SafeMemcpy` uses `Mem.Overlaps`.
- Scopes are exact-key maps, the behaviour of `HashMap.FindExact`.

## Left out

- Floating point. Every evaluation that would compute a `float` or `double` value stops with an "unmodelled" outcome. This covers the tiny-divisor guards, `fmod` and float/int conversions. Their static types are modelled.
- The I/O builtins `yapping`, `yappin`, `baka`, `ragequit`, `chill` and `slorp`. A call stops with an "unmodelled" outcome, because they are libc formatting and console I/O.
- Union type punning, such as reading a `short` result buffer as an `int`. It is modelled as the C value conversion, or as "unmodelled" when a pointer value would be read as a number.
- Signed overflow of `int` `+`, `-` and `*`. This is undefined in C; it is modelled as two's-complement wrap-around.
- The `already_checked` memo of `check_and_mark_identifier` (ast.c:190-207). An identifier node found bound once is never looked up again. When its name is unbound at a later evaluation (reachable through dynamic scoping, a body reading a caller's local), C reports without exiting and reads through a NULL variable (ast.c:421, 493-494), and the type tests answer false (ast.c:1914-1921). The model looks the name up every time and treats an unbound name as fatal.
- `get_current_modifiers`. Parameters and increments use no modifiers, or the binding's own modifiers; the global `current_modifiers` side channel is parser state.
- The diagnostics that static typing prints for unknown names (`get_expression_type`, `get_function_return_type`). They are not recorded.
- The reversal and freeing of the stored parameter list during a call (ast.c:3535-3545, 3576-3581). Parameters are an immutable sequence bound in order.
- Registration of a definition when its node is created (ast.c:3674). It is parser-time; only the registration when the definition statement runs is modelled.
- Memory release paths: `free_ast`, `free_scope`, `free_function_table` and the `SAFE_FREE` calls. They are ownership bookkeeping.
- Fuel. A program that needs more steps than the fuel given stops with an out-of-fuel outcome; nothing is claimed about it.
- `hm_resize`. It never returns, so it is modelled as divergence at the load limit. The debug `dump` printer and `hm_free` are left out.
- Arena.RegionNew: a failing system `malloc` is left out, because the C code dereferences the result unchecked; only the `size_t` overflow of the byte count is undefined here.
- Arena.Strdup: the bytes before the copy are not stated to be unchanged relative to the caller's arena in this member's contract, because `Arena.Store` and `Arena.Alloc` state it separately.
- The real `fgets`, `getchar` and `strtol`. Standard input is a value (pending bytes and a failing flag), with glibc's treatment of counts of at most 1. `strtol` is a parameter returning value, bytes consumed and ERANGE.
- `input_float` and `input_double`, because they are floating point.
- `safe_calloc` and `is_safe_malloc_ptr`, because lib/mem.h declares them but lib/mem.c does not define them. The `SAFE_*` macros are expanded at their call sites.
- Env.Find: scopes are exact-key maps, the corrected lookup of `HashMap.FindExact`. `get_variable` goes through `hm_get`, whose comparison covers only the query's length (ast.c:3421, lib/hm.c:123), so in C a lookup of `c` can find a `ct` in the same home slot (`HashMap.PrefixCollision`).
- Env.FindAt: exact-key, for the same reason as `Env.Find`.
- Env.Get: exact-key, for the same reason as `Env.Find`; C can return the binding of a longer name sharing the home slot.
- Env.AddVariable: the duplicate test is exact-key. In C it goes through `hm_get` (ast.c:3476), so `int ct; int c;` in one scope can be fatal "Variable already exists" when the two names share a home slot.
- Interp.Populate: uses the corrected element count `ExprList.TooMany`. As written, `int a[1] = {5};` exits with "Too many elements in array initialization" (ast.c:3171-3174), which `ExprList.TooManyDiffers` pins.
- Mem.SafeMemcpy: refuses a copy of a range onto itself (`dest == src`) with EINVAL, the corrected overlap test. As written, lib/mem.c:215-216 passes it on to `memcpy`, where it is undefined behaviour (`Mem.OverlapTestMissesSelfCopy`).
- HashMap.KeyEqual: a stored key shorter than the query is taken to differ. Keys are stored in `key_size`-byte blocks without a terminator (lib/hm.c:165-167), so `memcmp` over the query's length reads past the block (lib/hm.c:123), which is undefined behaviour.
- The `switch` lemmas of `InterpFacts` take case labels that are `int` literals or `default`. Labels that are evaluated afresh at each case with side effects, or that fail, are covered only by the frame invariants of `Interp.CaseWalk`.
- The `InterpFacts` call lemmas take arguments without calls or increments, and parameter names that differ. Other calls are covered only by the frame invariants of `Interp.CallFunction` and `Interp.Invoke`.
- The `returnsRun` field of the state counts the `return` statements run. It is instrumentation for stating when the slot can gain a value, not program state.
- Mem.SafeMemcpy: a source range running past its block is undefined behaviour of `memcpy` and is modelled as such. The code does not check it.
- The mismatch between `SAFE_FREE`'s four arguments (lib/mem.h:44) and `safe_free`'s one parameter (lib/mem.c:115). `safe_free` is modelled by its definition.
- The memory guard constant and the wiping of freed memory. Freed bytes are simply gone from the heap.
- The `fprintf(stderr, …)` diagnostics of lib/mem.c (for example lib/mem.c:166-168 in `safe_strdup`). They are output only; the model records the returned pointer and `errno`, not the messages.
- Interp.Eval: the value is stated only for plain expressions (literals, names and binary operations), by `ExprFacts.EvalDenotes`. Calls, increments, unary operators, element reads and `sizeof` have no reference value; for them the contract states width, frames and bindings only.
- Interp.EvalOperation: the value is stated for every operation whose operands both finish (`ExprFacts.OperationSteps`); a full reference value only when the operands are plain (`ExprFacts.EvalDenotes`).
- Interp.Assign: the value read back is stated for whole-variable targets with a plain right-hand side (`ExprFacts.AssignReadsBack`). Element targets and right-hand sides with calls or increments are covered by the frame contract only.
- Interp.Populate: the cell values are stated for plain elements (`ExprFacts.PopulateCells`). Elements with calls or increments, which can change the bindings between cells, are covered by the frame contract only.
- Interp.ExecIf: the member's own contract keeps to frames and scopes; which branch runs is the partner lemma `InterpFacts.IfRunsChosenBranch`.

=== FILE: arena.dfy ===
/**
 * The region arena.  An arena is a chain of regions; each region holds a
 * capacity of 8-byte words, of which the first `count` are handed out.
 * The chain is a sequence in chain order, and `end` is the index of the
 * region allocations are served from.  After a reset that freed regions,
 * the arena's `start` pointer is left on freed memory; `startFreed` records
 * that.  The system `malloc` is taken to succeed; a region whose byte size
 * does not fit a `size_t` is undefined behaviour.
 */
module Arena {
  import opened Outcome
  import opened CInt
  import Mem

  /** `sizeof(uintptr_t)` */
  const WORD: nat := 8
  /** The bytes of a region's header: `next`, `count`, `capacity`. */
  const HEADER: nat := 24
  const DEFAULT_REGION_SIZE: nat := 4 * 1024

  datatype Region = Region(count: nat, capacity: nat, data: seq<bv8>)

  datatype Arena = Arena(regions: seq<Region>, end: nat, startFreed: bool)

  /** `start` and `end` both NULL. */
  const Empty := Arena([], 0, false)

  predicate RegionOk(r: Region)
  {
    r.count <= r.capacity && |r.data| == WORD * r.capacity && HEADER + WORD * r.capacity < TWO64
  }

  /**
   * Every region is well formed, `end` names a region when there is one,
   * and an arena without regions has nothing dangling.
   */
  predicate Valid(a: Arena)
  {
    (forall i :: 0 <= i < |a.regions| ==> RegionOk(a.regions[i]))
    && (a.regions != [] ==> a.end < |a.regions|)
    && (a.regions == [] ==> a.end == 0 && !a.startFreed)
  }

  /** `end` is the last region of the chain. */
  predicate AtLast(a: Arena)
  {
    a.regions != [] ==> a.end == |a.regions| - 1
  }

  /** The words a request of `sizeBytes` bytes takes: the byte count rounded up, in `size_t`. */
  function Words(sizeBytes: nat): (w: nat)
    requires sizeBytes < TWO64
    ensures sizeBytes + WORD - 1 < TWO64 ==> sizeBytes <= WORD * w < sizeBytes + WORD
    ensures sizeBytes + WORD - 1 >= TWO64 ==> w == 0
    ensures WORD * w < TWO64
  {
    ((sizeBytes + WORD - 1) % TWO64) / WORD
  }

  /**
   * `region_new`: an empty region of `size` words.  Its header plus data
   * must fit a `size_t`; otherwise the byte count wraps and the header is
   * written past a too-small block.  Region memory is not initialised in C;
   * here it starts zeroed and only bytes that were written are read.
   */
  function RegionNew(size: nat): (r: Result<Region>)
    ensures r.Value? <==> HEADER + WORD * size < TWO64
    ensures r.Value? ==> RegionOk(r.value) && r.value.count == 0 && r.value.capacity == size
  {
    if HEADER + WORD * size >= TWO64 then Failure(Undefined("region size wraps size_t"))
    else Value(Region(0, size, seq(WORD * size, _ => 0)))
  }

  predicate Fits(r: Region, size: nat)
  {
    r.count + size <= r.capacity
  }

  /**
   * The region the walk of `arena_alloc` stops at: the first one from
   * `from` on that has room, or the last region.
   */
  function FirstFit(rs: seq<Region>, from: nat, size: nat): (e: nat)
    requires from < |rs|
    ensures from <= e < |rs|
    ensures Fits(rs[e], size) || e == |rs| - 1
    ensures forall j :: from <= j < e ==> !Fits(rs[j], size)
    decreases |rs| - from
  {
    if from == |rs| - 1 || Fits(rs[from], size) then from else FirstFit(rs, from + 1, size)
  }

  /** The walk as the loop of `arena_alloc` performs it. */
  method WalkToFit(rs: seq<Region>, from: nat, size: nat) returns (e: nat)
    requires from < |rs|
    ensures e == FirstFit(rs, from, size)
    ensures from <= e < |rs| && (Fits(rs[e], size) || e == |rs| - 1)
  {
    e := from;
    while !Fits(rs[e], size) && e + 1 < |rs|
      invariant from <= e < |rs|
      invariant FirstFit(rs, e, size) == FirstFit(rs, from, size)
      decreases |rs| - e
    {
      e := e + 1;
    }
  }

  /** When `end` is the last region the walk never moves. */
  lemma WalkStaysAtLast(a: Arena, size: nat)
    requires Valid(a) && AtLast(a) && a.regions != []
    ensures FirstFit(a.regions, a.end, size) == a.end
  {
  }

  /** A place handed out: a region of the chain and a word offset in it. */
  datatype Place = Place(region: nat, word: nat)

  /** The arena after an allocation, and the place of the allocated words. */
  datatype Allocated = Allocated(arena: Arena, at: Place)

  /** The larger of the default size and the request. */
  function NewCapacity(size: nat): (c: nat)
    ensures c >= size && c >= DEFAULT_REGION_SIZE
    ensures c == size || c == DEFAULT_REGION_SIZE
  {
    if size > DEFAULT_REGION_SIZE then size else DEFAULT_REGION_SIZE
  }

  /**
   * `arena_alloc` on an arena: a first region when there is none, the walk
   * to a region with room, a new region appended after `end` when the walk
   * ends on a full one, then the words at `end`'s count are handed out.
   */
  function Alloc(a: Arena, sizeBytes: nat): (r: Result<Allocated>)
    requires Valid(a) && sizeBytes < TWO64
    ensures r.Value? ==> Valid(r.value.arena)
    ensures r.Value? ==> (var p := r.value.at; var rs := r.value.arena.regions;
      p.region == r.value.arena.end && p.region < |rs|
      && p.word + Words(sizeBytes) == rs[p.region].count
      && (p.region < |a.regions| ==> p.word == a.regions[p.region].count)
      && (p.region >= |a.regions| ==> p.word == 0))
    ensures r.Value? ==> (var rs := r.value.arena.regions;
      |a.regions| <= |rs| <= |a.regions| + 1
      && (forall i :: 0 <= i < |a.regions| && i != r.value.at.region ==> rs[i] == a.regions[i])
      && (r.value.at.region < |a.regions| ==> rs[r.value.at.region].data == a.regions[r.value.at.region].data))
    ensures r.Value? && a.regions != [] ==> r.value.arena.startFreed == a.startFreed
    ensures r.Failure? <==> (HEADER + WORD * NewCapacity(Words(sizeBytes)) >= TWO64
      && (a.regions == [] || !Fits(a.regions[FirstFit(a.regions, a.end, Words(sizeBytes))], Words(sizeBytes))))
  {
    var size := Words(sizeBytes);
    var first :- (if a.regions == [] then
        var rg :- RegionNew(NewCapacity(size)); Value(Arena([rg], 0, false))
      else Value(a));
    var e := FirstFit(first.regions, first.end, size);
    var grown :- (if Fits(first.regions[e], size) then Value(first.(end := e))
      else
        var rg :- RegionNew(NewCapacity(size));
        Value(Arena(first.regions + [rg], |first.regions|, first.startFreed)));
    var rg := grown.regions[grown.end];
    Value(Allocated(grown.(regions := grown.regions[grown.end := rg.(count := rg.count + size)]),
      Place(grown.end, rg.count)))
  }

  /** Allocation keeps `end` on the last region. */
  lemma AllocKeepsAtLast(a: Arena, sizeBytes: nat)
    requires Valid(a) && AtLast(a) && sizeBytes < TWO64
    ensures Alloc(a, sizeBytes).Value? ==> AtLast(Alloc(a, sizeBytes).value.arena)
  {
    if a.regions != [] {
      WalkStaysAtLast(a, Words(sizeBytes));
    }
  }

  /**
   * `arena_alloc` as called: on a NULL arena it builds a fresh arena of its
   * own that the caller never sees, so the caller's arena stays NULL and
   * the words live in a region nothing else refers to.
   */
  function AllocIn(a: Option<Arena>, sizeBytes: nat): (r: Result<(Option<Arena>, Allocated)>)
    requires a.Some? ==> Valid(a.value)
    requires sizeBytes < TWO64
    ensures a.None? && r.Value? ==> r.value.0.None? && r.value.1.arena.regions != [] && r.value.1.at.word == 0
    ensures a.Some? && r.Value? ==> r.value.0 == Some(r.value.1.arena)
    ensures r.Value? ==> Valid(r.value.1.arena)
    ensures r.Value? ==> (var al := r.value.1;
      al.at.region < |al.arena.regions| && al.at.word + Words(sizeBytes) == al.arena.regions[al.at.region].count)
  {
    match a
    case None =>
      var al :- Alloc(Empty, sizeBytes);
      Value((None, al))
    case Some(arena) =>
      var al :- Alloc(arena, sizeBytes);
      Value((Some(al.arena), al))
  }

  /** The bytes of a region from a word offset on. */
  function BytesAt(a: Arena, p: Place): seq<bv8>
    requires p.region < |a.regions| && WORD * p.word <= |a.regions[p.region].data|
  {
    a.regions[p.region].data[WORD * p.word..]
  }

  /**
   * Bytes stored from a word offset on: the other regions, the counts and
   * the bytes outside the range are left as they were.
   */
  function Store(a: Arena, p: Place, bytes: seq<bv8>): (r: Arena)
    requires Valid(a) && p.region < |a.regions| && WORD * p.word + |bytes| <= |a.regions[p.region].data|
    ensures Valid(r) && r.end == a.end && r.startFreed == a.startFreed && |r.regions| == |a.regions|
    ensures forall i :: 0 <= i < |a.regions| && i != p.region ==> r.regions[i] == a.regions[i]
    ensures r.regions[p.region].count == a.regions[p.region].count
    ensures r.regions[p.region].capacity == a.regions[p.region].capacity
    ensures BytesAt(r, p)[..|bytes|] == bytes
    ensures r.regions[p.region].data[..WORD * p.word] == a.regions[p.region].data[..WORD * p.word]
    ensures r.regions[p.region].data[WORD * p.word + |bytes|..] == a.regions[p.region].data[WORD * p.word + |bytes|..]
  {
    var rg := a.regions[p.region];
    var at := WORD * p.word;
    var data := rg.data[..at] + bytes + rg.data[at + |bytes|..];
    assert data[at..][..|bytes|] == bytes;
    assert data[at + |bytes|..] == rg.data[at + |bytes|..];
    a.(regions := a.regions[p.region := rg.(data := data)])
  }

  /**
   * `arena_strdup`: `strlen + 1` bytes from the arena holding the string and
   * its terminator.  `strlen` of a NULL string is undefined behaviour, and so
   * is the copy when the byte count wrapped and fewer words were handed out.
   */
  function Strdup(a: Option<Arena>, str: Option<seq<bv8>>): (r: Result<(Option<Arena>, Allocated)>)
    requires a.Some? ==> Valid(a.value)
    requires str.Some? ==> Mem.CString(str.value) && |str.value| + 1 < TWO64
    ensures str.None? ==> r.Failure?
    ensures r.Value? ==> Valid(r.value.1.arena)
    ensures r.Value? ==> (var al := r.value.1; var s := str.value;
      al.at.region < |al.arena.regions|
      && WORD * al.at.word + |s| + 1 <= |al.arena.regions[al.at.region].data|
      && BytesAt(al.arena, al.at)[..|s| + 1] == s + [0])
    ensures r.Value? && a.Some? ==> r.value.0 == Some(r.value.1.arena)
    ensures r.Value? && a.None? ==> r.value.0.None?
  {
    match str
    case None => Failure(Undefined("strlen of a NULL string"))
    case Some(s) =>
      var got :- AllocIn(a, |s| + 1);
      var copied :- CopyInto(got.1, s);
      Value((if a.Some? then Some(copied.arena) else None, copied))
  }

  /** The `memcpy` of `arena_strdup`: the string and its terminator written at the words handed out. */
  function CopyInto(al: Allocated, s: seq<bv8>): (r: Result<Allocated>)
    requires Valid(al.arena) && al.at.region < |al.arena.regions|
    ensures r.Failure? <==> WORD * al.at.word + |s| + 1 > |al.arena.regions[al.at.region].data|
    ensures r.Value? ==> Valid(r.value.arena) && r.value.at == al.at
    ensures r.Value? ==> (var c := r.value;
      c.at.region < |c.arena.regions|
      && WORD * c.at.word + |s| + 1 <= |c.arena.regions[c.at.region].data|
      && BytesAt(c.arena, c.at)[..|s| + 1] == s + [0])
  {
    var p := al.at;
    if WORD * p.word + |s| + 1 > |al.arena.regions[p.region].data| then
      Failure(Undefined("copy past the words handed out"))
    else
      Value(Allocated(Store(al.arena, p, s + [0]), p))
  }

  /** Unless the byte count wraps, the copy fits the words handed out, so only the allocation can fail. */
  lemma StrdupFitsItsWords(a: Option<Arena>, s: seq<bv8>)
    requires a.Some? ==> Valid(a.value)
    requires Mem.CString(s) && |s| + WORD < TWO64
    ensures Strdup(a, Some(s)).Failure? <==> AllocIn(a, |s| + 1).Failure?
  {
    var r := AllocIn(a, |s| + 1);
    if r.Value? {
      CopyFits(r.value.1, s);
    }
  }

  /** The words handed out for `|s| + 1` bytes hold the string and its terminator. */
  lemma CopyFits(al: Allocated, s: seq<bv8>)
    requires Valid(al.arena) && al.at.region < |al.arena.regions| && |s| + WORD < TWO64
    requires al.at.word + Words(|s| + 1) == al.arena.regions[al.at.region].count
    ensures CopyInto(al, s).Value?
  {
    var rg := al.arena.regions[al.at.region];
    WordsCover(al.at.word, Words(|s| + 1), rg.count, rg.capacity, |s| + 1);
  }

  lemma WordsCover(word: nat, w: nat, count: nat, capacity: nat, n: nat)
    requires word + w == count <= capacity && n <= WORD * w
    ensures WORD * word + n <= WORD * capacity
  {
    assert WORD * word + WORD * w == WORD * count;
  }

  /** The copy reads back as the original string. */
  lemma StrdupReadsBack(a: Option<Arena>, s: seq<bv8>)
    requires a.Some? ==> Valid(a.value)
    requires Mem.CString(s) && |s| + 1 < TWO64
    ensures var r := Strdup(a, Some(s));
      r.Value? ==> Mem.ReadString(BytesAt(r.value.1.arena, r.value.1.at)) == s
  {
    var r := Strdup(a, Some(s));
    if r.Value? {
      Mem.ReadStringOfTerminated(s, BytesAt(r.value.1.arena, r.value.1.at));
    }
  }

  /**
   * `arena_reset` as written: `end` walks from `start` to the last region,
   * freeing every region it leaves, and the last region's count is cleared.
   * `start` is not moved, so when regions were freed it is left on freed
   * memory.  A NULL arena, an arena without regions (a NULL `start`) and a
   * dangling `start` are dereferenced: undefined behaviour.
   */
  function ResetAsWritten(a: Option<Arena>): (r: Result<Arena>)
    requires a.Some? ==> Valid(a.value)
    ensures r.Value? <==> a.Some? && a.value.regions != [] && !a.value.startFreed
    ensures r.Value? ==> (Valid(r.value) && AtLast(r.value)
      && r.value.startFreed == (|a.value.regions| > 1)
      && r.value.regions == [a.value.regions[|a.value.regions| - 1].(count := 0)])
  {
    if a.None? || a.value.regions == [] || a.value.startFreed then Failure(Undefined("reset through a NULL or freed pointer"))
    else
      var last := a.value.regions[|a.value.regions| - 1];
      Value(Arena([last.(count := 0)], 0, |a.value.regions| > 1))
  }

  /**
   * `arena_reset` with `start` moved to the region kept: the same walk and
   * clearing, after which the arena is whole again.
   */
  function Reset(a: Option<Arena>): (r: Result<Arena>)
    requires a.Some? ==> Valid(a.value)
    ensures r.Value? <==> a.Some? && a.value.regions != [] && !a.value.startFreed
    ensures r.Value? ==> (Valid(r.value) && AtLast(r.value) && !r.value.startFreed
      && r.value.regions == [a.value.regions[|a.value.regions| - 1].(count := 0)])
  {
    if a.None? || a.value.regions == [] || a.value.startFreed then Failure(Undefined("reset through a NULL or freed pointer"))
    else
      var last := a.value.regions[|a.value.regions| - 1];
      Value(Arena([last.(count := 0)], 0, false))
  }

  /**
   * `arena_free`: nothing for a NULL arena; otherwise every region from
   * `start` on is freed and both pointers are cleared.  Walking from a
   * dangling `start` is undefined behaviour.
   */
  function Free(a: Option<Arena>): (r: Result<Option<Arena>>)
    requires a.Some? ==> Valid(a.value)
    ensures r.Failure? <==> a.Some? && a.value.startFreed
    ensures a.None? ==> r == Value(None)
    ensures r.Value? && a.Some? ==> r.value == Some(Empty)
  {
    match a
    case None => Value(None)
    case Some(arena) =>
      if arena.startFreed then Failure(Undefined("freeing through a dangling start"))
      else Value(Some(Empty))
  }

  /**
   * After a reset the kept region is reused from its first word: a request
   * that fits its capacity is served there without a new region.
   */
  lemma ResetReuses(a: Arena, sizeBytes: nat)
    requires Valid(a) && a.regions != [] && !a.startFreed && sizeBytes < TWO64
    requires Words(sizeBytes) <= a.regions[|a.regions| - 1].capacity
    ensures Reset(Some(a)).Value?
    ensures var r := Alloc(Reset(Some(a)).value, sizeBytes);
      r.Value? && r.value.at == Place(0, 0) && |r.value.arena.regions| == 1
  {
  }

  /** An arena freed is like a new one: the next allocation starts a first region. */
  lemma FreeThenAlloc(a: Arena, sizeBytes: nat)
    requires Valid(a) && !a.startFreed && sizeBytes < TWO64
    ensures Free(Some(a)) == Value(Some(Empty))
    ensures Alloc(Empty, sizeBytes).Value? ==> Alloc(Empty, sizeBytes).value.at == Place(0, 0)
  {
  }

  /**
   * With more than one region, the reset as written leaves `start` dangling,
   * so the arena can be neither reset nor freed again; with `start` moved
   * both succeed.
   */
  lemma ResetThenFreeAsWritten(a: Arena)
    requires Valid(a) && !a.startFreed && |a.regions| > 1
    ensures ResetAsWritten(Some(a)).Value?
    ensures Free(Some(ResetAsWritten(Some(a)).value)).Failure?
    ensures ResetAsWritten(Some(ResetAsWritten(Some(a)).value)).Failure?
    ensures Reset(Some(a)).Value? && Free(Some(Reset(Some(a)).value)) == Value(Some(Empty))
    ensures Reset(Some(Reset(Some(a)).value)).Value?
  {
  }

  /** A full default region followed by one more word: an arena of two regions. */
  lemma TwoRegions()
    ensures Alloc(Empty, WORD * DEFAULT_REGION_SIZE).Value?
    ensures var one := Alloc(Empty, WORD * DEFAULT_REGION_SIZE).value.arena;
      Alloc(one, 1).Value? && |Alloc(one, 1).value.arena.regions| == 2
  {
    var one := Alloc(Empty, WORD * DEFAULT_REGION_SIZE).value.arena;
    assert one.regions[0].count == DEFAULT_REGION_SIZE;
  }
}

=== FILE: arith.dfy ===
/**
 * The integer half of binary-operator evaluation: what one operator computes
 * once both operands have been evaluated at the promoted width.  An `int`
 * operation works on two `int`s; a `short` operation reads two `short`s,
 * computes in `int` (C's usual arithmetic conversions) and stores the result
 * back into a `short`.
 */
module Arith {
  import opened CInt
  import opened Syntax

  /**
   * What one operator application produces: a value; a diagnostic after
   * which evaluation carries on with 0; or C undefined behaviour.
   */
  datatype Computed = Yields(value: int) | Reports(message: string) | Traps(what: string)

  predicate IsComparison(op: BinaryOp)
  {
    op == Lt || op == Gt || op == Le || op == Ge || op == Eq || op == Ne
  }

  /** The relation a comparison operator tests. */
  predicate Holds(op: BinaryOp, a: int, b: int)
    requires IsComparison(op)
  {
    match op
    case Lt => a < b
    case Gt => a > b
    case Le => a <= b
    case Ge => a >= b
    case Eq => a == b
    case Ne => a != b
  }

  /**
   * An `int`-width operation.  Signed overflow of `+`, `-` and `*` is taken
   * to wrap around, as the two's-complement hardware does; `INT_MIN / -1`
   * and `INT_MIN % -1` trap.  The modulo of a node carrying the `unsigned`
   * modifier is computed on the operands' unsigned reinterpretations.
   * `&&` and `||` never reach this point from the integer evaluators; here
   * they hit the "unsupported operator" branch, whose NULL result is then
   * dereferenced.
   */
  function IntBinary(op: BinaryOp, a: int, b: int, isUnsigned: bool): (r: Computed)
    requires IsInt32(a) && IsInt32(b)
    ensures r.Yields? ==> IsInt32(r.value)
    ensures r.Reports? <==> (op == Divide || op == Modulo) && b == 0
    ensures r.Reports? ==> r.message == (if op == Divide then "Division by zero" else "Modulo by zero")
    ensures r.Traps? <==> (op == And || op == Or ||
                           (a == INT_MIN && b == -1 && (op == Divide || (op == Modulo && !isUnsigned))))
    ensures IsComparison(op) ==> r == Yields(BoolValue(Holds(op, a, b)))
  {
    match op
    case Plus => Yields(Wrap32(a + b))
    case Minus => Yields(Wrap32(a - b))
    case Times => Yields(Wrap32(a * b))
    case Divide =>
      if b == 0 then Reports("Division by zero")
      else if a == INT_MIN && b == -1 then Traps("INT_MIN / -1 overflows int")
      else CDivModFit(a, b); Yields(CDiv(a, b))
    case Modulo =>
      if b == 0 then Reports("Modulo by zero")
      else if isUnsigned then Yields(Wrap32(ToUnsigned32(a) % ToUnsigned32(b)))
      else if a == INT_MIN && b == -1 then Traps("INT_MIN % -1 overflows int")
      else CDivModFit(a, b); Yields(CMod(a, b))
    case Lt => Yields(BoolValue(a < b))
    case Gt => Yields(BoolValue(a > b))
    case Le => Yields(BoolValue(a <= b))
    case Ge => Yields(BoolValue(a >= b))
    case Eq => Yields(BoolValue(a == b))
    case Ne => Yields(BoolValue(a != b))
    case And => Traps("unsupported binary operator yields a NULL result")
    case Or => Traps("unsupported binary operator yields a NULL result")
  }

  /**
   * A `short`-width operation.  Unlike the `int` case, the remainder has no
   * zero guard: `x % 0` on shorts is undefined behaviour.  The quotient
   * `-32768 / -1` is computed in `int` and wraps when stored back.
   */
  function ShortBinary(op: BinaryOp, a: int, b: int): (r: Computed)
    requires IsInt16(a) && IsInt16(b)
    ensures r.Yields? ==> IsInt16(r.value)
    ensures r.Reports? <==> op == Divide && b == 0
    ensures r.Reports? ==> r.message == "Division by zero"
    ensures r.Traps? <==> op == And || op == Or || (op == Modulo && b == 0)
    ensures IsComparison(op) ==> r == Yields(BoolValue(Holds(op, a, b)))
  {
    match op
    case Plus => Yields(Wrap16(a + b))
    case Minus => Yields(Wrap16(a - b))
    case Times => Yields(Wrap16(a * b))
    case Divide =>
      if b == 0 then Reports("Division by zero")
      else Yields(Wrap16(CDiv(a, b)))
    case Modulo =>
      if b == 0 then Traps("short remainder by zero")
      else Yields(CMod(a, b))
    case Lt => Yields(BoolValue(a < b))
    case Gt => Yields(BoolValue(a > b))
    case Le => Yields(BoolValue(a <= b))
    case Ge => Yields(BoolValue(a >= b))
    case Eq => Yields(BoolValue(a == b))
    case Ne => Yields(BoolValue(a != b))
    case And => Traps("unsupported binary operator yields a NULL result")
    case Or => Traps("unsupported binary operator yields a NULL result")
  }

  /** C's promise `(a / b) * b + a % b == a` holds of the signed `int` operators. */
  lemma IntDivModIdentity(a: int, b: int)
    requires IsInt32(a) && IsInt32(b) && b != 0
    requires !(a == INT_MIN && b == -1)
    ensures IntBinary(Divide, a, b, false).Yields? && IntBinary(Modulo, a, b, false).Yields?
    ensures IntBinary(Divide, a, b, false).value * b + IntBinary(Modulo, a, b, false).value == a
  {
  }

  /**
   * The unsigned remainder, read back as unsigned, is below the unsigned
   * divisor; on non-negative operands it agrees with the signed one.
   */
  lemma UnsignedModulo(a: int, b: int)
    requires IsInt32(a) && IsInt32(b) && b != 0
    ensures IntBinary(Modulo, a, b, true).Yields?
    ensures ToUnsigned32(IntBinary(Modulo, a, b, true).value) < ToUnsigned32(b)
    ensures a >= 0 && b > 0 ==> IntBinary(Modulo, a, b, true) == IntBinary(Modulo, a, b, false)
  {
    var u := ToUnsigned32(a) % ToUnsigned32(b);
    UnsignedOfWrap32(u);
    if a >= 0 && b > 0 {
      CDivModNonNegative(a, b);
    }
  }

  /**
   * A `short` operation is the `int` operation on the same operands,
   * truncated to 16 bits, whenever both produce a value.
   */
  lemma {:induction false} ShortIsTruncatedInt(op: BinaryOp, a: int, b: int)
    requires IsInt16(a) && IsInt16(b)
    requires ShortBinary(op, a, b).Yields?
    ensures IntBinary(op, a, b, false).Yields?
    ensures ShortBinary(op, a, b).value == Wrap16(IntBinary(op, a, b, false).value)
  {
    match op
    case Plus => Wrap16OfWrap32(a + b);
    case Minus => Wrap16OfWrap32(a - b);
    case Times => Wrap16OfWrap32(a * b);
    case _ =>
  }

  /** The short quotient that does not fit a short wraps around. */
  lemma ShortQuotientWraps()
    ensures ShortBinary(Divide, SHRT_MIN, -1) == Yields(SHRT_MIN)
    ensures IntBinary(Divide, SHRT_MIN, -1, false) == Yields(SHRT_MAX + 1)
  {
    assert CDiv(SHRT_MIN, -1) == SHRT_MAX + 1;
  }
}

=== FILE: cint.dfy ===
/**
 * C integer semantics used by the interpreter: the value ranges of `int`,
 * `short` and `char`, the two's-complement truncation the compiler applies
 * when an out-of-range value is stored into a narrower type, and C's
 * division and remainder, which truncate toward zero (Dafny's `/` and `%`
 * are Euclidean).
 */
module CInt {

  const INT_MIN: int := -0x8000_0000
  const INT_MAX: int := 0x7FFF_FFFF
  const SHRT_MIN: int := -0x8000
  const SHRT_MAX: int := 0x7FFF
  const CHAR_MIN: int := -0x80
  const CHAR_MAX: int := 0x7F
  const TWO32: int := 0x1_0000_0000
  const TWO16: int := 0x1_0000
  const TWO8: int := 0x100
  const TWO64: int := 0x1_0000_0000_0000_0000

  predicate IsInt32(x: int) { INT_MIN <= x <= INT_MAX }
  predicate IsInt16(x: int) { SHRT_MIN <= x <= SHRT_MAX }
  predicate IsInt8(x: int) { CHAR_MIN <= x <= CHAR_MAX }

  function Abs(x: int): nat { if x < 0 then -x else x }

  /** `(int)x`: the value `x` takes once stored in 32 bits. */
  function Wrap32(x: int): (r: int)
    ensures IsInt32(r)
    ensures (x - r) % TWO32 == 0
    ensures IsInt32(x) ==> r == x
    ensures 0 <= x ==> r <= x
  {
    var m := x % TWO32;
    if m > INT_MAX then m - TWO32 else m
  }

  /** `(short)x` */
  function Wrap16(x: int): (r: int)
    ensures IsInt16(r)
    ensures (x - r) % TWO16 == 0
    ensures IsInt16(x) ==> r == x
  {
    var m := x % TWO16;
    if m > SHRT_MAX then m - TWO16 else m
  }

  /** `(char)x` with a signed `char` */
  function Wrap8(x: int): (r: int)
    ensures IsInt8(r)
    ensures (x - r) % TWO8 == 0
    ensures IsInt8(x) ==> r == x
  {
    var m := x % TWO8;
    if m > CHAR_MAX then m - TWO8 else m
  }

  /** `(unsigned int)x` for an `int` x. */
  function ToUnsigned32(x: int): (r: nat)
    requires IsInt32(x)
    ensures r < TWO32
    ensures x >= 0 ==> r == x
    ensures x < 0 ==> r == x + TWO32
  {
    if x < 0 then x + TWO32 else x
  }

  /** C's `a / b`: the quotient truncated toward zero. */
  function CDiv(a: int, b: int): (q: int)
    requires b != 0
    ensures Abs(q) == Abs(a) / Abs(b)
    ensures q != 0 ==> ((q < 0) <==> ((a < 0) != (b < 0)))
  {
    DivNonNegative(Abs(a), Abs(b));
    var mag := Abs(a) / Abs(b);
    if (a < 0) != (b < 0) then -mag else mag
  }

  lemma DivNonNegative(n: nat, d: nat)
    requires d > 0
    ensures n / d >= 0
  {
    assert n == (n / d) * d + n % d;
  }

  lemma EuclidBounds(n: nat, d: nat)
    requires d > 0
    ensures (n / d) * d <= n < (n / d + 1) * d
  {
    assert n == (n / d) * d + n % d;
    assert (n / d + 1) * d == (n / d) * d + d;
  }

  /**
   * The one `int` quotient that does not fit an `int` is `INT_MIN / -1`;
   * every remainder fits.
   */
  lemma CDivModFit(a: int, b: int)
    requires IsInt32(a) && IsInt32(b) && b != 0
    ensures !(a == INT_MIN && b == -1) ==> IsInt32(CDiv(a, b))
    ensures IsInt32(CMod(a, b))
  {
    var mag := Abs(a) / Abs(b);
    if Abs(b) >= 2 {
      DivByTwoOrMore(Abs(a), Abs(b));
    }
  }

  lemma DivByTwoOrMore(n: nat, d: nat)
    requires d >= 2
    ensures 2 * (n / d) <= n
  {
    EuclidBounds(n, d);
    DivNonNegative(n, d);
    MulMonotone(n / d, 2, d);
  }

  lemma MulMonotone(x: nat, y: nat, z: nat)
    requires y <= z
    ensures x * y <= x * z
  {
  }

  /** C's `a % b`: the remainder that goes with `CDiv`, carrying the sign of `a`. */
  function CMod(a: int, b: int): (r: int)
    requires b != 0
    ensures a == CDiv(a, b) * b + r
    ensures Abs(r) < Abs(b)
    ensures r != 0 ==> ((r < 0) <==> (a < 0))
  {
    CModFacts(a, b);
    EuclidBounds(Abs(a), Abs(b));
    a - CDiv(a, b) * b
  }

  lemma CModFacts(a: int, b: int)
    requires b != 0
    ensures Abs(a - CDiv(a, b) * b) == Abs(a) - Abs(CDiv(a, b)) * Abs(b)
  {
    var q := CDiv(a, b);
    if (a < 0) != (b < 0) {
      if a < 0 {
        assert q * b == -(Abs(q) * Abs(b));
      } else {
        assert q * b == Abs(q) * Abs(b);
      }
    } else {
      if a < 0 {
        assert q * b == -(Abs(q) * Abs(b));
      } else {
        assert q * b == Abs(q) * Abs(b);
      }
    }
  }

  /** On non-negative operands, C division and remainder agree with Dafny's. */
  lemma {:induction false} CDivModNonNegative(a: int, b: int)
    requires a >= 0 && b > 0
    ensures CDiv(a, b) == a / b && CMod(a, b) == a % b
  {
  }

  /** Truncating to 32 bits and then to 16 bits is truncating to 16 bits. */
  lemma Wrap16OfWrap32(x: int)
    ensures Wrap16(Wrap32(x)) == Wrap16(x)
  {
    var y := Wrap32(x);
    var k := (x - y) / TWO32;
    assert x - y == k * TWO32;
    assert x == y + (k * 0x1_0000) * TWO16;
    ModShift(y, k * 0x1_0000, TWO16);
  }

  /** Truncating to 32 bits ignores multiples of 2^64 (a `size_t` wrap). */
  lemma Wrap32OfSizeT(x: int)
    ensures Wrap32(x % TWO64) == Wrap32(x)
  {
    var k := x / TWO64;
    assert x == x % TWO64 + (k * TWO32) * TWO32;
    ModShift(x % TWO64, k * TWO32, TWO32);
  }

  /** Truncating to 16 bits ignores multiples of 2^64 as well. */
  lemma Wrap16OfSizeT(x: int)
    ensures Wrap16(x % TWO64) == Wrap16(x)
  {
    var k := x / TWO64;
    assert x == x % TWO64 + (k * 0x1_0000_0000_0000) * TWO16;
    ModShift(x % TWO64, k * 0x1_0000_0000_0000, TWO16);
  }

  /** Adding a multiple of the modulus leaves the Euclidean remainder alone. */
  lemma ModShift(y: int, k: int, m: int)
    requires m > 0
    ensures (y + k * m) % m == y % m
  {
    var q := y / m;
    assert y == q * m + y % m;
    assert y + k * m == (q + k) * m + y % m;
    ModUnique(y + k * m, m, q + k, y % m);
  }

  /** The remainder is the only value in [0, m) that differs from `a` by a multiple of m. */
  lemma ModUnique(a: int, m: int, q: int, r: int)
    requires m > 0 && 0 <= r < m && a == q * m + r
    ensures a % m == r
  {
    var d := q - a / m;
    assert d * m == a % m - r;
  }

  /** Reading back an unsigned value below 2^32 that was stored in an `int`. */
  lemma UnsignedOfWrap32(x: int)
    requires 0 <= x < TWO32
    ensures ToUnsigned32(Wrap32(x)) == x
  {
  }
}

=== FILE: env.dfy ===
/**
 * The interpreter's variables and its chain of scopes.  A scope maps names
 * to variables; the chain is a sequence with the innermost (current) scope
 * last, so "walk to the parent" is "look one position to the left".
 */
module Env {
  import opened Outcome
  import opened Syntax
  import HashMap

  /**
   * What a variable holds: one number, the elements of its array, or, after
   * its array buffer was freed and no new one was allocated, nothing usable.
   * Every number is held as the value it has in the variable's own type.
   */
  datatype Payload = Scalar(v: int) | Cells(elems: seq<int>) | Dangling

  datatype Variable = Variable(varType: VarType, isArray: bool, arrayLength: int, mods: Mods, payload: Payload)

  type Scope = map<string, Variable>

  /** A freshly allocated (zero-filled) variable: an `int` holding 0. */
  const Zeroed := Variable(VarInt, false, 0, NoMods, Scalar(0))

  /** The position of the innermost scope that binds `name`. */
  function Find(scopes: seq<Scope>, name: string): (r: Option<nat>)
    ensures r.Some? ==> r.value < |scopes| && name in scopes[r.value]
    ensures r.Some? ==> forall j :: r.value < j < |scopes| ==> name !in scopes[j]
    ensures r.None? ==> forall j :: 0 <= j < |scopes| ==> name !in scopes[j]
    decreases |scopes|
  {
    if |scopes| == 0 then None
    else if name in scopes[|scopes| - 1] then Some(|scopes| - 1)
    else Find(scopes[..|scopes| - 1], name)
  }

  /** A binding with nothing inside it is the one `Find` reports. */
  lemma {:induction false} FindAt(scopes: seq<Scope>, name: string, i: nat)
    requires i < |scopes| && name in scopes[i]
    requires forall j :: i < j < |scopes| ==> name !in scopes[j]
    ensures Find(scopes, name) == Some(i)
  {
  }

  /** The variable `get_variable` returns: the innermost binding, if any. */
  function Get(scopes: seq<Scope>, name: string): (r: Option<Variable>)
    ensures r.Some? <==> Find(scopes, name).Some?
    ensures r.Some? ==> r.value == scopes[Find(scopes, name).value][name]
  {
    match Find(scopes, name)
    case None => None
    case Some(i) => Some(scopes[i][name])
  }

  /** Replaces the innermost binding of `name`, which must exist. */
  function Rebind(scopes: seq<Scope>, name: string, v: Variable): (r: seq<Scope>)
    requires Find(scopes, name).Some?
    ensures |r| == |scopes|
    ensures Get(r, name) == Some(v)
    ensures forall j :: 0 <= j < |scopes| && j != Find(scopes, name).value ==> r[j] == scopes[j]
    ensures r[Find(scopes, name).value] == scopes[Find(scopes, name).value][name := v]
  {
    var i := Find(scopes, name).value;
    var r := scopes[i := scopes[i][name := v]];
    FindAt(r, name, i);
    r
  }

  /**
   * `set_variable`: the innermost binding of `name` takes the given type,
   * value and modifiers in place; `None` when nothing binds the name.  Array
   * flag and length are left as they were.
   */
  function SetVariable(scopes: seq<Scope>, name: string, t: VarType, value: int, mods: Mods): (r: Option<seq<Scope>>)
    ensures r.None? <==> Find(scopes, name).None?
    ensures r.Some? ==> |r.value| == |scopes| && Find(r.value, name) == Find(scopes, name)
    ensures r.Some? ==> var old_ := Get(scopes, name).value;
      Get(r.value, name) == Some(Variable(t, old_.isArray, old_.arrayLength, mods, Scalar(value)))
    ensures r.Some? ==> forall j :: 0 <= j < |scopes| && j != Find(scopes, name).value ==> r.value[j] == scopes[j]
    ensures r.Some? ==> forall j :: 0 <= j < |scopes| ==> r.value[j].Keys == scopes[j].Keys
    ensures r.Some? ==> var i := Find(scopes, name).value;
      r.value == scopes[i := scopes[i][name := Get(r.value, name).value]]
  {
    match Find(scopes, name)
    case None => None
    case Some(i) =>
      var old_ := scopes[i][name];
      Some(Rebind(scopes, name, old_.(varType := t, mods := mods, payload := Scalar(value))))
  }

  /** What `set_array_variable` can do. */
  datatype ArraySet = Resized(scopes: seq<Scope>) | Unbound | ArrayFailure(halt: Halt)

  /**
   * `set_array_variable`: the innermost binding of `name` becomes an array
   * of `length` zeroed elements of type `t`.  An old array buffer is freed
   * first, which is undefined when a scalar store has overwritten its
   * pointer; a negative length makes the zero fill write through NULL.
   */
  function SetArrayVariable(scopes: seq<Scope>, name: string, length: int, mods: Mods, t: VarType): (r: ArraySet)
    ensures r.Unbound? <==> Find(scopes, name).None?
    ensures r.Resized? ==> |r.scopes| == |scopes| && Find(r.scopes, name) == Find(scopes, name)
    ensures r.Resized? ==> var v := Get(r.scopes, name).value;
      v.isArray && v.arrayLength == length && v.varType == t && v.mods == mods
    ensures r.Resized? && t != NoType ==> length >= 0 && Get(r.scopes, name).value.payload == Cells(seq(length, _ => 0))
    ensures r.Resized? ==> forall j :: 0 <= j < |scopes| && j != Find(scopes, name).value ==> r.scopes[j] == scopes[j]
  {
    match Find(scopes, name)
    case None => Unbound
    case Some(i) =>
      var old_ := scopes[i][name];
      if old_.isArray && old_.varType != NoType && old_.payload.Scalar? then
        ArrayFailure(Undefined("freeing an array pointer that a scalar store overwrote"))
      else if t != NoType && length < 0 then
        ArrayFailure(Undefined("zero-filling a failed allocation"))
      else
        var payload :=
          if t != NoType then Cells(seq(length, _ => 0))
          else if old_.isArray then Dangling
          else old_.payload;
        Resized(Rebind(scopes, name, Variable(t, true, length, mods, payload)))
  }

  /** `enter_scope`: a new, empty innermost scope. */
  function EnterScope(scopes: seq<Scope>): (r: seq<Scope>)
    ensures |r| == |scopes| + 1 && r[..|scopes|] == scopes && r[|scopes|] == map[]
  {
    scopes + [map[]]
  }

  /** `exit_scope`: the parent becomes current; fatal when there is no scope. */
  function ExitScope(scopes: seq<Scope>): (r: Result<seq<Scope>>)
    ensures r.Failure? <==> |scopes| == 0
    ensures r.Failure? ==> r.halt == Fatal("No scope to exit")
    ensures r.Value? ==> r.value + [scopes[|scopes| - 1]] == scopes
  {
    if |scopes| == 0 then Failure(Fatal("No scope to exit"))
    else Value(scopes[..|scopes| - 1])
  }

  /**
   * `add_variable_to_scope`: binds `name` in the current scope.  Fatal
   * without a scope or when the current scope already binds the name (an
   * outer binding is shadowed, not refused).  Each scope is a hash map that
   * never grows: the put that would take it to its load limit calls a
   * resize that loops forever.
   */
  function AddVariable(scopes: seq<Scope>, name: string, v: Variable): (r: Result<seq<Scope>>)
    ensures |scopes| == 0 ==> r == Failure(Fatal("No scope to add variable to"))
    ensures |scopes| > 0 && name in scopes[|scopes| - 1] ==> r == Failure(Fatal("Variable already exists in current scope"))
    ensures r.Value? <==> |scopes| > 0 && name !in scopes[|scopes| - 1]
                          && !HashMap.AtLoadLimit(|scopes[|scopes| - 1]|, HashMap.INIT_CAPACITY)
    ensures r.Value? ==> |r.value| == |scopes| && r.value[..|scopes| - 1] == scopes[..|scopes| - 1]
                         && r.value[|scopes| - 1] == scopes[|scopes| - 1][name := v]
  {
    if |scopes| == 0 then Failure(Fatal("No scope to add variable to"))
    else
      var top := scopes[|scopes| - 1];
      if name in top then Failure(Fatal("Variable already exists in current scope"))
      else if HashMap.AtLoadLimit(|top|, HashMap.INIT_CAPACITY) then Failure(Diverges)
      else Value(scopes[|scopes| - 1 := top[name := v]])
  }

  /** The modifiers of the innermost binding, none when unbound. */
  function ModifiersOf(scopes: seq<Scope>, name: string): Mods
  {
    match Get(scopes, name)
    case None => NoMods
    case Some(v) => v.mods
  }

  /** `is_const_variable` */
  predicate IsConst(scopes: seq<Scope>, name: string)
  {
    Get(scopes, name).Some? && Get(scopes, name).value.mods.isConst
  }

  /** `check_const_assignment`: assigning to a const binding is fatal. */
  function CheckConst(scopes: seq<Scope>, name: string): (r: Result<()>)
    ensures r.Failure? <==> IsConst(scopes, name)
    ensures r.Failure? ==> r.halt == Fatal("Cannot modify const variable")
  {
    if IsConst(scopes, name) then Failure(Fatal("Cannot modify const variable")) else Value(())
  }
}

=== FILE: expr_facts.dfy ===
/**
 * A reference semantics for plain expressions (literals, names and binary
 * operations) and the lemmas that tie the interpreter's evaluators,
 * assignment and array initialisation to it.
 */
module ExprFacts {
  import opened Outcome
  import opened Syntax
  import opened CInt
  import Env
  import Typing
  import Arith
  import Interp
  import ExprList

  /** Nesting depth of binary operations. */
  function Depth(e: Node): nat
  {
    match e
    case Operation(_, l, r, _) => 1 + (if Depth(l) < Depth(r) then Depth(r) else Depth(l))
    case _ => 0
  }

  /**
   * What one C operator produces as a value of the result type `w`: the
   * computed value converted, 0 after a division-by-zero diagnostic, or
   * nothing when the operation is undefined.
   */
  function ValueOf(c: Arith.Computed, w: Interp.Width): Option<int>
  {
    match c
    case Yields(x) => Some(Interp.Convert(w, x))
    case Reports(_) => Some(0)
    case Traps(_) => None
  }

  /**
   * One binary operator applied to operands already taken at width `v`,
   * as a value of result type `w`: `&&` and `||` give 0 or 1, the others
   * follow C's rules at `short` or `int` width.
   */
  function Operate(op: BinaryOp, v: Interp.Width, a: int, b: int, isUnsigned: bool, w: Interp.Width): Option<int>
    requires Interp.InWidth(v, a) && Interp.InWidth(v, b)
  {
    if op == And then Some(BoolValue(a != 0 && b != 0))
    else if op == Or then Some(BoolValue(a != 0 || b != 0))
    else if v == Interp.AsShort then ValueOf(Arith.ShortBinary(op, a, b), w)
    else if v == Interp.AsInt then ValueOf(Arith.IntBinary(op, a, b, isUnsigned), w)
    else None
  }

  /**
   * The width the operands of a binary operation are taken at: the result
   * type for `&&` and `||`, otherwise the promoted type of the operands when
   * it is `short` or `int`.
   */
  function OperandsAt(e: Node, w: Interp.Width, scopes: seq<Env.Scope>): Option<Interp.Width>
    requires e.Operation?
  {
    if e.op == And || e.op == Or then Some(w)
    else match Typing.OperationWidth(e, scopes)
      case VarInt => Some(Interp.AsInt)
      case VarShort => Some(Interp.AsShort)
      case _ => None
  }

  /**
   * The value a plain expression has as a C value of result type `w` in
   * `scopes`, or nothing when evaluating it stops the program.  Integer,
   * `short` and character literals are converted to `w`; `true` and `false`
   * are 1 and 0; a name is its scalar converted to `w`; an operation is
   * `Operate` on both operands' values.
   */
  function Denote(w: Interp.Width, e: Node, scopes: seq<Env.Scope>): (r: Option<int>)
    requires Typing.Plain(e)
    ensures r.Some? ==> Interp.InWidth(w, r.value)
    decreases e
  {
    match e
    case IntNode(v) => Some(Interp.Convert(w, v))
    case ShortNode(v) => Some(Interp.Convert(w, v))
    case CharNode(v) => Some(Interp.Convert(w, v))
    case BoolNode(b) => Some(BoolValue(b))
    case FloatNode => None
    case DoubleNode => None
    case Identifier(name) =>
      (match Env.Get(scopes, name)
       case Some(x) =>
         if x.payload.Scalar? && x.varType != VarFloat && x.varType != VarDouble && x.varType != NoType
         then Some(Interp.Convert(w, x.payload.v)) else None
       case None => None)
    case Operation(op, l, rt, mods) =>
      match OperandsAt(e, w, scopes)
      case Some(v) =>
        var a := Denote(v, l, scopes);
        var b := Denote(v, rt, scopes);
        if a.Some? && b.Some? then Operate(op, v, a.value, b.value, mods.isUnsigned, w) else None
      case None => None
  }

  /** The interpreter's last step of an operation yields `Operate`'s value. */
  lemma ApplyCombine(op: BinaryOp, v: Interp.Width, a: int, b: int, isUnsigned: bool, w: Interp.Width, st: Interp.State)
    requires Interp.InWidth(v, a) && Interp.InWidth(v, b) && (op == And || op == Or || v != Interp.AsBool)
    ensures Interp.Apply(Interp.Combine(op, v, a, b, isUnsigned), w, st).Ok? <==> Operate(op, v, a, b, isUnsigned, w).Some?
    ensures Interp.Apply(Interp.Combine(op, v, a, b, isUnsigned), w, st).Ok? ==>
      Interp.Apply(Interp.Combine(op, v, a, b, isUnsigned), w, st).val == Operate(op, v, a, b, isUnsigned, w).value
  {
  }

  lemma PlainIsPure(e: Node)
    requires Typing.Plain(e)
    ensures Interp.Pure(e)
  {
  }

  /** An evaluator's result agrees with a reference value: both exist or neither, and they are equal. */
  predicate Agrees(r: Interp.Res<int>, d: Option<int>)
  {
    (r.Ok? <==> d.Some?) && (r.Ok? ==> r.val == d.value)
  }

  /**
   * The evaluators agree with `Denote` on every plain expression, given
   * fuel for its nesting: they finish exactly when it has a value, and then
   * return that value.
   */
  lemma {:induction false} EvalDenotes(fuel: nat, w: Interp.Width, e: Node, st: Interp.State)
    requires Typing.Plain(e) && fuel > 2 * Depth(e)
    ensures Agrees(Interp.Eval(fuel, w, e, st), Denote(w, e, st.scopes))
    decreases e, 3
  {
    if e.Operation? {
      OperationDenotes(fuel, w, e, st);
    } else {
      AtomDenotes(fuel, w, e, st);
    }
  }

  /** Literals and names: the case of `EvalDenotes` without operands. */
  lemma AtomDenotes(fuel: nat, w: Interp.Width, e: Node, st: Interp.State)
    requires Typing.Plain(e) && !e.Operation? && fuel > 0
    ensures Agrees(Interp.Eval(fuel, w, e, st), Denote(w, e, st.scopes))
  {
  }

  /** The operation case of `EvalDenotes`. */
  lemma {:induction false} OperationDenotes(fuel: nat, w: Interp.Width, e: Node, st: Interp.State)
    requires e.Operation? && Typing.Plain(e) && fuel > 2 * Depth(e)
    ensures Agrees(Interp.Eval(fuel, w, e, st), Denote(w, e, st.scopes))
    decreases e, 2
  {
    var f := fuel - 1;
    assert Interp.Eval(fuel, w, e, st) == Interp.EvalOperation(f, w, e, st);
    EvalOperationDenotes(f, w, e, st);
  }

  /** `EvalOperation` combines both operands' values as `Denote` does. */
  lemma {:induction false} EvalOperationDenotes(fuel: nat, w: Interp.Width, e: Node, st: Interp.State)
    requires e.Operation? && Typing.Plain(e) && fuel >= 2 * Depth(e)
    ensures Agrees(Interp.EvalOperation(fuel, w, e, st), Denote(w, e, st.scopes))
    decreases e, 1
  {
    var v := OperandsAt(e, w, st.scopes);
    if v.Some? {
      OperandsDenote(fuel, w, e, st, v.value);
    }
  }

  /** `EvalOperationDenotes` once the operands' width `v` is known. */
  lemma {:induction false} OperandsDenote(fuel: nat, w: Interp.Width, e: Node, st: Interp.State, v: Interp.Width)
    requires e.Operation? && Typing.Plain(e) && fuel >= 2 * Depth(e)
    requires OperandsAt(e, w, st.scopes) == Some(v)
    ensures Agrees(Interp.EvalOperation(fuel, w, e, st), Denote(w, e, st.scopes))
    decreases e, 0
  {
    var f := fuel - 1;
    EvalDenotes(f, v, e.left, st);
    var a := Interp.Eval(f, v, e.left, st);
    var da := Denote(v, e.left, st.scopes);
    var db := Denote(v, e.right, st.scopes);
    DenoteOperation(w, e, st.scopes, v, da, db);
    if a.Ok? {
      PlainIsPure(e.left);
      EvalDenotes(f, v, e.right, a.st);
      var b := Interp.Eval(f, v, e.right, a.st);
      OperationSteps(fuel, w, e, st, v, a, b);
      if b.Ok? {
        ApplyCombine(e.op, v, a.val, b.val, e.opMods.isUnsigned, w, b.st);
      }
    } else {
      OperationSteps(fuel, w, e, st, v, a, a);
    }
  }

  /** `Denote` of an operation, from its operands' values. */
  lemma DenoteOperation(w: Interp.Width, e: Node, scopes: seq<Env.Scope>, v: Interp.Width, da: Option<int>, db: Option<int>)
    requires e.Operation? && Typing.Plain(e) && OperandsAt(e, w, scopes) == Some(v)
    requires da == Denote(v, e.left, scopes) && db == Denote(v, e.right, scopes)
    ensures da.Some? && db.Some? ==> Denote(w, e, scopes) == Operate(e.op, v, da.value, db.value, e.opMods.isUnsigned, w)
    ensures !(da.Some? && db.Some?) ==> Denote(w, e, scopes).None?
  {
  }

  /** The steps of `EvalOperation` once the operands' results `a` and `b` are known. */
  lemma OperationSteps(fuel: nat, w: Interp.Width, e: Node, st: Interp.State, v: Interp.Width, a: Interp.Res<int>, b: Interp.Res<int>)
    requires e.Operation? && fuel > 0 && Interp.OperandWidth(e, w, st.scopes) == Some(v)
    requires a == Interp.Eval(fuel - 1, v, e.left, st)
    requires a.Ok? ==> b == Interp.Eval(fuel - 1, v, e.right, a.st)
    ensures a.Ok? && b.Ok? ==>
      Interp.EvalOperation(fuel, w, e, st) == Interp.Apply(Interp.Combine(e.op, v, a.val, b.val, e.opMods.isUnsigned), w, b.st)
    ensures !(a.Ok? && b.Ok?) ==> Interp.EvalOperation(fuel, w, e, st).Stop?
  {
  }

  /** `name` is bound, innermost, to a scalar `v` of type `t`. */
  predicate Holds(scopes: seq<Env.Scope>, name: string, t: VarType, v: int)
  {
    Env.Get(scopes, name).Some? && Env.Get(scopes, name).value.varType == t
    && Env.Get(scopes, name).value.payload == Env.Scalar(v)
  }

  /** A char, bool or short literal: the right-hand sides stored without evaluation. */
  predicate StoredLiteral(rhs: Node)
  {
    rhs.CharNode? || rhs.BoolNode? || rhs.ShortNode?
  }

  /** The type a stored literal keeps (a char is stored as an `int`). */
  function LiteralType(rhs: Node): VarType
    requires StoredLiteral(rhs)
  {
    if rhs.CharNode? then VarInt else if rhs.BoolNode? then VarBool else VarShort
  }

  /** The value a stored literal keeps: a short is wrapped, a bool is 0 or 1. */
  function LiteralValue(rhs: Node): int
    requires StoredLiteral(rhs)
  {
    if rhs.CharNode? then rhs.cvalue else if rhs.BoolNode? then BoolValue(rhs.bvalue) else Wrap16(rhs.svalue)
  }

  /**
   * What a whole-variable assignment of a plain `rhs` to `name`, declared
   * `t`, leaves behind.  A char, bool or short literal is stored as it is.
   * Any other right-hand side that passes the floating-point tests is
   * evaluated as an `int`: the assignment finishes exactly when `Denote`
   * has a value, and the variable then holds that value as an `int`.  A
   * right-hand side that fails the tests stops the program.
   */
  predicate ReadsBack(r: Interp.Res<Interp.Flow>, name: string, rhs: Node, t: VarType, st: Interp.State)
    requires Typing.Plain(rhs)
  {
    (StoredLiteral(rhs) ==> r.Ok? && Holds(r.st.scopes, name, LiteralType(rhs), LiteralValue(rhs)))
    && (!StoredLiteral(rhs) && Interp.FloatingAssignment(t, rhs, st) != Value(false) ==> r.Stop?)
    && (!StoredLiteral(rhs) && Interp.FloatingAssignment(t, rhs, st) == Value(false) ==>
          (r.Ok? <==> Denote(Interp.AsInt, rhs, st.scopes).Some?)
          && (r.Ok? ==> Holds(r.st.scopes, name, VarInt, Denote(Interp.AsInt, rhs, st.scopes).value)))
  }

  /** An assignment to a bound, non-const variable reads back as `ReadsBack` says. */
  lemma AssignReadsBack(fuel: nat, name: string, rhs: Node, t: VarType, mods: Mods, st: Interp.State)
    requires !Env.IsConst(st.scopes, name) && Env.Find(st.scopes, name).Some?
    requires Typing.Plain(rhs) && fuel > 2 * Depth(rhs) + 2
    ensures ReadsBack(Interp.Assign(fuel, WholeVariable(name), rhs, t, mods, st), name, rhs, t, st)
  {
    var f := fuel - 1;
    AssignIsScalar(fuel, f, name, rhs, t, mods, st);
    ScalarReadsBack(f, name, rhs, t, mods, st);
  }

  lemma AssignIsScalar(fuel: nat, f: nat, name: string, rhs: Node, t: VarType, mods: Mods, st: Interp.State)
    requires !Env.IsConst(st.scopes, name) && fuel > 0 && f == fuel - 1
    ensures Interp.Assign(fuel, WholeVariable(name), rhs, t, mods, st) == Interp.AssignScalar(f, name, rhs, t, mods, st)
  {
  }

  /** `AssignReadsBack` for the whole-variable store itself. */
  lemma ScalarReadsBack(fuel: nat, name: string, rhs: Node, t: VarType, mods: Mods, st: Interp.State)
    requires Env.Find(st.scopes, name).Some?
    requires Typing.Plain(rhs) && fuel > 2 * Depth(rhs) + 1
    ensures ReadsBack(Interp.AssignScalar(fuel, name, rhs, t, mods, st), name, rhs, t, st)
  {
    if StoredLiteral(rhs) {
      LiteralStored(fuel, name, rhs, t, mods, st);
    } else if Interp.FloatingAssignment(t, rhs, st) == Value(false) {
      EvaluatedStored(fuel, name, rhs, t, mods, st);
    } else {
      FloatingStops(fuel, name, rhs, t, mods, st);
    }
  }

  lemma LiteralStored(fuel: nat, name: string, rhs: Node, t: VarType, mods: Mods, st: Interp.State)
    requires Env.Find(st.scopes, name).Some? && StoredLiteral(rhs) && fuel > 0
    ensures var r := Interp.AssignScalar(fuel, name, rhs, t, mods, st);
      r.Ok? && Holds(r.st.scopes, name, LiteralType(rhs), LiteralValue(rhs))
  {
  }

  lemma FloatingStops(fuel: nat, name: string, rhs: Node, t: VarType, mods: Mods, st: Interp.State)
    requires !StoredLiteral(rhs) && Interp.FloatingAssignment(t, rhs, st) != Value(false) && fuel > 0
    ensures Interp.AssignScalar(fuel, name, rhs, t, mods, st).Stop?
  {
  }

  lemma EvaluatedStored(fuel: nat, name: string, rhs: Node, t: VarType, mods: Mods, st: Interp.State)
    requires Env.Find(st.scopes, name).Some?
    requires Typing.Plain(rhs) && fuel > 2 * Depth(rhs) + 1
    requires !StoredLiteral(rhs) && Interp.FloatingAssignment(t, rhs, st) == Value(false)
    ensures var r := Interp.AssignScalar(fuel, name, rhs, t, mods, st);
      (r.Ok? <==> Denote(Interp.AsInt, rhs, st.scopes).Some?)
      && (r.Ok? ==> Holds(r.st.scopes, name, VarInt, Denote(Interp.AsInt, rhs, st.scopes).value))
  {
    var f := fuel - 1;
    var v := Interp.Eval(f, Interp.AsInt, rhs, st);
    EvalDenotes(f, Interp.AsInt, rhs, st);
    PlainIsPure(rhs);
    EvaluatedSteps(fuel, name, rhs, t, mods, st, v);
  }

  /** The store that follows the evaluation of a non-literal right-hand side. */
  lemma EvaluatedSteps(fuel: nat, name: string, rhs: Node, t: VarType, mods: Mods, st: Interp.State, v: Interp.Res<int>)
    requires fuel > 0 && !StoredLiteral(rhs) && Interp.FloatingAssignment(t, rhs, st) == Value(false)
    requires v == Interp.Eval(fuel - 1, Interp.AsInt, rhs, st)
    ensures v.Stop? ==> Interp.AssignScalar(fuel, name, rhs, t, mods, st).Stop?
    ensures v.Ok? ==> Interp.AssignScalar(fuel, name, rhs, t, mods, st)
                      == Interp.Store(name, VarInt, v.val, mods, "Failed to set integer variable", v.st)
  {
  }

  // ---------------------------------------------------------------------
  // Array initializers
  // ---------------------------------------------------------------------

  /**
   * Two bindings read alike by a plain expression: both present or both
   * absent, of the same type, and a scalar on either side is the same
   * scalar on both.
   */
  predicate SameBinding(a: Option<Env.Variable>, b: Option<Env.Variable>)
  {
    a.Some? == b.Some?
    && (a.Some? ==> a.value.varType == b.value.varType
                    && (a.value.payload.Scalar? || b.value.payload.Scalar? ==> a.value.payload == b.value.payload))
  }

  /** Every name reads alike in the two chains of scopes. */
  ghost predicate SameReads(s1: seq<Env.Scope>, s2: seq<Env.Scope>)
  {
    forall x :: SameBinding(Env.Get(s1, x), Env.Get(s2, x))
  }

  /** Chains with the same names in every scope find every name at the same position. */
  lemma {:induction false} SameKeysFind(s1: seq<Env.Scope>, s2: seq<Env.Scope>, x: string)
    requires |s1| == |s2| && forall j :: 0 <= j < |s1| ==> s1[j].Keys == s2[j].Keys
    ensures Env.Find(s1, x) == Env.Find(s2, x)
    decreases |s1|
  {
    if |s1| > 0 && x !in s1[|s1| - 1] {
      SameKeysFind(s1[..|s1| - 1], s2[..|s2| - 1], x);
    }
  }

  /** The static type of a plain expression depends only on how its names read. */
  lemma {:induction false} ExprTypeReads(e: Node, s1: seq<Env.Scope>, s2: seq<Env.Scope>)
    requires Typing.Plain(e) && SameReads(s1, s2)
    ensures Typing.ExprType(e, s1) == Typing.ExprType(e, s2)
  {
    match e
    case Identifier(x) => assert SameBinding(Env.Get(s1, x), Env.Get(s2, x));
    case Operation(_, l, r, _) =>
      ExprTypeReads(l, s1, s2);
      ExprTypeReads(r, s1, s2);
    case _ =>
  }

  /** So does the value `Denote` gives it. */
  lemma {:induction false} DenoteReads(w: Interp.Width, e: Node, s1: seq<Env.Scope>, s2: seq<Env.Scope>)
    requires Typing.Plain(e) && SameReads(s1, s2)
    ensures Denote(w, e, s1) == Denote(w, e, s2)
    decreases e
  {
    match e
    case Identifier(x) => assert SameBinding(Env.Get(s1, x), Env.Get(s2, x));
    case Operation(_, l, r, _) =>
      ExprTypeReads(l, s1, s2);
      ExprTypeReads(r, s1, s2);
      assert OperandsAt(e, w, s1) == OperandsAt(e, w, s2);
      var v := OperandsAt(e, w, s1);
      if v.Some? {
        DenoteReads(v.value, l, s1, s2);
        DenoteReads(v.value, r, s1, s2);
      }
    case _ =>
  }

  /**
   * Writing a cell of the innermost binding of an array leaves every read
   * of a plain expression as it was, and that binding where it was.
   */
  lemma WriteCellReads(k: nat, name: string, idx: int, value: int, st: Interp.State)
    requires Env.Find(st.scopes, name) == Some(k)
    requires Interp.WriteCell(k, name, idx, value, st).Ok?
    ensures var r := Interp.WriteCell(k, name, idx, value, st);
      Env.Find(r.st.scopes, name) == Some(k) && SameReads(st.scopes, r.st.scopes)
  {
    var r := Interp.WriteCell(k, name, idx, value, st);
    var v := st.scopes[k][name];
    assert r.st.scopes == st.scopes[k := st.scopes[k][name := v.(payload := r.st.scopes[k][name].payload)]];
    forall x
      ensures SameBinding(Env.Get(st.scopes, x), Env.Get(r.st.scopes, x))
    {
      SameKeysFind(st.scopes, r.st.scopes, x);
    }
  }

  lemma SameReadsTransitive(s1: seq<Env.Scope>, s2: seq<Env.Scope>, s3: seq<Env.Scope>)
    requires SameReads(s1, s2) && SameReads(s2, s3)
    ensures SameReads(s1, s3)
  {
    forall x
      ensures SameBinding(Env.Get(s1, x), Env.Get(s3, x))
    {
      assert SameBinding(Env.Get(s1, x), Env.Get(s2, x));
      assert SameBinding(Env.Get(s2, x), Env.Get(s3, x));
    }
  }

  /** The cell value of an element: truncated to a `char` for char arrays. */
  function StoredAs(t: VarType, x: int): (c: int)
    ensures t == VarChar ==> IsInt8(c)
    ensures t != VarChar ==> c == x
  {
    if t == VarChar then Wrap8(x) else x
  }

  /** How many elements an initializer writes: the shorter of the list and the array. */
  function Filled(elems: seq<Node>, bound: nat): nat
  {
    if |elems| < bound then |elems| else bound
  }

  /** Every element is plain, and `fuel` suffices to evaluate it. */
  predicate PlainElements(elems: seq<Node>, fuel: nat)
  {
    forall j :: 0 <= j < |elems| ==> Typing.Plain(elems[j]) && fuel > 2 * Depth(elems[j])
  }

  /** The cells of the array bound to `name` in scope `k`. */
  function CellsAt(scopes: seq<Env.Scope>, k: nat, name: string): seq<int>
    requires k < |scopes| && name in scopes[k] && scopes[k][name].payload.Cells?
  {
    scopes[k][name].payload.elems
  }

  /**
   * `cells` is `before` with cells `from` up to `end` holding the elements'
   * values in `s0`, stored at the array's type `t`.
   */
  predicate Initialized(cells: seq<int>, before: seq<int>, t: VarType, elems: seq<Node>, from: nat, end: nat, s0: seq<Env.Scope>)
    requires from <= end <= |elems|
    requires forall j :: from <= j < end ==> Typing.Plain(elems[j])
  {
    |cells| == |before| && end <= |cells|
    && (forall i :: from <= i < end ==>
          Denote(Interp.WidthOf(t), elems[i], s0).Some?
          && cells[i] == StoredAs(t, Denote(Interp.WidthOf(t), elems[i], s0).value))
    && (forall i :: 0 <= i < |cells| && !(from <= i < end) ==> cells[i] == before[i])
  }

  /**
   * `populate_array_variable` with plain elements: when it finishes on an
   * array of a supported type and non-zero length, the first cells, as many
   * as the shorter of the list and the array, hold the elements' values in
   * order (truncated to `char` for a char array), and the other cells are
   * unchanged.
   */
  lemma PopulateCells(fuel: nat, name: string, list: ExprList.Ring, st: Interp.State)
    requires ExprList.Valid(list) && PlainElements(list.exprs, fuel)
    requires Env.Find(st.scopes, name).Some?
    ensures var r := Interp.Populate(fuel, name, list, st);
      var k := Env.Find(st.scopes, name).value;
      var x := st.scopes[k][name];
      r.Ok? && x.isArray && x.varType != NoType && x.arrayLength % TWO64 != 0 ==>
        |list.exprs| > 0 && Env.Find(r.st.scopes, name) == Some(k)
        && x.payload.Cells? && r.st.scopes[k][name].payload.Cells?
        && Initialized(CellsAt(r.st.scopes, k, name), x.payload.elems, x.varType, list.exprs, 0,
                       Filled(list.exprs, x.arrayLength % TWO64), st.scopes)
  {
    var k := Env.Find(st.scopes, name).value;
    var x := st.scopes[k][name];
    var r := Interp.Populate(fuel, name, list, st);
    if r.Ok? && x.isArray && x.varType != NoType && x.arrayLength % TWO64 != 0 {
      var bound := x.arrayLength % TWO64;
      assert r == Interp.PopulateFrom(fuel, k, name, x.varType, list.exprs, 0, bound, st);
      SameReadsReflexive(st.scopes);
      PopulateFromCells(fuel, k, name, x.varType, list.exprs, 0, bound, st, st.scopes);
    }
  }

  lemma SameReadsReflexive(s: seq<Env.Scope>)
    ensures SameReads(s, s)
  {
  }

  /**
   * `r`, the initializer loop run from element `index` on `st`, filled the
   * cells from `index` up to the shorter of the list and the array with the
   * elements' values in `s0`, left every other cell and every read as it
   * was, and kept the binding where it was.
   */
  ghost predicate FilledFrom(r: Interp.Res<()>, st: Interp.State, k: nat, name: string, t: VarType, elems: seq<Node>,
                             index: nat, bound: nat, s0: seq<Env.Scope>)
    requires Env.Find(st.scopes, name) == Some(k) && index < |elems| && index < bound
    requires forall j :: index <= j < |elems| ==> Typing.Plain(elems[j])
  {
    r.Ok? ==> Env.Find(r.st.scopes, name) == Some(k) && SameReads(s0, r.st.scopes)
              && st.scopes[k][name].payload.Cells? && r.st.scopes[k][name].payload.Cells?
              && Initialized(CellsAt(r.st.scopes, k, name), CellsAt(st.scopes, k, name), t, elems, index, Filled(elems, bound), s0)
  }

  /**
   * The initializer loop from element `index`, with plain elements: when it
   * finishes, the cells from `index` up to the shorter of the list and the
   * array hold the elements' values (as `char`s in a char array), every
   * other cell is unchanged, and the binding is where it was.
   */
  lemma {:induction false} PopulateFromCells(fuel: nat, k: nat, name: string, t: VarType, elems: seq<Node>, index: nat,
                                             bound: nat, st: Interp.State, s0: seq<Env.Scope>)
    requires Env.Find(st.scopes, name) == Some(k)
    requires index < |elems| && index < bound && PlainElements(elems, fuel)
    requires SameReads(s0, st.scopes)
    ensures FilledFrom(Interp.PopulateFrom(fuel, k, name, t, elems, index, bound, st), st, k, name, t, elems, index, bound, s0)
    decreases |elems| - index
  {
    var r := Interp.PopulateFrom(fuel, k, name, t, elems, index, bound, st);
    var v, wr := PopulatePass(fuel, k, name, t, elems, index, bound, st, s0);
    if r.Ok? {
      if index + 1 < |elems| && index + 1 < bound {
        PopulateFromCells(fuel, k, name, t, elems, index + 1, bound, wr, s0);
        FilledAfter(r, st, wr, k, name, t, elems, index, bound, s0, v.value);
      } else {
        FilledLast(wr, st, k, name, t, elems, index, bound, s0, v.value);
      }
    }
  }

  /** The last cell written, to give `wr`: the loop filled from `index`. */
  lemma FilledLast(wr: Interp.State, st: Interp.State, k: nat, name: string, t: VarType,
                   elems: seq<Node>, index: nat, bound: nat, s0: seq<Env.Scope>, v: int)
    requires Env.Find(st.scopes, name) == Some(k) && Env.Find(wr.scopes, name) == Some(k) && SameReads(s0, wr.scopes)
    requires index < |elems| && index < bound && (index + 1 == |elems| || index + 1 == bound)
    requires forall j :: index <= j < |elems| ==> Typing.Plain(elems[j])
    requires Denote(Interp.WidthOf(t), elems[index], s0) == Some(v)
    requires st.scopes[k][name].payload.Cells? && index < |CellsAt(st.scopes, k, name)|
    requires wr.scopes[k][name].payload.Cells?
    requires CellsAt(wr.scopes, k, name) == CellsAt(st.scopes, k, name)[index := StoredAs(t, v)]
    ensures FilledFrom(Interp.Ok((), wr), st, k, name, t, elems, index, bound, s0)
  {
    InitializedStep(CellsAt(wr.scopes, k, name), CellsAt(wr.scopes, k, name), CellsAt(st.scopes, k, name),
                    t, elems, index, Filled(elems, bound), s0);
  }

  /** Cell `index` written to give `wr`, and the rest of the loop filled from `wr`: the loop filled from `index`. */
  lemma FilledAfter(r: Interp.Res<()>, st: Interp.State, wr: Interp.State, k: nat, name: string, t: VarType,
                    elems: seq<Node>, index: nat, bound: nat, s0: seq<Env.Scope>, v: int)
    requires Env.Find(st.scopes, name) == Some(k) && Env.Find(wr.scopes, name) == Some(k)
    requires index + 1 < |elems| && index + 1 < bound
    requires forall j :: index <= j < |elems| ==> Typing.Plain(elems[j])
    requires Denote(Interp.WidthOf(t), elems[index], s0) == Some(v)
    requires st.scopes[k][name].payload.Cells? && index < |CellsAt(st.scopes, k, name)|
    requires wr.scopes[k][name].payload.Cells?
    requires CellsAt(wr.scopes, k, name) == CellsAt(st.scopes, k, name)[index := StoredAs(t, v)]
    requires FilledFrom(r, wr, k, name, t, elems, index + 1, bound, s0)
    ensures FilledFrom(r, st, k, name, t, elems, index, bound, s0)
  {
    if r.Ok? {
      InitializedStep(CellsAt(r.st.scopes, k, name), CellsAt(wr.scopes, k, name), CellsAt(st.scopes, k, name),
                      t, elems, index, Filled(elems, bound), s0);
    }
  }

  /**
   * One pass of the initializer loop with a plain element: the element's
   * value `v` is stored in cell `index`, giving state `wr`, and the loop
   * goes on from there or ends.
   */
  lemma PopulatePass(fuel: nat, k: nat, name: string, t: VarType, elems: seq<Node>, index: nat, bound: nat,
                     st: Interp.State, s0: seq<Env.Scope>) returns (v: Option<int>, wr: Interp.State)
    requires Env.Find(st.scopes, name) == Some(k)
    requires index < |elems| && index < bound && PlainElements(elems, fuel)
    requires SameReads(s0, st.scopes)
    ensures v == Denote(Interp.WidthOf(t), elems[index], s0)
    ensures var r := Interp.PopulateFrom(fuel, k, name, t, elems, index, bound, st);
      r.Ok? ==> v.Some? && Env.Find(wr.scopes, name) == Some(k) && SameReads(s0, wr.scopes)
                && st.scopes[k][name].payload.Cells? && index < |CellsAt(st.scopes, k, name)|
                && wr.scopes[k][name].payload.Cells?
                && CellsAt(wr.scopes, k, name) == CellsAt(st.scopes, k, name)[index := StoredAs(t, v.value)]
                && (index + 1 == |elems| || index + 1 == bound ==> r == Interp.Ok((), wr))
                && (index + 1 < |elems| && index + 1 < bound ==>
                      r == Interp.PopulateFrom(fuel, k, name, t, elems, index + 1, bound, wr))
  {
    v := Denote(Interp.WidthOf(t), elems[index], s0);
    var x := Interp.Eval(fuel, Interp.WidthOf(t), elems[index], st);
    ElementValue(fuel, Interp.WidthOf(t), elems[index], st, s0, x);
    wr := st;
    if x.Ok? {
      var stored := StoredAs(t, x.val);
      var w := Interp.WriteCell(k, name, index, stored, x.st);
      PopulateSteps(fuel, k, name, t, elems, index, bound, st, x, w);
      if w.Ok? {
        CellWritten(k, name, index, stored, x.st, s0, w);
        wr := w.st;
      }
    } else {
      PopulateSteps(fuel, k, name, t, elems, index, bound, st, x, Interp.Stop(OutOfFuel));
    }
  }

  /** The value of one plain element, as `Denote` gives it in scopes that read like `s0`. */
  lemma ElementValue(fuel: nat, w: Interp.Width, e: Node, st: Interp.State, s0: seq<Env.Scope>, x: Interp.Res<int>)
    requires Typing.Plain(e) && fuel > 2 * Depth(e) && SameReads(s0, st.scopes)
    requires x == Interp.Eval(fuel, w, e, st)
    ensures x.Ok? <==> Denote(w, e, s0).Some?
    ensures x.Ok? ==> x.val == Denote(w, e, s0).value && x.st.scopes == st.scopes
  {
    EvalDenotes(fuel, w, e, st);
    DenoteReads(w, e, s0, st.scopes);
    PlainIsPure(e);
  }

  /** A successful write of cell `index`, in terms of cells and reads. */
  lemma CellWritten(k: nat, name: string, index: nat, stored: int, st: Interp.State, s0: seq<Env.Scope>, wr: Interp.Res<()>)
    requires Env.Find(st.scopes, name) == Some(k) && SameReads(s0, st.scopes)
    requires wr == Interp.WriteCell(k, name, index, stored, st) && wr.Ok?
    ensures Env.Find(wr.st.scopes, name) == Some(k) && SameReads(s0, wr.st.scopes)
    ensures st.scopes[k][name].payload.Cells? && index < |CellsAt(st.scopes, k, name)|
    ensures wr.st.scopes[k][name].payload.Cells?
    ensures CellsAt(wr.st.scopes, k, name) == CellsAt(st.scopes, k, name)[index := stored]
  {
    WriteCellReads(k, name, index, stored, st);
    SameReadsTransitive(s0, st.scopes, wr.st.scopes);
  }

  /** Writing cell `index` extends an initialisation of the cells after it. */
  lemma InitializedStep(cells: seq<int>, written: seq<int>, before: seq<int>, t: VarType, elems: seq<Node>, index: nat,
                        end: nat, s0: seq<Env.Scope>)
    requires index < end <= |elems| && index < |before|
    requires forall j :: index <= j < end ==> Typing.Plain(elems[j])
    requires Denote(Interp.WidthOf(t), elems[index], s0).Some?
    requires written == before[index := StoredAs(t, Denote(Interp.WidthOf(t), elems[index], s0).value)]
    requires index + 1 == end ==> cells == written
    requires index + 1 < end ==> Initialized(cells, written, t, elems, index + 1, end, s0)
    ensures Initialized(cells, before, t, elems, index, end, s0)
  {
  }

  /** One pass of the initializer loop, once the element's value `x` and the write `wr` are known. */
  lemma PopulateSteps(fuel: nat, k: nat, name: string, t: VarType, elems: seq<Node>, index: nat, bound: nat,
                      st: Interp.State, x: Interp.Res<int>, wr: Interp.Res<()>)
    requires k < |st.scopes| && name in st.scopes[k]
    requires index < |elems| && index < bound
    requires x == Interp.Eval(fuel, Interp.WidthOf(t), elems[index], st)
    requires x.Ok? ==> k < |x.st.scopes| && name in x.st.scopes[k]
                       && wr == Interp.WriteCell(k, name, index, StoredAs(t, x.val), x.st)
    ensures var r := Interp.PopulateFrom(fuel, k, name, t, elems, index, bound, st);
      (!(x.Ok? && wr.Ok?) ==> r.Stop?)
      && (x.Ok? && wr.Ok? && (index + 1 == |elems| || index + 1 == bound) ==> r == Interp.Ok((), wr.st))
      && (x.Ok? && wr.Ok? && index + 1 < |elems| && index + 1 < bound ==>
            k < |wr.st.scopes| && name in wr.st.scopes[k]
            && r == Interp.PopulateFrom(fuel, k, name, t, elems, index + 1, bound, wr.st))
  {
  }
}

=== FILE: exprlist.dfy ===
/**
 * The initializer lists of array declarations: circular doubly linked lists
 * whose head is the first element.  Nodes are numbered in allocation order,
 * `next` and `prev` hold the node numbers the pointers refer to, and the
 * empty ring stands for the NULL list.
 */
module ExprList {
  import opened Syntax

  datatype Ring = Ring(exprs: seq<Node>, next: seq<nat>, prev: seq<nat>)

  /** Every node links forward to its successor and back to its predecessor, wrapping at the ends. */
  predicate Valid(r: Ring)
  {
    var n := |r.exprs|;
    |r.next| == n && |r.prev| == n
    && (forall i :: 0 <= i < n ==> r.next[i] == Succ(i, n))
    && (forall i :: 0 <= i < n ==> r.prev[i] == Pred(i, n))
  }

  /** The position after `i` in a ring of `n` nodes. */
  function Succ(i: nat, n: nat): nat
  {
    if i + 1 >= n then 0 else i + 1
  }

  /** The position before `i` in a ring of `n` nodes. */
  function Pred(i: nat, n: nat): nat
  {
    if i == 0 then (if n == 0 then 0 else n - 1) else i - 1
  }

  const Empty := Ring([], [], [])

  /** `create_expression_list`: a single node linked to itself. */
  function Create(e: Node): (r: Ring)
    ensures Valid(r) && r.exprs == [e]
  {
    Ring([e], [0], [0])
  }

  /**
   * `append_expression_list`: the new node goes between the last node and
   * the head, so it becomes the last node; the head is unchanged.
   */
  function Append(r: Ring, e: Node): (r': Ring)
    requires Valid(r)
    ensures Valid(r') && r'.exprs == r.exprs + [e]
  {
    var n := |r.exprs|;
    if n == 0 then Create(e)
    else
      var last := r.prev[0];
      // new_node->next = list; new_node->prev = list->prev;
      // list->prev->next = new_node; list->prev = new_node
      var next := r.next[last := n] + [0];
      var prev := r.prev[0 := n] + [last];
      var r' := Ring(r.exprs + [e], next, prev);
      assert last == n - 1;
      assert forall i :: 0 <= i < n + 1 ==> next[i] == Succ(i, n + 1) by {
        forall i | 0 <= i < n + 1
          ensures next[i] == Succ(i, n + 1)
        {
          if i < n - 1 {
            assert next[i] == r.next[i];
          }
        }
      }
      assert forall i :: 0 <= i < n + 1 ==> prev[i] == Pred(i, n + 1) by {
        forall i | 0 <= i < n + 1
          ensures prev[i] == Pred(i, n + 1)
        {
          if 0 < i < n {
            assert prev[i] == r.prev[i];
          }
        }
      }
      r'
  }

  /** The list a parser builds from its elements, appended one by one. */
  function Build(es: seq<Node>): (r: Ring)
    ensures Valid(r) && r.exprs == es
  {
    if |es| == 0 then Empty else Append(Build(es[..|es| - 1]), es[|es| - 1])
  }

  /** The node reached from the head after `k` steps along `next`. */
  function Walk(r: Ring, k: nat): nat
    requires Valid(r) && |r.exprs| > 0
  {
    if k == 0 then 0
    else
      var p := Walk(r, k - 1);
      if p < |r.exprs| then r.next[p] else 0
  }

  /**
   * Following `next` from the head visits the nodes in the order they were
   * appended, and is back at the head after the last one.
   */
  lemma {:induction false} WalkIsAppendOrder(r: Ring, k: nat)
    requires Valid(r) && |r.exprs| > 0 && k <= |r.exprs|
    ensures Walk(r, k) == if k == |r.exprs| then 0 else k
  {
    if k > 0 {
      WalkIsAppendOrder(r, k - 1);
    }
  }

  /**
   * `count_expression_list` as written: the count starts at 1 for the head,
   * and the do-while counts one more node before it first compares with the
   * head, so a one-element list is counted twice.
   */
  function CountAsWritten(n: nat): nat
  {
    if n == 0 then 0 else if n == 1 then 2 else n
  }

  /** The do-while of `count_expression_list`, over the ring's links. */
  method CountExpressionList(r: Ring) returns (count: nat)
    requires Valid(r)
    ensures count == CountAsWritten(|r.exprs|)
    ensures |r.exprs| != 1 ==> count == |r.exprs|
  {
    var n := |r.exprs|;
    if n == 0 {
      return 0;
    }
    count := 1;
    var current := r.next[0];
    count := count + 1;
    current := r.next[current];
    while current != 0
      invariant 0 <= current < n
      invariant n == 1 ==> current == 0 && count == 2
      invariant n > 1 ==> 2 <= count <= n && current == Succ(count - 1, n)
      decreases n - count
    {
      count := count + 1;
      current := r.next[current];
    }
  }

  /** The count the initializer check needs: one per node, the head included. */
  method CountElements(r: Ring) returns (count: nat)
    requires Valid(r)
    ensures count == |r.exprs|
  {
    var n := |r.exprs|;
    if n == 0 {
      return 0;
    }
    count := 0;
    var current := 0;
    while true
      invariant 0 <= current < n && count < n && current == count
      decreases n - count
    {
      count := count + 1;
      current := r.next[current];
      if current == 0 {
        return;
      }
    }
  }

  /** The array initializer check with the count as written: more elements than the length. */
  predicate TooManyAsWritten(length: int, r: Ring)
  {
    0 <= length < CountAsWritten(|r.exprs|)
  }

  /** The same check with the list's true length. */
  predicate TooMany(length: int, r: Ring)
  {
    0 <= length < |r.exprs|
  }

  /**
   * The two checks differ exactly on one-element lists for arrays of length
   * one: `int a[1] = {5};` is rejected as written.
   */
  lemma TooManyDiffers(length: int, r: Ring)
    requires Valid(r)
    ensures TooManyAsWritten(length, r) != TooMany(length, r) <==> (|r.exprs| == 1 && length == 1)
    ensures TooManyAsWritten(1, Create(IntNode(5))) && !TooMany(1, Create(IntNode(5)))
  {
  }
}

=== FILE: hashmap.dfy ===
/**
 * The open-addressing hash map every interpreter scope keeps its variables
 * in: FNV-1a hashing, linear probing, no deletion.  Keys are byte strings;
 * a node's key keeps the bytes it was inserted with.
 *
 * Key comparison is a parameter.  `QueryLength` is the comparison the map
 * performs: the first |query| bytes of the stored key against the query, so
 * a query that is a prefix of a stored key finds that key.  `WholeKey`
 * compares the keys themselves.
 */
module HashMap {
  import opened Outcome

  type Bytes = seq<bv8>

  const INIT_CAPACITY: nat := 64
  const FNV_OFFSET_BASIS: bv64 := 2166136261
  const FNV_PRIME: bv64 := 16777619

  /** `size >= capacity * LOAD_FACTOR` with a load factor of 0.75. */
  predicate AtLoadLimit(size: nat, capacity: nat)
  {
    4 * size >= 3 * capacity
  }

  /** One FNV-1a round on a 64-bit `size_t`: xor the byte in, multiply, wrap. */
  function FnvStep(h: bv64, b: bv8): bv64
  {
    (h ^ (b as bv64)) * FNV_PRIME
  }

  /** FNV-1a of a key, the bytes folded in from first to last. */
  function Fnv1a(key: Bytes): bv64
    decreases |key|
  {
    if |key| == 0 then FNV_OFFSET_BASIS
    else FnvStep(Fnv1a(key[..|key| - 1]), key[|key| - 1])
  }

  /** `fnv1a_hash`, byte by byte. */
  method Fnv1aHash(key: Bytes) returns (h: bv64)
    ensures h == Fnv1a(key)
  {
    h := FNV_OFFSET_BASIS;
    var i := 0;
    while i < |key|
      invariant 0 <= i <= |key|
      invariant h == Fnv1a(key[..i])
    {
      assert key[..i + 1][..i] == key[..i];
      h := FnvStep(h, key[i]);
      i := i + 1;
    }
    assert key[..|key|] == key;
  }

  /**
   * `key_equal(stored, query, |query|)`: `memcmp` over the query's length.
   * A stored key shorter than the query would be read past its end; that
   * read is taken to differ.
   */
  function KeyEqual(stored: Bytes, query: Bytes): (r: bool)
    ensures stored == query ==> r
    ensures r ==> |query| <= |stored| && forall j :: 0 <= j < |query| ==> stored[j] == query[j]
    ensures r && |stored| == |query| ==> stored == query
  {
    |query| <= |stored| && stored[..|query|] == query
  }

  datatype Comparison = QueryLength | WholeKey

  function Matches(cmp: Comparison, stored: Bytes, query: Bytes): (r: bool)
    ensures stored == query ==> r
    ensures r && stored != query ==> cmp == QueryLength && |query| < |stored| && stored[..|query|] == query
  {
    match cmp
    case QueryLength => KeyEqual(stored, query)
    case WholeKey => stored == query
  }

  datatype Node<V> = Node(key: Bytes, value: V)

  /** `capacity` is the length of `nodes`. */
  datatype HashMap<V> = HashMap(nodes: seq<Option<Node<V>>>, size: nat)

  /** The number of occupied slots. */
  function Occupied<V>(nodes: seq<Option<Node<V>>>): (n: nat)
    ensures n <= |nodes|
    ensures n < |nodes| <==> exists i :: 0 <= i < |nodes| && nodes[i].None?
    decreases |nodes|
  {
    if |nodes| == 0 then 0
    else
      var rest := Occupied(nodes[..|nodes| - 1]);
      assert forall i :: 0 <= i < |nodes| - 1 ==> nodes[..|nodes| - 1][i] == nodes[i];
      rest + if nodes[|nodes| - 1].Some? then 1 else 0
  }

  /** Filling one empty slot adds one to the count. */
  lemma {:induction false} OccupiedFill<V>(nodes: seq<Option<Node<V>>>, i: nat, n: Node<V>)
    requires i < |nodes| && nodes[i].None?
    ensures Occupied(nodes[i := Some(n)]) == Occupied(nodes) + 1
    decreases |nodes|
  {
    var last := |nodes| - 1;
    var filled := nodes[i := Some(n)];
    if i == last {
      assert filled[..last] == nodes[..last];
    } else {
      assert filled[..last] == nodes[..last][i := Some(n)];
      OccupiedFill(nodes[..last], i, n);
    }
  }

  /** Changing what an occupied slot holds leaves the count alone. */
  lemma {:induction false} OccupiedReplace<V>(nodes: seq<Option<Node<V>>>, i: nat, n: Node<V>)
    requires i < |nodes| && nodes[i].Some?
    ensures Occupied(nodes[i := Some(n)]) == Occupied(nodes)
    decreases |nodes|
  {
    var last := |nodes| - 1;
    var replaced := nodes[i := Some(n)];
    if i == last {
      assert replaced[..last] == nodes[..last];
    } else {
      assert replaced[..last] == nodes[..last][i := Some(n)];
      OccupiedReplace(nodes[..last], i, n);
    }
  }

  /** `hm_new`: INIT_CAPACITY empty slots. */
  function New<V>(): (m: HashMap<V>)
    ensures |m.nodes| == INIT_CAPACITY && m.size == 0
    ensures forall i :: 0 <= i < |m.nodes| ==> m.nodes[i].None?
    ensures forall cmp :: Valid(m, cmp)
  {
    var nodes := seq(INIT_CAPACITY, _ => None);
    OccupiedEmpty(nodes);
    HashMap(nodes, 0)
  }

  /** The slot a key's probe starts at: its hash modulo the capacity. */
  function Home(key: Bytes, capacity: nat): (r: nat)
    requires capacity > 0
    ensures r < capacity
  {
    (Fnv1a(key) as int) % capacity
  }

  /** The slot a key's probe visits after `t` steps. */
  function Slot(key: Bytes, capacity: nat, t: nat): (r: nat)
    requires capacity > 0
    ensures r < capacity
  {
    (Home(key, capacity) + t) % capacity
  }

  /** Stepping the probe is `(index + 1) % capacity`. */
  lemma SlotNext(key: Bytes, capacity: nat, t: nat)
    requires capacity > 0
    ensures Slot(key, capacity, t + 1) == (Slot(key, capacity, t) + 1) % capacity
  {
    ModNext(Home(key, capacity) + t, capacity);
  }

  /** The probe starts at the home slot. */
  lemma SlotZero(key: Bytes, capacity: nat)
    requires capacity > 0
    ensures Slot(key, capacity, 0) == Home(key, capacity)
  {
    ModUnique(Home(key, capacity), capacity, 0, Home(key, capacity));
  }

  lemma ModNext(a: nat, c: nat)
    requires c > 0
    ensures (a + 1) % c == (a % c + 1) % c
  {
    var q := a / c;
    var r := a % c;
    assert a == q * c + r;
    if r + 1 < c {
      ModUnique(a + 1, c, q, r + 1);
      ModUnique(r + 1, c, 0, r + 1);
    } else {
      assert (q + 1) * c == q * c + c;
      ModUnique(a + 1, c, q + 1, 0);
      ModUnique(c, c, 1, 0);
    }
  }

  /** The remainder is the one `r` in [0, c) with `a == q * c + r`. */
  lemma ModUnique(a: int, c: int, q: int, r: int)
    requires c > 0 && 0 <= r < c && a == q * c + r
    ensures a % c == r
  {
    var d := q - a / c;
    assert d * c == a % c - r;
  }

  /** Every slot is on every key's probe, at the offset computed here. */
  lemma SlotReaches(key: Bytes, capacity: nat, i: nat) returns (t: nat)
    requires i < capacity
    ensures t < capacity && Slot(key, capacity, t) == i
  {
    var h := Home(key, capacity);
    t := if i >= h then i - h else i + capacity - h;
    ModBack(h, t, i, capacity);
  }

  lemma ModBack(h: nat, t: nat, i: nat, c: nat)
    requires h < c && i < c && t < c
    requires t == if i >= h then i - h else i + c - h
    ensures (h + t) % c == i
  {
    if i < h {
      assert h + t == i + c;
    }
  }

  /** The probe for `key` ends at slot `i`: an empty slot or a matching key. */
  predicate StopsAt<V>(m: HashMap<V>, cmp: Comparison, key: Bytes, i: nat)
    requires i < |m.nodes|
  {
    m.nodes[i].None? || Matches(cmp, m.nodes[i].value.key, key)
  }

  /** The number of steps the probe for `key` takes from step `t`; the capacity if it never ends. */
  function ProbeFrom<V>(m: HashMap<V>, cmp: Comparison, key: Bytes, t: nat): (r: nat)
    requires 0 < |m.nodes| && t <= |m.nodes|
    ensures t <= r <= |m.nodes|
    ensures forall u :: t <= u < r ==> !StopsAt(m, cmp, key, Slot(key, |m.nodes|, u))
    ensures r < |m.nodes| ==> StopsAt(m, cmp, key, Slot(key, |m.nodes|, r))
    decreases |m.nodes| - t
  {
    if t == |m.nodes| then t
    else if StopsAt(m, cmp, key, Slot(key, |m.nodes|, t)) then t
    else ProbeFrom(m, cmp, key, t + 1)
  }

  function Probe<V>(m: HashMap<V>, cmp: Comparison, key: Bytes): nat
    requires 0 < |m.nodes|
  {
    ProbeFrom(m, cmp, key, 0)
  }

  /** With an empty slot somewhere, every probe ends within one lap. */
  lemma ProbeEnds<V>(m: HashMap<V>, cmp: Comparison, key: Bytes)
    requires 0 < |m.nodes| && Occupied(m.nodes) < |m.nodes|
    ensures Probe(m, cmp, key) < |m.nodes|
  {
    var e :| 0 <= e < |m.nodes| && m.nodes[e].None?;
    var d := SlotReaches(key, |m.nodes|, e);
    assert StopsAt(m, cmp, key, Slot(key, |m.nodes|, d));
  }

  /** The node in slot `i` is the one its own key's probe ends at. */
  predicate Placed<V>(m: HashMap<V>, cmp: Comparison, i: nat)
    requires i < |m.nodes| && m.nodes[i].Some?
  {
    var t := Probe(m, cmp, m.nodes[i].value.key);
    t < |m.nodes| && Slot(m.nodes[i].value.key, |m.nodes|, t) == i
  }

  /**
   * What every map the operations build satisfies: the capacity `hm_new`
   * gives (a resize never returns), `size` counts the nodes, a slot stays
   * empty, and every node is reachable by its key.
   */
  predicate Valid<V>(m: HashMap<V>, cmp: Comparison)
  {
    |m.nodes| == INIT_CAPACITY && m.size == Occupied(m.nodes) && m.size < |m.nodes|
    && forall i :: 0 <= i < |m.nodes| ==> NodePlaced(m, cmp, i)
  }

  predicate NodePlaced<V>(m: HashMap<V>, cmp: Comparison, i: nat)
    requires i < |m.nodes|
  {
    m.nodes[i].Some? ==> Placed(m, cmp, i)
  }

  /** The slot the probe for `key` ends at. */
  function StopSlot<V>(m: HashMap<V>, cmp: Comparison, key: Bytes): (i: nat)
    requires Valid(m, cmp)
    ensures i < |m.nodes| && StopsAt(m, cmp, key, i)
  {
    ProbeEnds(m, cmp, key);
    Slot(key, |m.nodes|, Probe(m, cmp, key))
  }

  /** `hm_get`. */
  function Find<V>(m: HashMap<V>, cmp: Comparison, key: Bytes): (r: Option<V>)
    requires Valid(m, cmp)
    ensures r.Some? ==> exists i :: 0 <= i < |m.nodes| && m.nodes[i].Some?
                          && Matches(cmp, m.nodes[i].value.key, key) && m.nodes[i].value.value == r.value
    ensures (forall i :: 0 <= i < |m.nodes| && m.nodes[i].Some? ==> !Matches(cmp, m.nodes[i].value.key, key)) ==> r.None?
    ensures (exists i :: 0 <= i < |m.nodes| && m.nodes[i].Some? && m.nodes[i].value.key == key) ==> r.Some?
  {
    var i := StopSlot(m, cmp, key);
    if m.nodes[i].Some? then Some(m.nodes[i].value.value)
    else
      assert forall j :: 0 <= j < |m.nodes| && m.nodes[j].Some? ==> m.nodes[j].value.key != key by {
        forall j | 0 <= j < |m.nodes| && m.nodes[j].Some? && m.nodes[j].value.key == key
          ensures false
        {
          ExactKeyStopsThere(m, cmp, key, j);
        }
      }
      None
  }

  /** The node whose key is exactly `key`, searched from slot 0. */
  function ExactLookup<V>(nodes: seq<Option<Node<V>>>, key: Bytes): (r: Option<V>)
    ensures r.None? <==> forall i :: 0 <= i < |nodes| && nodes[i].Some? ==> nodes[i].value.key != key
    ensures r.Some? ==> exists i :: 0 <= i < |nodes| && nodes[i] == Some(Node(key, r.value))
    decreases |nodes|
  {
    if |nodes| == 0 then None
    else if nodes[0].Some? && nodes[0].value.key == key then Some(nodes[0].value.value)
    else
      var r := ExactLookup(nodes[1..], key);
      assert forall i :: 1 <= i < |nodes| ==> nodes[i] == nodes[1..][i - 1];
      r
  }

  /** Two nodes of a valid map never share a key. */
  lemma KeysDistinct<V>(m: HashMap<V>, cmp: Comparison, i: nat, j: nat)
    requires Valid(m, cmp) && i < |m.nodes| && j < |m.nodes| && m.nodes[i].Some? && m.nodes[j].Some?
    requires m.nodes[i].value.key == m.nodes[j].value.key
    ensures i == j
  {
    assert NodePlaced(m, cmp, i) && NodePlaced(m, cmp, j);
  }

  /** A query no stored key can match unless it is that very key. */
  predicate Unambiguous<V>(m: HashMap<V>, cmp: Comparison, key: Bytes)
  {
    forall i :: 0 <= i < |m.nodes| && m.nodes[i].Some? && Matches(cmp, m.nodes[i].value.key, key) ==> m.nodes[i].value.key == key
  }

  /**
   * Whole-key comparison, or a query that is no proper prefix of a stored
   * key: the map behaves as the map from stored keys to values.
   */
  lemma {:induction false} FindExact<V>(m: HashMap<V>, cmp: Comparison, key: Bytes)
    requires Valid(m, cmp)
    requires cmp == WholeKey || Unambiguous(m, cmp, key)
    ensures Find(m, cmp, key) == ExactLookup(m.nodes, key)
  {
    var r := Find(m, cmp, key);
    var x := ExactLookup(m.nodes, key);
    if r.Some? {
      var i :| 0 <= i < |m.nodes| && m.nodes[i].Some? && Matches(cmp, m.nodes[i].value.key, key) && m.nodes[i].value.value == r.value;
      assert m.nodes[i].value.key == key;
      var j :| 0 <= j < |m.nodes| && m.nodes[j] == Some(Node(key, x.value));
      KeysDistinct(m, cmp, i, j);
    }
  }

  /**
   * The slot placement writes: the stop slot of the probe.  An occupied
   * stop slot keeps its stored key and takes the new value; an empty one
   * takes a new node.
   */
  function Insert<V>(m: HashMap<V>, cmp: Comparison, key: Bytes, v: V): (r: HashMap<V>)
    requires Valid(m, cmp) && !AtLoadLimit(m.size, |m.nodes|)
    ensures |r.nodes| == |m.nodes|
  {
    var i := StopSlot(m, cmp, key);
    match m.nodes[i]
    case Some(n) => HashMap(m.nodes[i := Some(Node(n.key, v))], m.size)
    case None => HashMap(m.nodes[i := Some(Node(key, v))], m.size + 1)
  }

  /** Probes that never meet slot `i` do not notice what slot `i` holds. */
  lemma {:induction false} ProbeUnaffected<V>(m: HashMap<V>, m': HashMap<V>, cmp: Comparison, key: Bytes, i: nat, t: nat)
    requires 0 < |m.nodes| && |m'.nodes| == |m.nodes| && i < |m.nodes| && t <= |m.nodes|
    requires forall j :: 0 <= j < |m.nodes| && j != i ==> m'.nodes[j] == m.nodes[j]
    requires ProbeFrom(m, cmp, key, t) < |m.nodes|
    requires forall u :: t <= u <= ProbeFrom(m, cmp, key, t) ==> Slot(key, |m.nodes|, u) != i
    ensures ProbeFrom(m', cmp, key, t) == ProbeFrom(m, cmp, key, t)
    decreases |m.nodes| - t
  {
    assert Slot(key, |m.nodes|, t) != i;
    if !StopsAt(m, cmp, key, Slot(key, |m.nodes|, t)) {
      ProbeUnaffected(m, m', cmp, key, i, t + 1);
    }
  }

  /** Slots holding the same keys give every probe the same course. */
  lemma {:induction false} ProbeSameKeys<V>(m: HashMap<V>, m': HashMap<V>, cmp: Comparison, key: Bytes, t: nat)
    requires 0 < |m.nodes| && |m'.nodes| == |m.nodes| && t <= |m.nodes|
    requires forall j :: 0 <= j < |m.nodes| ==> m'.nodes[j].Some? == m.nodes[j].Some?
    requires forall j :: 0 <= j < |m.nodes| && m.nodes[j].Some? ==> m'.nodes[j].value.key == m.nodes[j].value.key
    ensures ProbeFrom(m', cmp, key, t) == ProbeFrom(m, cmp, key, t)
    decreases |m.nodes| - t
  {
    if t < |m.nodes| {
      var s := Slot(key, |m.nodes|, t);
      assert StopsAt(m', cmp, key, s) == StopsAt(m, cmp, key, s);
      ProbeSameKeys(m, m', cmp, key, t + 1);
    }
  }

  /** The slots before the stop of a probe are all occupied. */
  lemma ProbePathOccupied<V>(m: HashMap<V>, cmp: Comparison, key: Bytes, u: nat)
    requires 0 < |m.nodes| && u < Probe(m, cmp, key)
    ensures m.nodes[Slot(key, |m.nodes|, u)].Some?
  {
  }

  /** Overwriting a node's value keeps the map valid. */
  lemma {:induction false} InsertOverwriteValid<V>(m: HashMap<V>, cmp: Comparison, key: Bytes, v: V)
    requires Valid(m, cmp) && !AtLoadLimit(m.size, |m.nodes|)
    requires m.nodes[StopSlot(m, cmp, key)].Some?
    ensures Valid(Insert(m, cmp, key, v), cmp)
  {
    var i := StopSlot(m, cmp, key);
    var r := Insert(m, cmp, key, v);
    OccupiedReplace(m.nodes, i, Node(m.nodes[i].value.key, v));
    forall k | 0 <= k < |r.nodes|
      ensures NodePlaced(r, cmp, k)
    {
      if r.nodes[k].Some? {
        assert NodePlaced(m, cmp, k);
        ProbeSameKeys(m, r, cmp, r.nodes[k].value.key, 0);
      }
    }
  }

  /** The written key's probe takes as many steps as before the placement. */
  lemma {:induction false} InsertProbe<V>(m: HashMap<V>, cmp: Comparison, key: Bytes, v: V, r: HashMap<V>)
    requires Valid(m, cmp) && !AtLoadLimit(m.size, |m.nodes|)
    requires r == Insert(m, cmp, key, v)
    ensures Probe(r, cmp, key) == Probe(m, cmp, key)
    ensures Slot(key, |m.nodes|, Probe(m, cmp, key)) == StopSlot(m, cmp, key)
  {
    ProbeEnds(m, cmp, key);
    var t := Probe(m, cmp, key);
    var i := Slot(key, |m.nodes|, t);
    forall u | 0 <= u < t
      ensures Slot(key, |m.nodes|, u) != i && !StopsAt(r, cmp, key, Slot(key, |m.nodes|, u))
    {
      ProbePathOccupied(m, cmp, key, u);
    }
    assert StopsAt(r, cmp, key, i);
    ProbeStopsExactly(r, cmp, key, t);
  }

  /** Filling an empty slot leaves every other node reachable by its key. */
  lemma {:induction false} InsertKeepsPlaced<V>(m: HashMap<V>, cmp: Comparison, i: nat, r: HashMap<V>, k: nat)
    requires Valid(m, cmp) && i < |m.nodes| && m.nodes[i].None?
    requires |r.nodes| == |m.nodes| && forall j :: 0 <= j < |m.nodes| && j != i ==> r.nodes[j] == m.nodes[j]
    requires k < |m.nodes| && k != i && m.nodes[k].Some?
    ensures r.nodes[k].Some? && Placed(r, cmp, k)
  {
    var kk := m.nodes[k].value.key;
    assert NodePlaced(m, cmp, k);
    forall u | 0 <= u <= Probe(m, cmp, kk)
      ensures Slot(kk, |m.nodes|, u) != i
    {
      if u < Probe(m, cmp, kk) {
        ProbePathOccupied(m, cmp, kk, u);
      }
    }
    ProbeUnaffected(m, r, cmp, kk, i, 0);
  }

  /** Filling the empty stop slot keeps the map valid. */
  lemma {:induction false} InsertFreshValid<V>(m: HashMap<V>, cmp: Comparison, key: Bytes, v: V)
    requires Valid(m, cmp) && !AtLoadLimit(m.size, |m.nodes|)
    requires m.nodes[StopSlot(m, cmp, key)].None?
    ensures Valid(Insert(m, cmp, key, v), cmp)
  {
    var i := StopSlot(m, cmp, key);
    var r := Insert(m, cmp, key, v);
    assert r == HashMap(m.nodes[i := Some(Node(key, v))], m.size + 1);
    InsertPlacesKey(m, cmp, key, v, r);
    FillValid(m, cmp, i, Node(key, v), r);
  }

  /** The node written at the stop slot is reachable by its key. */
  lemma InsertPlacesKey<V>(m: HashMap<V>, cmp: Comparison, key: Bytes, v: V, r: HashMap<V>)
    requires Valid(m, cmp) && !AtLoadLimit(m.size, |m.nodes|)
    requires r == Insert(m, cmp, key, v) && r.nodes[StopSlot(m, cmp, key)].value.key == key
    ensures Placed(r, cmp, StopSlot(m, cmp, key))
  {
    InsertProbe(m, cmp, key, v, r);
  }

  /** Filling an empty slot with a node its key reaches, counted once, keeps the map valid. */
  lemma FillValid<V>(m: HashMap<V>, cmp: Comparison, i: nat, n: Node<V>, r: HashMap<V>)
    requires Valid(m, cmp) && !AtLoadLimit(m.size, |m.nodes|) && i < |m.nodes| && m.nodes[i].None?
    requires r.nodes == m.nodes[i := Some(n)] && r.size == m.size + 1 && Placed(r, cmp, i)
    ensures Valid(r, cmp)
  {
    OccupiedFill(m.nodes, i, n);
    FillKeepsPlaced(m, cmp, i, r);
    ProbeEndsAfterFill(m, r, i);
  }

  /** Filling an empty slot with a node its key reaches keeps every node reachable. */
  lemma {:induction false} FillKeepsPlaced<V>(m: HashMap<V>, cmp: Comparison, i: nat, r: HashMap<V>)
    requires Valid(m, cmp) && i < |m.nodes| && m.nodes[i].None?
    requires |r.nodes| == |m.nodes| && forall j :: 0 <= j < |m.nodes| && j != i ==> r.nodes[j] == m.nodes[j]
    requires r.nodes[i].Some? && Placed(r, cmp, i)
    ensures forall k :: 0 <= k < |r.nodes| ==> NodePlaced(r, cmp, k)
  {
    forall k | 0 <= k < |r.nodes|
      ensures NodePlaced(r, cmp, k)
    {
      if k != i && r.nodes[k].Some? {
        InsertKeepsPlaced(m, cmp, i, r, k);
      }
    }
  }

  /** A probe that passes `t` non-stopping slots and stops at the next takes `t` steps. */
  lemma {:induction false} ProbeStopsExactly<V>(m: HashMap<V>, cmp: Comparison, key: Bytes, t: nat)
    requires 0 < |m.nodes| && t < |m.nodes|
    requires forall u :: 0 <= u < t ==> !StopsAt(m, cmp, key, Slot(key, |m.nodes|, u))
    requires StopsAt(m, cmp, key, Slot(key, |m.nodes|, t))
    ensures Probe(m, cmp, key) == t
  {
  }

  /** Filling one slot below the load limit leaves a slot empty. */
  lemma ProbeEndsAfterFill<V>(m: HashMap<V>, r: HashMap<V>, i: nat)
    requires |m.nodes| == INIT_CAPACITY && !AtLoadLimit(m.size, |m.nodes|)
    requires r.size == m.size + 1 && r.size == Occupied(r.nodes) && |r.nodes| == |m.nodes|
    ensures r.size < |r.nodes|
  {
  }

  /** The placement keeps the map valid and counts a new node once. */
  lemma InsertValid<V>(m: HashMap<V>, cmp: Comparison, key: Bytes, v: V)
    requires Valid(m, cmp) && !AtLoadLimit(m.size, |m.nodes|)
    ensures Valid(Insert(m, cmp, key, v), cmp)
  {
    if m.nodes[StopSlot(m, cmp, key)].Some? {
      InsertOverwriteValid(m, cmp, key, v);
    } else {
      InsertFreshValid(m, cmp, key, v);
    }
  }

  /**
   * `hm_put`.  At the load limit the map first calls its resize, whose
   * rehash loop never moves to the next node: it re-places the same node
   * until the new table is full and then probes it forever.
   */
  function Put<V>(m: HashMap<V>, cmp: Comparison, key: Bytes, v: V): (r: Result<HashMap<V>>)
    requires Valid(m, cmp)
    ensures r.Failure? <==> AtLoadLimit(m.size, |m.nodes|)
    ensures r.Failure? ==> r.halt == Diverges
    ensures r.Value? ==> Valid(r.value, cmp) && |r.value.nodes| == |m.nodes|
    ensures r.Value? ==> Find(r.value, cmp, key) == Some(v)
    ensures r.Value? ==> r.value.size == m.size + (if Find(m, cmp, key).None? then 1 else 0)
    ensures r.Value? ==> forall j :: 0 <= j < |m.nodes| && j != StopSlot(m, cmp, key) ==> r.value.nodes[j] == m.nodes[j]
  {
    if AtLoadLimit(m.size, |m.nodes|) then Failure(Diverges)
    else
      InsertValid(m, cmp, key, v);
      var r := Insert(m, cmp, key, v);
      PutFinds(m, cmp, key, v);
      Value(r)
  }

  /** After the placement the key's probe ends at the slot written. */
  lemma PutFinds<V>(m: HashMap<V>, cmp: Comparison, key: Bytes, v: V)
    requires Valid(m, cmp) && !AtLoadLimit(m.size, |m.nodes|)
    requires Valid(Insert(m, cmp, key, v), cmp)
    ensures Find(Insert(m, cmp, key, v), cmp, key) == Some(v)
  {
    InsertProbe(m, cmp, key, v, Insert(m, cmp, key, v));
  }

  /** A walk that reaches a stopping slot has reached the end of the probe. */
  lemma ProbeReached<V>(m: HashMap<V>, cmp: Comparison, key: Bytes, t: nat)
    requires Valid(m, cmp) && t <= Probe(m, cmp, key) && t < |m.nodes|
    requires StopsAt(m, cmp, key, Slot(key, |m.nodes|, t))
    ensures StopSlot(m, cmp, key) == Slot(key, |m.nodes|, t)
  {
  }

  /** `hm_get`: hash, then walk the occupied slots until a match or an empty slot. */
  method Get<V>(m: HashMap<V>, cmp: Comparison, key: Bytes) returns (r: Option<V>)
    requires Valid(m, cmp)
    ensures r == Find(m, cmp, key)
  {
    ProbeEnds(m, cmp, key);
    var h := Fnv1aHash(key);
    var index := (h as int) % |m.nodes|;
    SlotZero(key, |m.nodes|);
    ghost var t: nat := 0;
    while m.nodes[index].Some?
      invariant t <= Probe(m, cmp, key) && index == Slot(key, |m.nodes|, t)
      decreases Probe(m, cmp, key) - t
    {
      if Matches(cmp, m.nodes[index].value.key, key) {
        ProbeReached(m, cmp, key, t);
        return Some(m.nodes[index].value.value);
      }
      SlotNext(key, |m.nodes|, t);
      index := (index + 1) % |m.nodes|;
      t := t + 1;
    }
    ProbeReached(m, cmp, key, t);
    return None;
  }

  /** `hm_put`: the load check, then the same walk, then overwrite or insert. */
  method PutProbing<V>(m: HashMap<V>, cmp: Comparison, key: Bytes, v: V) returns (r: Result<HashMap<V>>)
    requires Valid(m, cmp)
    ensures AtLoadLimit(m.size, |m.nodes|) ==> r == Failure(Diverges)
    ensures !AtLoadLimit(m.size, |m.nodes|) ==> r == Value(Insert(m, cmp, key, v))
  {
    if AtLoadLimit(m.size, |m.nodes|) {
      return Failure(Diverges);
    }
    ProbeEnds(m, cmp, key);
    var h := Fnv1aHash(key);
    var index := (h as int) % |m.nodes|;
    SlotZero(key, |m.nodes|);
    ghost var t: nat := 0;
    while m.nodes[index].Some?
      invariant t <= Probe(m, cmp, key) && index == Slot(key, |m.nodes|, t)
      decreases Probe(m, cmp, key) - t
    {
      var n := m.nodes[index].value;
      if Matches(cmp, n.key, key) {
        ProbeReached(m, cmp, key, t);
        return Value(HashMap(m.nodes[index := Some(Node(n.key, v))], m.size));
      }
      SlotNext(key, |m.nodes|, t);
      index := (index + 1) % |m.nodes|;
      t := t + 1;
    }
    ProbeReached(m, cmp, key, t);
    return Value(HashMap(m.nodes[index := Some(Node(key, v))], m.size + 1));
  }

  /** With whole-key comparison a put changes the lookup of its own key only. */
  lemma {:induction false} PutKeepsOtherKeys<V>(m: HashMap<V>, key: Bytes, v: V, other: Bytes)
    requires Valid(m, WholeKey) && !AtLoadLimit(m.size, |m.nodes|) && other != key
    ensures Put(m, WholeKey, key, v).Value?
    ensures Find(Put(m, WholeKey, key, v).value, WholeKey, other) == Find(m, WholeKey, other)
  {
    var r := Put(m, WholeKey, key, v).value;
    var i := StopSlot(m, WholeKey, key);
    assert r.nodes == m.nodes[i := Some(Node(key, v))];
    assert m.nodes[i].None? || m.nodes[i].value.key == key;
    FindExact(m, WholeKey, other);
    FindExact(r, WholeKey, other);
    ExactLookupUpdate(m.nodes, i, Node(key, v), other);
  }

  /** Overwriting a slot that holds neither the old nor the new key leaves a key's lookup alone. */
  lemma ExactLookupUpdate<V>(a: seq<Option<Node<V>>>, i: nat, n: Node<V>, key: Bytes)
    requires i < |a| && n.key != key && (a[i].None? || a[i].value.key != key)
    ensures ExactLookup(a[i := Some(n)], key) == ExactLookup(a, key)
  {
    ExactLookupSame(a, a[i := Some(n)], key);
  }

  /** Two slot sequences that agree on every node with key `key` look it up alike. */
  lemma {:induction false} ExactLookupSame<V>(a: seq<Option<Node<V>>>, b: seq<Option<Node<V>>>, key: Bytes)
    requires |a| == |b|
    requires forall j :: 0 <= j < |a| && a[j].Some? && a[j].value.key == key ==> b[j] == a[j]
    requires forall j :: 0 <= j < |b| && b[j].Some? && b[j].value.key == key ==> a[j] == b[j]
    ensures ExactLookup(a, key) == ExactLookup(b, key)
    decreases |a|
  {
    if |a| > 0 {
      ExactLookupSame(a[1..], b[1..], key);
    }
  }

  /**
   * Comparing by the query's length, a put whose probe meets a stored key
   * that extends it writes its value into that node: the longer key now
   * maps to the new value and the key put is stored nowhere.
   */
  lemma {:induction false} PutOverwritesLongerKey<V>(m: HashMap<V>, key: Bytes, v: V)
    requires Valid(m, QueryLength) && !AtLoadLimit(m.size, |m.nodes|)
    requires m.nodes[StopSlot(m, QueryLength, key)].Some?
    requires m.nodes[StopSlot(m, QueryLength, key)].value.key != key
    ensures var stored := m.nodes[StopSlot(m, QueryLength, key)].value.key;
      |key| < |stored| && stored[..|key|] == key
      && ExactLookup(Put(m, QueryLength, key, v).value.nodes, stored) == Some(v)
      && ExactLookup(Put(m, QueryLength, key, v).value.nodes, key) == None
  {
    var i := StopSlot(m, QueryLength, key);
    var stored := m.nodes[i].value.key;
    var r := Put(m, QueryLength, key, v).value;
    assert r.nodes[i] == Some(Node(stored, v));
    assert ExactLookup(r.nodes, stored).Some?;
    var j :| 0 <= j < |r.nodes| && r.nodes[j] == Some(Node(stored, ExactLookup(r.nodes, stored).value));
    KeysDistinct(r, QueryLength, i, j);
    forall j | 0 <= j < |r.nodes| && r.nodes[j].Some?
      ensures r.nodes[j].value.key != key
    {
      if j != i && r.nodes[j].value.key == key {
        assert m.nodes[j].Some? && m.nodes[j].value.key == key;
        assert Find(m, QueryLength, key).Some?;
        ExactKeyStopsThere(m, QueryLength, key, j);
      }
    }
  }

  /** A stored key's own probe ends at its slot. */
  lemma ExactKeyStopsThere<V>(m: HashMap<V>, cmp: Comparison, key: Bytes, j: nat)
    requires Valid(m, cmp) && j < |m.nodes| && m.nodes[j].Some? && m.nodes[j].value.key == key
    ensures StopSlot(m, cmp, key) == j
  {
    assert NodePlaced(m, cmp, j);
  }

  /** The bytes of the identifiers `c` and `ct`. */
  const KeyC: Bytes := [0x63]
  const KeyCt: Bytes := [0x63, 0x74]

  /**
   * `c` and `ct` share their home slot in a 64-slot table.  Comparing by
   * the query's length, a table holding only `ct` answers a lookup of `c`
   * with the value of `ct`; comparing whole keys it answers nothing.
   */
  lemma PrefixCollision(v: int)
    ensures Put(New(), QueryLength, KeyCt, v).Value?
    ensures Find(Put(New(), QueryLength, KeyCt, v).value, QueryLength, KeyC) == Some(v)
    ensures Put(New(), WholeKey, KeyCt, v).Value?
    ensures Find(Put(New(), WholeKey, KeyCt, v).value, WholeKey, KeyC) == None
  {
    assert Fnv1a(KeyC) == 0x811d68e60c2c52;
    assert Fnv1a(KeyCt) == 0x3427584e4b297fd2;
    assert Home(KeyC, 64) == 18 && Home(KeyCt, 64) == 18;
  }

  /** In the map `hm_new` returns every lookup fails. */
  lemma NewFindsNothing<V>(cmp: Comparison, key: Bytes)
    ensures Find(New<V>(), cmp, key) == None
  {
  }

  lemma {:induction false} OccupiedEmpty<V>(nodes: seq<Option<Node<V>>>)
    requires forall i :: 0 <= i < |nodes| ==> nodes[i].None?
    ensures Occupied(nodes) == 0
    decreases |nodes|
  {
    if |nodes| > 0 {
      OccupiedEmpty(nodes[..|nodes| - 1]);
    }
  }
}

=== FILE: input.dfy ===
/**
 * The console readers: a line of standard input is read into a fixed-size
 * buffer, truncation is detected, the trailing newline is stripped, and the
 * text is converted and range-checked into a status code.
 *
 * Standard input is a value: the bytes still to be read and whether the
 * next read fails.  `fgets` follows the C library the program is built
 * against (glibc): a count of at most 0 reads nothing and returns NULL, a
 * count of 1 stores an empty string without reading.  `strtol` is a
 * parameter of the numeric readers.
 */
module Input {
  import opened Outcome
  import opened CInt

  const NEWLINE: bv8 := 10
  const NUL: bv8 := 0

  /** `input_status` */
  datatype Status =
    | Success | NullPtr | InvalidFormat | BufferOverflow | ConversionError | IoError
    | ShortOverflow | IntegerOverflow | FloatOverflow | DoubleOverflow | InvalidLength

  /** The value each status has in the C enumeration. */
  function Code(s: Status): (c: int)
    ensures c == 0 <==> s == Success
    ensures -10 <= c <= 0
  {
    match s
    case Success => 0
    case NullPtr => -1
    case InvalidFormat => -2
    case BufferOverflow => -3
    case ConversionError => -4
    case IoError => -5
    case ShortOverflow => -6
    case IntegerOverflow => -7
    case FloatOverflow => -8
    case DoubleOverflow => -9
    case InvalidLength => -10
  }

  /** The status a code stands for, if any. */
  function FromCode(c: int): (s: Option<Status>)
    ensures s.Some? <==> -10 <= c <= 0
  {
    if c == 0 then Some(Success)
    else if c == -1 then Some(NullPtr)
    else if c == -2 then Some(InvalidFormat)
    else if c == -3 then Some(BufferOverflow)
    else if c == -4 then Some(ConversionError)
    else if c == -5 then Some(IoError)
    else if c == -6 then Some(ShortOverflow)
    else if c == -7 then Some(IntegerOverflow)
    else if c == -8 then Some(FloatOverflow)
    else if c == -9 then Some(DoubleOverflow)
    else if c == -10 then Some(InvalidLength)
    else None
  }

  /** Every status has its own code, and the codes -10 to 0 are exactly the statuses. */
  lemma CodesDistinct(s: Status, c: int)
    ensures FromCode(Code(s)) == Some(s)
    ensures FromCode(c).Some? ==> Code(FromCode(c).value) == c
  {
  }

  /** Standard input: the bytes not yet read, and whether the next read fails. */
  datatype Stdin = Stdin(pending: seq<bv8>, failing: bool)

  /** The length of the prefix `fgets` takes: through the first newline, at most `limit` bytes. */
  function LineCut(bytes: seq<bv8>, limit: nat): (k: nat)
    ensures k <= |bytes| && k <= limit
    ensures forall i :: 0 <= i < k - 1 ==> bytes[i] != NEWLINE
    ensures k < |bytes| && k < limit ==> k > 0 && bytes[k - 1] == NEWLINE
    decreases limit
  {
    if limit == 0 || |bytes| == 0 then 0
    else if bytes[0] == NEWLINE then 1
    else 1 + LineCut(bytes[1..], limit - 1)
  }

  /** What a call of `fgets` returned: the bytes it stored, or NULL. */
  datatype Line = Got(bytes: seq<bv8>) | NoLine

  /** `fgets(buffer, n, stdin)`: a NULL result with a failing stream is a read error, otherwise end of file. */
  function Fgets(input: Stdin, n: int): (r: (Line, Stdin))
    ensures r.0.Got? ==> |r.0.bytes| < n && input.pending == r.0.bytes + r.1.pending
    ensures Suffix(r.1.pending, input.pending)
    ensures r.0.Got? ==> forall i :: 0 <= i < |r.0.bytes| - 1 ==> r.0.bytes[i] != NEWLINE
    ensures r.0.NoLine? ==> r.1 == input
    ensures r.0.Got? ==> r.1.failing == input.failing
  {
    if n <= 0 then (NoLine, input)
    else if n == 1 then (Got([]), input)
    else if input.failing || |input.pending| == 0 then (NoLine, input)
    else
      var k := LineCut(input.pending, n - 1);
      assert input.pending == input.pending[..k] + input.pending[k..];
      (Got(input.pending[..k]), input.(pending := input.pending[k..]))
  }

  /** `a` is what is left of `b` after some bytes were taken from its front. */
  ghost predicate Suffix(a: seq<bv8>, b: seq<bv8>)
  {
    |a| <= |b| && a == b[|b| - |a|..]
  }

  lemma SuffixTrans(a: seq<bv8>, b: seq<bv8>, c: seq<bv8>)
    requires Suffix(a, b) && Suffix(b, c)
    ensures Suffix(a, c)
  {
    assert c[|c| - |a|..] == c[|c| - |b|..][|b| - |a|..];
  }

  /** `clear_stdin_buffer`: input is discarded through the next newline or to the end. */
  function ClearLine(input: Stdin): (r: Stdin)
    ensures Suffix(r.pending, input.pending)
    decreases |input.pending|
  {
    if input.failing || |input.pending| == 0 then input
    else if input.pending[0] == NEWLINE then input.(pending := input.pending[1..])
    else ClearLine(input.(pending := input.pending[1..]))
  }

  /** `strnlen`: the position of the first NUL byte, or the length when there is none. */
  function StrLen(bytes: seq<bv8>): (n: nat)
    ensures n <= |bytes|
    ensures forall i :: 0 <= i < n ==> bytes[i] != NUL
    ensures n < |bytes| ==> bytes[n] == NUL
  {
    if |bytes| == 0 then 0
    else if bytes[0] == NUL then 0
    else 1 + StrLen(bytes[1..])
  }

  /** The statuses `input_string` can return. */
  predicate LineStatus(s: Status)
  {
    s == Success || s == NullPtr || s == BufferOverflow || s == IoError
  }

  /** The outcome of a read: its status, the text stored (for a success) and the input left. */
  datatype Read = Read(status: Status, text: seq<bv8>, rest: Stdin)

  /**
   * `input_string`.  The pointers are represented only by whether they are
   * NULL; `bufferSize` is a `size_t` that is passed to `fgets` as an `int`.
   * A buffer of size 1 makes the truncation test read the byte before it.
   */
  function InputString(bufferIsNull: bool, bufferSize: nat, countIsNull: bool, input: Stdin): (r: Result<Read>)
    requires bufferSize < TWO64
    ensures r.Value? ==> LineStatus(r.value.status)
    ensures r.Value? && (bufferIsNull || countIsNull) ==> r.value.status == NullPtr
    ensures r.Value? && r.value.status == NullPtr ==> bufferIsNull || countIsNull
    ensures !bufferIsNull && !countIsNull && bufferSize == 0 ==> r == Value(Read(BufferOverflow, [], input))
    ensures r.Failure? <==> !bufferIsNull && !countIsNull && bufferSize == 1
    ensures r.Value? && r.value.status == Success ==> Stored(r.value.text, bufferSize)
    ensures r.Value? ==> Suffix(r.value.rest.pending, input.pending)
  {
    if bufferIsNull || countIsNull then Value(Read(NullPtr, [], input))
    else if bufferSize == 0 then Value(Read(BufferOverflow, [], input))
    else ReadLine(bufferSize, input)
  }

  /** `input_string` past its argument checks: one `fgets` and the tests on what it stored. */
  function ReadLine(bufferSize: nat, input: Stdin): (r: Result<Read>)
    requires 0 < bufferSize < TWO64
    ensures r.Failure? <==> bufferSize == 1
    ensures r.Value? ==> LineStatus(r.value.status) && r.value.status != NullPtr
    ensures r.Value? && r.value.status == Success ==> Stored(r.value.text, bufferSize)
    ensures r.Value? ==> Suffix(r.value.rest.pending, input.pending)
  {
    Respond(bufferSize, input, Fgets(input, Wrap32(bufferSize)))
  }

  /** What `input_string` makes of the result `got` of its `fgets` call on `input`. */
  function Respond(bufferSize: nat, input: Stdin, got: (Line, Stdin)): (r: Result<Read>)
    requires 0 < bufferSize
    requires got.0.Got? ==> |got.0.bytes| < bufferSize && forall i :: 0 <= i < |got.0.bytes| - 1 ==> got.0.bytes[i] != NEWLINE
    requires Suffix(got.1.pending, input.pending)
    requires bufferSize == 1 ==> got.0 == Got([])
    ensures r.Failure? <==> bufferSize == 1
    ensures r.Value? ==> LineStatus(r.value.status) && r.value.status != NullPtr
    ensures r.Value? && r.value.status == Success ==> Stored(r.value.text, bufferSize)
    ensures r.Value? ==> Suffix(r.value.rest.pending, input.pending)
  {
    if got.0.NoLine? then
      if got.1.failing then Value(Read(IoError, [], got.1.(failing := false)))
      else Value(Read(Success, [], got.1))
    else
      var r := Classify(got.0.bytes, bufferSize, got.1);
      if r.Value? then
        SuffixTrans(r.value.rest.pending, got.1.pending, input.pending);
        r
      else r
  }

  /**
   * What `input_string` reports to its caller: shorter than the buffer, no
   * NUL byte, and no final newline.
   */
  predicate Stored(text: seq<bv8>, bufferSize: nat)
  {
    |text| < bufferSize
    && (forall i :: 0 <= i < |text| ==> text[i] != NUL)
    && (|text| > 0 ==> text[|text| - 1] != NEWLINE)
  }

  /**
   * The tests `input_string` makes on the bytes `fgets` stored: a full
   * buffer without a newline is truncated and the line discarded, otherwise
   * a final newline is removed.
   */
  function Classify(bytes: seq<bv8>, bufferSize: nat, after: Stdin): (r: Result<Read>)
    requires 0 < bufferSize && |bytes| < bufferSize
    requires forall i :: 0 <= i < |bytes| - 1 ==> bytes[i] != NEWLINE
    ensures r.Failure? <==> bufferSize == 1
    ensures r.Value? ==> r.value.status == Success || r.value.status == BufferOverflow
    ensures r.Value? && r.value.status == Success ==> Stored(r.value.text, bufferSize) && r.value.rest == after
    ensures r.Value? && r.value.status == BufferOverflow ==> r.value.rest == ClearLine(after)
    ensures r.Value? ==> Suffix(r.value.rest.pending, after.pending)
  {
    var len := StrLen(bytes);
    if len == bufferSize - 1 && len == 0 then
      Failure(Undefined("the truncation test reads the byte before the buffer"))
    else if len == bufferSize - 1 && bytes[len - 1] != NEWLINE then
      Value(Read(BufferOverflow, [], ClearLine(after)))
    else if len > 0 && bytes[len - 1] == NEWLINE then
      Value(Read(Success, bytes[..len - 1], after))
    else
      Value(Read(Success, bytes[..len], after))
  }

  /** A line with no NUL byte and no newline before its end. */
  predicate PlainText(text: seq<bv8>)
  {
    forall i :: 0 <= i < |text| ==> text[i] != NUL && text[i] != NEWLINE
  }

  /**
   * A line that fits in the buffer together with its newline and the
   * terminator is read back exactly, and the input after it is left.
   */
  lemma {:induction false} LineReadBack(text: seq<bv8>, after: seq<bv8>, bufferSize: nat)
    requires PlainText(text) && |text| + 2 <= bufferSize <= INT_MAX
    ensures InputString(false, bufferSize, false, Stdin(text + [NEWLINE] + after, false))
      == Value(Read(Success, text, Stdin(after, false)))
  {
    var pending := text + [NEWLINE] + after;
    WholeLineRead(text, after, bufferSize);
    InputStringGot(bufferSize, Stdin(pending, false), text + [NEWLINE], Stdin(after, false));
    ClassifyWholeLine(text, bufferSize, Stdin(after, false));
  }

  /** What `fgets` makes of a line that fits with its newline. */
  lemma WholeLineRead(text: seq<bv8>, after: seq<bv8>, bufferSize: nat)
    requires PlainText(text) && |text| + 2 <= bufferSize <= INT_MAX
    ensures Fgets(Stdin(text + [NEWLINE] + after, false), bufferSize) == (Got(text + [NEWLINE]), Stdin(after, false))
  {
    var pending := text + [NEWLINE] + after;
    LineCutStopsAtNewline(text, after, bufferSize - 1);
    assert pending[..|text| + 1] == text + [NEWLINE];
    assert pending[|text| + 1..] == after;
  }

  /** A whole line is passed on without its newline. */
  lemma ClassifyWholeLine(text: seq<bv8>, bufferSize: nat, after: Stdin)
    requires PlainText(text) && |text| + 2 <= bufferSize
    ensures Classify(text + [NEWLINE], bufferSize, after) == Value(Read(Success, text, after))
  {
    StrLenOfPlain(text + [NEWLINE]);
    assert (text + [NEWLINE])[..|text|] == text;
  }

  /** When `fgets` stores bytes, `input_string` answers what its tests make of them. */
  lemma InputStringGot(bufferSize: nat, input: Stdin, bytes: seq<bv8>, after: Stdin)
    requires 2 <= bufferSize <= INT_MAX && Fgets(input, bufferSize) == (Got(bytes), after)
    ensures InputString(false, bufferSize, false, input) == Classify(bytes, bufferSize, after)
  {
    assert InputString(false, bufferSize, false, input) == ReadLine(bufferSize, input);
  }

  lemma {:induction false} LineCutStopsAtNewline(text: seq<bv8>, after: seq<bv8>, limit: nat)
    requires PlainText(text) && |text| < limit
    ensures LineCut(text + [NEWLINE] + after, limit) == |text| + 1
    decreases |text|
  {
    if |text| > 0 {
      assert (text + [NEWLINE] + after)[1..] == text[1..] + [NEWLINE] + after;
      LineCutStopsAtNewline(text[1..], after, limit - 1);
    }
  }

  lemma {:induction false} StrLenOfPlain(bytes: seq<bv8>)
    requires forall i :: 0 <= i < |bytes| ==> bytes[i] != NUL
    ensures StrLen(bytes) == |bytes|
  {
    if |bytes| > 0 {
      StrLenOfPlain(bytes[1..]);
    }
  }

  /**
   * A line with at least `bufferSize - 1` bytes before its newline is
   * reported as truncated, and the rest of it is discarded.
   */
  lemma {:induction false} LongLineTruncated(text: seq<bv8>, after: seq<bv8>, bufferSize: nat)
    requires PlainText(text) && 2 <= bufferSize <= INT_MAX && |text| >= bufferSize - 1
    ensures InputString(false, bufferSize, false, Stdin(text + [NEWLINE] + after, false))
      == Value(Read(BufferOverflow, [], Stdin(after, false)))
  {
    TruncatedInput(text, after, bufferSize);
    RestOfLongLine(text, after, bufferSize - 1);
  }

  /** Discarding what is left of a long line leaves the input after its newline. */
  lemma RestOfLongLine(text: seq<bv8>, after: seq<bv8>, k: nat)
    requires PlainText(text) && k <= |text|
    ensures ClearLine(Stdin((text + [NEWLINE] + after)[k..], false)) == Stdin(after, false)
  {
    assert (text + [NEWLINE] + after)[k..] == text[k..] + [NEWLINE] + after;
    ClearLineDropsLine(text[k..], after);
  }

  /** `input_string` on a long line: a truncation, with the line's remainder still to discard. */
  lemma TruncatedInput(text: seq<bv8>, after: seq<bv8>, bufferSize: nat)
    requires PlainText(text) && 2 <= bufferSize <= INT_MAX && |text| >= bufferSize - 1
    ensures var pending := text + [NEWLINE] + after;
      InputString(false, bufferSize, false, Stdin(pending, false))
      == Value(Read(BufferOverflow, [], ClearLine(Stdin(pending[bufferSize - 1..], false))))
  {
    var pending := text + [NEWLINE] + after;
    var k := bufferSize - 1;
    TruncatedRead(text, after, k);
    InputStringGot(bufferSize, Stdin(pending, false), text[..k], Stdin(pending[k..], false));
    ClassifyTruncated(text[..k], bufferSize, Stdin(pending[k..], false));
  }

  /** A full buffer without a newline is reported as truncated and the line discarded. */
  lemma ClassifyTruncated(bytes: seq<bv8>, bufferSize: nat, after: Stdin)
    requires PlainText(bytes) && 2 <= bufferSize && |bytes| == bufferSize - 1 && StrLen(bytes) == |bytes|
    ensures Classify(bytes, bufferSize, after) == Value(Read(BufferOverflow, [], ClearLine(after)))
  {
    assert bytes[|bytes| - 1] != NEWLINE;
  }

  /** What `fgets` and `strnlen` make of a line longer than the buffer. */
  lemma TruncatedRead(text: seq<bv8>, after: seq<bv8>, k: nat)
    requires PlainText(text) && 1 <= k <= |text| && k < INT_MAX
    ensures var pending := text + [NEWLINE] + after;
      Fgets(Stdin(pending, false), k + 1) == (Got(text[..k]), Stdin(pending[k..], false))
      && StrLen(text[..k]) == k && PlainText(text[..k])
  {
    var pending := text + [NEWLINE] + after;
    LineCutWithoutNewline(pending, k);
    assert pending[..k] == text[..k];
    StrLenOfPlain(text[..k]);
  }

  lemma {:induction false} LineCutWithoutNewline(bytes: seq<bv8>, limit: nat)
    requires limit <= |bytes| && forall i :: 0 <= i < limit ==> bytes[i] != NEWLINE
    ensures LineCut(bytes, limit) == limit
    decreases limit
  {
    if limit > 0 {
      LineCutWithoutNewline(bytes[1..], limit - 1);
    }
  }

  lemma {:induction false} ClearLineDropsLine(text: seq<bv8>, after: seq<bv8>)
    requires forall i :: 0 <= i < |text| ==> text[i] != NEWLINE
    ensures ClearLine(Stdin(text + [NEWLINE] + after, false)) == Stdin(after, false)
    decreases |text|
  {
    if |text| > 0 {
      assert (text + [NEWLINE] + after)[1..] == text[1..] + [NEWLINE] + after;
      ClearLineDropsLine(text[1..], after);
    } else {
      assert (text + [NEWLINE] + after)[1..] == after;
    }
  }

  /** `input_char` as written: the line is read into a buffer of 2 bytes. */
  function InputChar(valueIsNull: bool, input: Stdin): (r: Result<(Read, Option<bv8>)>)
    ensures valueIsNull ==> r == Value((Read(NullPtr, [], input), None))
    ensures r.Value? && r.value.0.status == Success ==> r.value.1.Some?
  {
    CharFrom(valueIsNull, 2, input)
  }

  /** `input_char` with a buffer of `bufferSize` bytes. */
  function CharFrom(valueIsNull: bool, bufferSize: nat, input: Stdin): (r: Result<(Read, Option<bv8>)>)
    requires bufferSize < TWO64
    ensures valueIsNull ==> r == Value((Read(NullPtr, [], input), None))
    ensures r.Value? && r.value.0.status == Success ==>
      |r.value.0.text| == 1 && r.value.1 == Some(r.value.0.text[0])
    ensures r.Value? && r.value.0.status != Success ==> r.value.1.None?
  {
    if valueIsNull then Value((Read(NullPtr, [], input), None))
    else OneChar(InputString(false, bufferSize, false, input))
  }

  /** The test `input_char` makes on the line read: exactly one character. */
  function OneChar(line: Result<Read>): (r: Result<(Read, Option<bv8>)>)
    ensures r.Failure? <==> line.Failure?
    ensures r.Value? && r.value.0.status == Success ==>
      |r.value.0.text| == 1 && r.value.1 == Some(r.value.0.text[0])
    ensures r.Value? && r.value.0.status != Success ==> r.value.1.None?
    ensures r.Value? && line.value.status != Success ==> r.value.0 == line.value
  {
    var read :- line;
    if read.status != Success then Value((read, None))
    else if |read.text| != 1 then Value((read.(status := InvalidLength), None))
    else Value((read, Some(read.text[0])))
  }

  /**
   * As written, `input_char` never succeeds: `fgets` stores at most one
   * byte, so a character is taken for a truncated line and a lone newline
   * is stripped to nothing.  A character followed by a newline, such as
   * `x`, is refused as an overflow and its newline discarded.
   */
  lemma InputCharNeverSucceeds(input: Stdin, c: bv8, after: seq<bv8>)
    ensures InputChar(false, input).Value? && InputChar(false, input).value.0.status != Success
    ensures c != NUL && c != NEWLINE ==>
      InputChar(false, Stdin([c, NEWLINE] + after, false)) == Value((Read(BufferOverflow, [], Stdin(after, false)), None))
  {
    CharNeverFits(input);
    if c != NUL && c != NEWLINE {
      CharLineTruncated(c, after);
    }
  }

  lemma CharNeverFits(input: Stdin)
    ensures InputChar(false, input).Value? && InputChar(false, input).value.0.status != Success
  {
    ReadIntoTwo(input);
    assert InputString(false, 2, false, input) == ReadLine(2, input);
  }

  lemma CharLineTruncated(c: bv8, after: seq<bv8>)
    requires c != NUL && c != NEWLINE
    ensures InputString(false, 2, false, Stdin([c, NEWLINE] + after, false)) == Value(Read(BufferOverflow, [], Stdin(after, false)))
  {
    LongLineTruncated([c], after, 2);
    assert [c] + [NEWLINE] + after == [c, NEWLINE] + after;
  }

  /** A buffer of 2 bytes never holds a one-character line. */
  lemma ReadIntoTwo(input: Stdin)
    ensures ReadLine(2, input).Value?
    ensures ReadLine(2, input).value.status == Success ==> |ReadLine(2, input).value.text| == 0
  {
  }

  /** `input_char` with room for the character, its newline and the terminator. */
  function InputCharFixed(valueIsNull: bool, input: Stdin): (r: Result<(Read, Option<bv8>)>)
    ensures valueIsNull ==> r == Value((Read(NullPtr, [], input), None))
  {
    CharFrom(valueIsNull, 3, input)
  }

  /** With a 3-byte buffer a one-character line is read as that character. */
  lemma InputCharFixedReads(c: bv8, after: seq<bv8>)
    requires c != NUL && c != NEWLINE
    ensures InputCharFixed(false, Stdin([c, NEWLINE] + after, false)) == Value((Read(Success, [c], Stdin(after, false)), Some(c)))
  {
    LineReadBack([c], after, 3);
    assert [c] + [NEWLINE] + after == [c, NEWLINE] + after;
  }

  /** What `strtol` reports: the value (clamped on overflow), how many bytes it used, and whether it set ERANGE. */
  datatype Conversion = Conversion(value: int, consumed: nat, erange: bool)

  /**
   * The checks `input_int` and `input_short` apply to a converted line:
   * nothing converted or bytes left over is a conversion error, ERANGE or a
   * value outside `[lo, hi]` is the given overflow status.
   */
  function CheckNumber(text: seq<bv8>, c: Conversion, lo: int, hi: int, overflow: Status): (r: (Status, Option<int>))
    requires overflow == IntegerOverflow || overflow == ShortOverflow
    ensures r.0 == ConversionError <==> c.consumed == 0 || c.consumed < |text|
    ensures r.0 == overflow <==> (!(c.consumed == 0 || c.consumed < |text|) && (c.erange || c.value < lo || c.value > hi))
    ensures r.0 == Success <==> r.1.Some?
    ensures r.1.Some? ==> r.1.value == c.value && lo <= c.value <= hi && !c.erange
  {
    if c.consumed == 0 || c.consumed < |text| then (ConversionError, None)
    else if c.erange || c.value > hi || c.value < lo then (overflow, None)
    else (Success, Some(c.value))
  }

  /** `input_int`: a line of up to 31 bytes converted by `strtol` and checked against the `int` range. */
  function InputInt(valueIsNull: bool, input: Stdin, strtol: seq<bv8> -> Conversion): (r: Result<(Read, Option<int>)>)
    ensures valueIsNull ==> r == Value((Read(NullPtr, [], input), None))
    ensures r.Value? && r.value.1.Some? ==>
      r.value.0.status == Success && IsInt32(r.value.1.value)
      && strtol(r.value.0.text).value == r.value.1.value && !strtol(r.value.0.text).erange
      && strtol(r.value.0.text).consumed >= |r.value.0.text| && strtol(r.value.0.text).consumed > 0
  {
    NumberFrom(valueIsNull, input, strtol, INT_MIN, INT_MAX, IntegerOverflow)
  }

  /** `input_short`: the same, checked against the `short` range. */
  function InputShort(valueIsNull: bool, input: Stdin, strtol: seq<bv8> -> Conversion): (r: Result<(Read, Option<int>)>)
    ensures valueIsNull ==> r == Value((Read(NullPtr, [], input), None))
    ensures r.Value? && r.value.1.Some? ==>
      r.value.0.status == Success && IsInt16(r.value.1.value)
      && strtol(r.value.0.text).value == r.value.1.value && !strtol(r.value.0.text).erange
      && strtol(r.value.0.text).consumed >= |r.value.0.text| && strtol(r.value.0.text).consumed > 0
  {
    NumberFrom(valueIsNull, input, strtol, SHRT_MIN, SHRT_MAX, ShortOverflow)
  }

  /** The shared shape of the two numeric readers, with a 32-byte buffer. */
  function NumberFrom(valueIsNull: bool, input: Stdin, strtol: seq<bv8> -> Conversion, lo: int, hi: int, overflow: Status): (r: Result<(Read, Option<int>)>)
    requires overflow == IntegerOverflow || overflow == ShortOverflow
    ensures valueIsNull ==> r == Value((Read(NullPtr, [], input), None))
    ensures r.Value? && r.value.0.status == overflow ==>
      var c := strtol(r.value.0.text); c.erange || c.value < lo || c.value > hi
    ensures r.Value? && r.value.1.Some? ==>
      r.value.0.status == Success && lo <= r.value.1.value <= hi
      && strtol(r.value.0.text).value == r.value.1.value && !strtol(r.value.0.text).erange
      && strtol(r.value.0.text).consumed >= |r.value.0.text| && strtol(r.value.0.text).consumed > 0
  {
    if valueIsNull then Value((Read(NullPtr, [], input), None))
    else Convert(InputString(false, 32, false, input), strtol, lo, hi, overflow)
  }

  /** The checks of the numeric readers applied to the line read. */
  function Convert(line: Result<Read>, strtol: seq<bv8> -> Conversion, lo: int, hi: int, overflow: Status): (r: Result<(Read, Option<int>)>)
    requires overflow == IntegerOverflow || overflow == ShortOverflow
    requires line.Value? ==> LineStatus(line.value.status)
    ensures r.Failure? <==> line.Failure?
    ensures r.Value? && r.value.0.status == overflow ==>
      var c := strtol(r.value.0.text); c.erange || c.value < lo || c.value > hi
    ensures r.Value? && r.value.1.Some? ==>
      r.value.0.status == Success && lo <= r.value.1.value <= hi
      && strtol(r.value.0.text).value == r.value.1.value && !strtol(r.value.0.text).erange
      && strtol(r.value.0.text).consumed >= |r.value.0.text| && strtol(r.value.0.text).consumed > 0
    ensures r.Value? && line.value.status == Success ==>
      r.value.0 == line.value.(status := CheckNumber(line.value.text, strtol(line.value.text), lo, hi, overflow).0)
  {
    var read :- line;
    if read.status != Success then Value((read, None))
    else
      var checked := CheckNumber(read.text, strtol(read.text), lo, hi, overflow);
      Value((read.(status := checked.0), checked.1))
  }

  /**
   * A line holding `2147483648` (one past INT_MAX), which `strtol` reads
   * whole and without ERANGE on a 64-bit `long`, is an `int` overflow.
   */
  lemma IntOverflowReported(text: seq<bv8>, after: seq<bv8>, strtol: seq<bv8> -> Conversion)
    requires PlainText(text) && 0 < |text| <= 30
    requires strtol(text) == Conversion(INT_MAX + 1, |text|, false)
    ensures InputInt(false, Stdin(text + [NEWLINE] + after, false), strtol).value.0.status == IntegerOverflow
  {
    LineReadBack(text, after, 32);
  }
}

=== FILE: interp.dfy ===
/**
 * The tree-walking interpreter: expression evaluation at the three integer
 * widths, statement execution, loops, switch, function calls and returns.
 *
 * The C program keeps its state in globals (the current scope, the function
 * table, the return slot, the stack of jump buffers) and transfers control
 * for `break` and `return` with `longjmp`.  Here the state is an explicit
 * value threaded through every step, and a statement reports whether it
 * finished normally or is unwinding to the topmost jump frame.  Every step
 * spends one unit of fuel, so that evaluation is a total function.
 */
module Interp {
  import opened Outcome
  import opened Syntax
  import opened CInt
  import Env
  import Registry
  import JumpStack
  import Typing
  import Arith
  import ExprList

  /** The global return slot: whether a `return` ran, the declared type, the value. */
  datatype ReturnSlot = ReturnSlot(hasValue: bool, slotType: VarType, value: int)

  /** One line written by a print or error statement. */
  datatype Item = Text(text: string) | Number(n: int)

  datatype State = State(
    scopes: seq<Env.Scope>,
    functions: seq<Function>,
    ret: ReturnSlot,
    frames: seq<JumpStack.Frame>,
    out: seq<Item>,        // standard output
    err: seq<Item>,        // standard error, from error statements
    diags: seq<string>,    // diagnostics after which execution continues
    returnsRun: nat)       // how many `return` statements have run; the C
                           // program keeps no such count, it only serves to
                           // say when the return slot can have gained a value

  /** How a statement finished: normally, or unwinding to the top jump frame. */
  datatype Flow = Normal | LongJump

  /** A result and the state after it, or the reason execution stopped. */
  datatype Res<T> = Ok(val: T, st: State) | Stop(halt: Halt)
  {
    predicate IsFailure() { Stop? }

    function PropagateFailure<U>(): Res<U>
      requires Stop?
    {
      Stop(halt)
    }

    function Extract(): Res<T>
      requires Ok?
    {
      this
    }
  }

  /** The three integer evaluators: `int`, `short` and `bool`. */
  datatype Width = AsInt | AsShort | AsBool

  predicate InWidth(w: Width, v: int)
  {
    match w
    case AsInt => IsInt32(v)
    case AsShort => IsInt16(v)
    case AsBool => v == 0 || v == 1
  }

  /** The C conversion of an integer value to the evaluator's result type. */
  function Convert(w: Width, v: int): (r: int)
    ensures InWidth(w, r)
    ensures InWidth(w, v) ==> r == v
    ensures w == AsBool ==> (r == 1 <==> v != 0)
  {
    match w
    case AsInt => Wrap32(v)
    case AsShort => Wrap16(v)
    case AsBool => BoolValue(v != 0)
  }

  /** The evaluator used for a value of type `t` (chars use the `int` one). */
  function WidthOf(t: VarType): Width
  {
    match t
    case VarShort => AsShort
    case VarBool => AsBool
    case _ => AsInt
  }

  /** The value the return slot yields when read through the field of type `t`. */
  function Narrow(t: VarType, v: int): int
  {
    match t
    case VarShort => Wrap16(v)
    case VarChar => Wrap8(v)
    case VarBool => BoolValue(v != 0)
    case _ => Wrap32(v)
  }

  /** Scopes only grow, and no binding of a surviving scope disappears. */
  predicate Grows(a: seq<Env.Scope>, b: seq<Env.Scope>)
  {
    |a| <= |b| && forall j :: 0 <= j < |a| ==> a[j].Keys <= b[j].Keys
  }

  lemma GrowsTransitive(a: seq<Env.Scope>, b: seq<Env.Scope>, c: seq<Env.Scope>)
    requires Grows(a, b) && Grows(b, c)
    ensures Grows(a, c)
  {
  }

  /** Leaving the innermost scope on both sides keeps the growth of the others. */
  lemma GrowsWithoutInnermost(a: seq<Env.Scope>, b: seq<Env.Scope>)
    requires Grows(a, b) && |a| > 0
    ensures Grows(a[..|a| - 1], b[..|b| - 1])
  {
  }

  /** The return slot gains a value only through a `return` that ran in between. */
  predicate ValueFromReturn(st: State, st2: State)
  {
    st.returnsRun <= st2.returnsRun && (st2.ret.hasValue && !st.ret.hasValue ==> st.returnsRun < st2.returnsRun)
  }

  /**
   * What every completed step preserves: the jump stack, and the bindings;
   * and the return slot holds a value afterwards only if it did before or a
   * `return` ran.
   */
  predicate Evolves(st: State, st2: State)
  {
    st2.frames == st.frames && Grows(st.scopes, st2.scopes) && ValueFromReturn(st, st2)
  }

  /** A `longjmp` has somewhere to land: the topmost frame has been armed by `setjmp`. */
  predicate Landing(st: State)
  {
    |st.frames| > 0 && st.frames[|st.frames| - 1].armed
  }

  /** Between the two states nothing changed except the diagnostics. */
  predicate OnlyReported(st: State, st2: State)
  {
    st2.scopes == st.scopes && st2.functions == st.functions && st2.ret == st.ret
    && st2.frames == st.frames && st2.out == st.out && st2.err == st.err && st2.returnsRun == st.returnsRun
  }

  /** The same, for a loop whose own frame (the top one) may become armed. */
  predicate EvolvesInLoop(st: State, st2: State)
  {
    |st.frames| > 0 && |st2.frames| == |st.frames|
    && JumpStack.Pop(st2.frames) == JumpStack.Pop(st.frames)
    && Grows(st.scopes, st2.scopes) && ValueFromReturn(st, st2)
  }

  function Report(st: State, message: string): (r: State)
    ensures r.scopes == st.scopes && r.frames == st.frames
  {
    st.(diags := st.diags + [message])
  }

  /** Installs new scopes, or stops with the reason they could not be made. */
  function WithScopes(r: Result<seq<Env.Scope>>, st: State): (x: Res<()>)
    ensures x.Ok? <==> r.Value?
    ensures x.Ok? ==> x.st == st.(scopes := r.value)
    ensures x.Stop? ==> x.halt == r.halt
  {
    match r
    case Value(s) => Ok((), st.(scopes := s))
    case Failure(h) => Stop(h)
  }

  /** Leaves the innermost scope, which the caller knows exists. */
  function Leave(st: State): (r: State)
    requires |st.scopes| > 0
    ensures r == st.(scopes := st.scopes[..|st.scopes| - 1])
    ensures r.scopes + [st.scopes[|st.scopes| - 1]] == st.scopes
  {
    st.(scopes := Env.ExitScope(st.scopes).value)
  }

  function Check<T>(r: Result<T>, st: State): (x: Res<T>)
    ensures x.Ok? <==> r.Value?
    ensures x.Ok? ==> x.val == r.value && x.st == st
  {
    match r
    case Value(v) => Ok(v, st)
    case Failure(h) => Stop(h)
  }

  /** `set_*_variable` followed by the caller's diagnostic when the name is unbound. */
  function Store(name: string, t: VarType, value: int, mods: Mods, failure: string, st: State): (r: Res<Flow>)
    ensures r.Ok? && r.val == Normal && Evolves(st, r.st)
    ensures Env.Find(st.scopes, name).None? ==> r.st == Report(st, failure)
    ensures Env.Find(st.scopes, name).Some? ==> (r.st.diags == st.diags
              && Env.Get(r.st.scopes, name).value.varType == t
              && Env.Get(r.st.scopes, name).value.payload == Env.Scalar(value))
  {
    match Env.SetVariable(st.scopes, name, t, value, mods)
    case None => Ok(Normal, Report(st, failure))
    case Some(s) => Ok(Normal, st.(scopes := s))
  }

  /** Writes element `idx` of the array bound to `name` in scope `k`. */
  function WriteCell(k: nat, name: string, idx: int, value: int, st: State): (r: Res<()>)
    requires k < |st.scopes| && name in st.scopes[k]
    ensures r.Ok? ==> Evolves(st, r.st)
    ensures r.Ok? <==> st.scopes[k][name].payload.Cells? && 0 <= idx < |st.scopes[k][name].payload.elems|
    ensures r.Ok? ==> (|r.st.scopes| == |st.scopes| && name in r.st.scopes[k]
                       && r.st.scopes[k][name].payload == Env.Cells(st.scopes[k][name].payload.elems[idx := value]))
  {
    var v := st.scopes[k][name];
    match v.payload
    case Cells(xs) =>
      if 0 <= idx < |xs| then
        Ok((), st.(scopes := st.scopes[k := st.scopes[k][name := v.(payload := Env.Cells(xs[idx := value]))]]))
      else Stop(Undefined("array element written outside its buffer"))
    case _ => Stop(Undefined("array element written through a non-array pointer"))
  }

  // ---------------------------------------------------------------------
  // Expressions
  // ---------------------------------------------------------------------

  /** Expressions with no increments and no calls: evaluating them only reports. */
  predicate Pure(e: Node)
  {
    match e
    case IntNode(_) => true
    case ShortNode(_) => true
    case CharNode(_) => true
    case BoolNode(_) => true
    case FloatNode => true
    case DoubleNode => true
    case Identifier(_) => true
    case SizeOf(_) => true
    case Operation(_, l, r, _) => Pure(l) && Pure(r)
    case ArrayAccess(_, index, _) => index.None? || Pure(index.value)
    case _ => false
  }

  /**
   * `evaluate_expression_int`, `evaluate_expression_short` and
   * `evaluate_expression_bool`, selected by `w`.
   */
  function Eval(fuel: nat, w: Width, e: Node, st: State): (r: Res<int>)
    ensures r.Ok? ==> InWidth(w, r.val) && Evolves(st, r.st)
    ensures r.Ok? && Pure(e) ==> OnlyReported(st, r.st)
    decreases fuel
  {
    if fuel == 0 then Stop(OutOfFuel)
    else if IsLiteral(e) then Literal(w, e, st)
    else if e.SizeOf? then SizeOfValue(w, e.sizeExpr, st)
    else if e.Identifier? then ReadVariable(w, e.name, st)
    else if e.Operation? then EvalOperation(fuel - 1, w, e, st)
    else if e.Unary? then EvalUnary(fuel - 1, w, e, st)
    else if e.ArrayAccess? then EvalElement(fuel - 1, w, e, st)
    else if e.FuncCall? then EvalCall(fuel - 1, w, e, st)
    else Ok(0, Report(st, InvalidExpression(w)))
  }

  predicate IsLiteral(e: Node)
  {
    e.IntNode? || e.ShortNode? || e.CharNode? || e.BoolNode? || e.FloatNode? || e.DoubleNode?
  }

  /** The diagnostic each evaluator prints for a node it cannot evaluate. */
  function InvalidExpression(w: Width): string
  {
    match w
    case AsInt => "Invalid integer expression"
    case AsShort => "Invalid short expression"
    case AsBool => "Invalid boolean expression"
  }

  /**
   * A literal converted to the evaluator's type; a bool literal is 0 or 1
   * at every width.  Floating-point literals leave the model.
   */
  function Literal(w: Width, e: Node, st: State): (r: Res<int>)
    requires IsLiteral(e)
    ensures r.Ok? ==> InWidth(w, r.val) && r.st == st
    ensures r.Stop? <==> e.FloatNode? || e.DoubleNode?
    ensures e.IntNode? && InWidth(w, e.ivalue) ==> r == Ok(e.ivalue, st)
    ensures e.BoolNode? ==> r == Ok(BoolValue(e.bvalue), st)
  {
    match e
    case IntNode(v) => Ok(Convert(w, v), st)
    case ShortNode(v) => Ok(Convert(w, v), st)
    case CharNode(v) => Ok(Convert(w, v), st)
    case BoolNode(b) => Ok(BoolValue(b), st)
    case FloatNode => Stop(Unmodelled("floating-point value"))
    case DoubleNode => Stop(Unmodelled("floating-point value"))
  }

  /**
   * `sizeof` in the `int` and `short` evaluators: the `size_t` result
   * converted to the evaluator's type.  The bool evaluator has no case for
   * it and reports the node as invalid.
   */
  function SizeOfValue(w: Width, x: Node, st: State): (r: Res<int>)
    ensures r.Ok? && InWidth(w, r.val) && OnlyReported(st, r.st)
    ensures w == AsBool ==> r == Ok(0, Report(st, "Invalid boolean expression"))
    ensures w == AsInt && !x.Identifier? ==> r.val == Typing.SizeOf(x, st.scopes).bytes
  {
    if w == AsBool then Ok(0, Report(st, "Invalid boolean expression"))
    else
      var s := Typing.SizeOf(x, st.scopes);
      Ok(Convert(w, s.bytes), st.(diags := st.diags + s.diags))
  }

  /** A call in an expression: the function runs, then the return slot is read. */
  function EvalCall(fuel: nat, w: Width, e: Node, st: State): (r: Res<int>)
    requires e.FuncCall?
    ensures r.Ok? ==> InWidth(w, r.val) && Evolves(st, r.st)
    decreases fuel
  {
    if fuel == 0 then Stop(OutOfFuel)
    else
      var c :- CallFunction(fuel - 1, e.callee, e.args, st);
      Ok(ReadReturn(w, c.st.ret), c.st)
  }

  /** A name read as a number (`handle_identifier` without promotion). */
  function ReadVariable(w: Width, name: string, st: State): (r: Res<int>)
    ensures r.Ok? ==> InWidth(w, r.val) && r.st == st
    ensures Env.Get(st.scopes, name).None? ==> r == Stop(Fatal("Undefined variable"))
    ensures r.Ok? <==> (Env.Get(st.scopes, name).Some? && Env.Get(st.scopes, name).value.payload.Scalar?
                        && Env.Get(st.scopes, name).value.varType !in {VarFloat, VarDouble, NoType})
  {
    match Env.Get(st.scopes, name)
    case None => Stop(Fatal("Undefined variable"))
    case Some(v) =>
      if v.varType == VarFloat || v.varType == VarDouble then Stop(Unmodelled("floating-point variable"))
      else if v.varType == NoType then Stop(Undefined("untyped variable yields a NULL value"))
      else match v.payload
        case Scalar(x) => Ok(Convert(w, x), st)
        case _ => Stop(Unmodelled("array buffer address read as a number"))
  }

  /** What the caller of a function reads from the return slot. */
  function ReadReturn(w: Width, slot: ReturnSlot): (v: int)
    ensures InWidth(w, v)
    ensures !slot.hasValue ==> v == 0
  {
    if !slot.hasValue || slot.slotType == NoType then 0
    else Convert(w, Narrow(slot.slotType, slot.value))
  }

  /** Applies an operator's outcome: a value, a diagnostic and 0, or a trap. */
  function Apply(c: Arith.Computed, w: Width, st: State): (r: Res<int>)
    ensures r.Ok? ==> InWidth(w, r.val) && Evolves(st, r.st)
    ensures r.Ok? <==> !c.Traps?
    ensures r.Ok? ==> OnlyReported(st, r.st)
  {
    match c
    case Yields(v) => Ok(Convert(w, v), st)
    case Reports(m) => Ok(0, Report(st, m))
    case Traps(what) => Stop(Undefined(what))
  }

  /**
   * A binary operation.  `&&` and `||` evaluate both operands at the
   * caller's width and combine them to 0/1.  Every other operator computes
   * at the width promoted from the operands' static types; the computed
   * value is then converted to the caller's width.
   */
  function EvalOperation(fuel: nat, w: Width, e: Node, st: State): (r: Res<int>)
    requires e.Operation?
    ensures r.Ok? ==> InWidth(w, r.val) && Evolves(st, r.st)
    ensures r.Ok? && Pure(e) ==> OnlyReported(st, r.st)
    decreases fuel
  {
    if fuel == 0 then Stop(OutOfFuel)
    else match OperandWidth(e, w, st.scopes)
      case None => Stop(Unmodelled("floating-point arithmetic"))
      case Some(v) =>
        var a :- Eval(fuel - 1, v, e.left, st);
        var b :- Eval(fuel - 1, v, e.right, a.st);
        Apply(Combine(e.op, v, a.val, b.val, e.opMods.isUnsigned), w, b.st)
  }

  /**
   * The width the operands of a binary operation are evaluated at: the
   * caller's for `&&` and `||`, the promoted width otherwise, and none
   * when that width is floating point.
   */
  function OperandWidth(e: Node, w: Width, scopes: seq<Env.Scope>): (v: Option<Width>)
    requires e.Operation?
    ensures (e.op == And || e.op == Or) ==> v == Some(w)
    ensures !(e.op == And || e.op == Or) ==> (v.Some? <==> Typing.Rank(Typing.OperationWidth(e, scopes)) <= 1)
    ensures !(e.op == And || e.op == Or) && v.Some? ==> v.value != AsBool
  {
    if e.op == And || e.op == Or then Some(w)
    else match Typing.OperationWidth(e, scopes)
      case VarInt => Some(AsInt)
      case VarShort => Some(AsShort)
      case _ => None
  }

  /**
   * One operator on two operands evaluated at width `v`: `&&` and `||`
   * give 0 or 1; the others are computed at `short` or `int` width.
   */
  function Combine(op: BinaryOp, v: Width, a: int, b: int, isUnsigned: bool): (c: Arith.Computed)
    requires InWidth(v, a) && InWidth(v, b)
    ensures op == And ==> c == Arith.Yields(BoolValue(a != 0 && b != 0))
    ensures op == Or ==> c == Arith.Yields(BoolValue(a != 0 || b != 0))
    ensures op != And && op != Or && v == AsShort ==> c == Arith.ShortBinary(op, a, b)
    ensures op != And && op != Or && v == AsInt ==> c == Arith.IntBinary(op, a, b, isUnsigned)
    ensures c.Yields? ==> IsInt32(c.value)
  {
    if op == And then Arith.Yields(BoolValue(a != 0 && b != 0))
    else if op == Or then Arith.Yields(BoolValue(a != 0 || b != 0))
    else if v == AsShort then Arith.ShortBinary(op, a, b)
    else Arith.IntBinary(op, a, b, isUnsigned)
  }


  /** The name an increment writes back to: the identifier or the array's name. */
  function OperandName(x: Node): Option<string>
  {
    match x
    case Identifier(n) => Some(n)
    case ArrayAccess(n, _, _) => Some(n)
    case _ => None
  }

  /**
   * A unary operation on the operand evaluated at the same width.  Negation
   * is arithmetic at `int` width and logical NOT at `short` and `bool`
   * width.  An increment or decrement computes the operand's value plus or
   * minus one at that width, stores it under the operand's name with
   * the binding's current modifiers (retyping the variable to `int` or
   * `short`), and yields the new value (prefix) or the old one (postfix).
   */
  function EvalUnary(fuel: nat, w: Width, e: Node, st: State): (r: Res<int>)
    requires e.Unary?
    ensures r.Ok? ==> InWidth(w, r.val) && Evolves(st, r.st)
    decreases fuel
  {
    if fuel == 0 then Stop(OutOfFuel)
    else
      var a :- Eval(fuel - 1, w, e.operand, st);
      ApplyUnary(w, e, a.val, a.st)
  }

  /** The unary operator of `e` applied to its operand's value `v`. */
  function ApplyUnary(w: Width, e: Node, v: int, st: State): (r: Res<int>)
    requires e.Unary? && InWidth(w, v)
    ensures r.Ok? ==> InWidth(w, r.val) && Evolves(st, r.st)
    ensures e.uop == Neg ==> r == Ok(if w == AsInt then Wrap32(-v) else BoolValue(v == 0), st)
    ensures e.uop != Neg ==> (r.Ok? <==> w != AsBool && OperandName(e.operand).Some?)
    ensures r.Ok? && (e.uop == PostInc || e.uop == PostDec) ==> r.val == v
    ensures r.Ok? && e.uop != Neg ==> (r.st.diags == st.diags
      && var step := Convert(w, if e.uop == PreInc || e.uop == PostInc then v + 1 else v - 1);
         var name := OperandName(e.operand).value;
         (e.uop == PreInc || e.uop == PreDec ==> r.val == step)
         && (Env.Find(st.scopes, name).Some? ==> Env.Get(r.st.scopes, name).value.payload == Env.Scalar(step)))
  {
    if e.uop == Neg then
      Ok(if w == AsInt then Wrap32(-v) else BoolValue(v == 0), st)
    else if w == AsBool then
      Stop(Undefined("increment of a bool operand yields a NULL result"))
    else
      var stepped := Convert(w, if e.uop == PreInc || e.uop == PostInc then v + 1 else v - 1);
      match OperandName(e.operand)
      case None => Stop(Undefined("increment operand has no name"))
      case Some(name) =>
        var t := if w == AsInt then VarInt else VarShort;
        var mods := Env.ModifiersOf(st.scopes, name);
        var scopes := match Env.SetVariable(st.scopes, name, t, stepped, mods)
          case None => st.scopes
          case Some(s) => s;
        Ok(if e.uop == PreInc || e.uop == PreDec then stepped else v, st.(scopes := scopes))
  }

  /** An optional index expression, evaluated as an `int` (absent means 0). */
  function EvalIndex(fuel: nat, index: Option<Node>, st: State): (r: Res<int>)
    ensures r.Ok? ==> IsInt32(r.val) && Evolves(st, r.st)
    ensures index.None? ==> r == Ok(0, st)
    ensures r.Ok? && index.Some? && Pure(index.value) ==> OnlyReported(st, r.st)
    decreases fuel
  {
    match index
    case None => Ok(0, st)
    case Some(i) => if fuel == 0 then Stop(OutOfFuel) else Eval(fuel - 1, AsInt, i, st)
  }

  /**
   * An element read.  The binding is looked up before the index is
   * evaluated; the element type is the one recorded in the node.
   */
  function EvalElement(fuel: nat, w: Width, e: Node, st: State): (r: Res<int>)
    requires e.ArrayAccess?
    ensures r.Ok? ==> InWidth(w, r.val) && Evolves(st, r.st)
    ensures r.Ok? && Pure(e) ==> OnlyReported(st, r.st)
    decreases fuel
  {
    if fuel == 0 then Stop(OutOfFuel)
    else match Env.Find(st.scopes, e.arrayName)
      case None => Ok(0, Report(st, "Undefined array variable!"))
      case Some(k) =>
        if !st.scopes[k][e.arrayName].isArray then Ok(0, Report(st, "Not an array!"))
        else
          var i :- EvalIndex(fuel - 1, e.index, st);
          ReadElement(w, e, k, i.val, i.st)
  }

  /**
   * The element at `idx` of the binding found at scope `k` before the
   * index was evaluated.  The element type recorded in the node selects the
   * view of the buffer.
   */
  function ReadElement(w: Width, e: Node, k: nat, idx: int, st: State): (r: Res<int>)
    requires e.ArrayAccess? && k < |st.scopes| && e.arrayName in st.scopes[k]
    ensures r.Ok? ==> InWidth(w, r.val) && OnlyReported(st, r.st)
    ensures (idx < 0 || idx >= st.scopes[k][e.arrayName].arrayLength) ==> r == Ok(0, Report(st, "Array index out of bounds!"))
    ensures (r.Ok? && r.st == st) ==> (st.scopes[k][e.arrayName].payload.Cells?
      && 0 <= idx < |st.scopes[k][e.arrayName].payload.elems|
      && r.val == Convert(w, st.scopes[k][e.arrayName].payload.elems[idx]))
  {
    var v := st.scopes[k][e.arrayName];
    if idx < 0 || idx >= v.arrayLength then Ok(0, Report(st, "Array index out of bounds!"))
    else if e.elemType == NoType then
      Ok(0, Report(Report(st, "Undefined array type!"), "Undefined array variable!"))
    else if e.elemType == VarFloat || e.elemType == VarDouble then
      Stop(Unmodelled("floating-point array element"))
    else if e.elemType != v.varType then
      Stop(Unmodelled("array element read through another type's view"))
    else match v.payload
      case Cells(xs) =>
        if idx < |xs| then Ok(Convert(w, xs[idx]), st)
        else Stop(Undefined("array element read outside its buffer"))
      case _ => Stop(Undefined("array element read through a non-array pointer"))
  }

  /**
   * `evaluate_expression`: the short, float and double tests pick the
   * evaluator; a short expression is evaluated at `short` width and widened.
   */
  function EvaluateExpr(fuel: nat, e: Node, st: State): (r: Res<int>)
    ensures r.Ok? ==> IsInt32(r.val) && Evolves(st, r.st)
    decreases fuel
  {
    if fuel == 0 then Stop(OutOfFuel)
    else
      var isShort :- Check(Typing.HasKind(e, VarShort, st.scopes, st.functions), st);
      if isShort.val then Eval(fuel - 1, AsShort, e, st)
      else
        var isFloat :- Check(Typing.HasKind(e, VarFloat, st.scopes, st.functions), st);
        if isFloat.val then Stop(Unmodelled("floating-point expression"))
        else
          var isDouble :- Check(Typing.HasKind(e, VarDouble, st.scopes, st.functions), st);
          if isDouble.val then Stop(Unmodelled("floating-point expression"))
          else Eval(fuel - 1, AsInt, e, st)
  }

  // ---------------------------------------------------------------------
  // Function calls and returns
  // ---------------------------------------------------------------------

  /**
   * `execute_function_call`.  The most recent definition of the name is
   * called: a new scope, the slot takes the declared return type, the
   * parameters are bound; on a count mismatch the scope is left and the body
   * skipped; otherwise the slot is cleared, a frame is pushed and armed, the
   * body runs, then the frame is popped and the innermost scope left.  A
   * `return` from inside a nested block has already unwound past that
   * block's scope, so the scope left is the block's and the callee's stays.
   */
  function CallFunction(fuel: nat, name: string, args: seq<Node>, st: State): (r: Res<()>)
    ensures r.Ok? ==> Evolves(st, r.st)
    ensures Registry.Lookup(st.functions, name).None? ==> r == Ok((), Report(st, "Undefined function"))
    decreases fuel
  {
    match Registry.Lookup(st.functions, name)
    case None => Ok((), Report(st, "Undefined function"))
    case Some(f) =>
      if fuel == 0 then Stop(OutOfFuel)
      else
        var entered := st.(scopes := Env.EnterScope(st.scopes), ret := st.ret.(slotType := f.returnType));
        Invoke(fuel - 1, f, args, entered)
  }

  const Mismatch := "Mismatched number of arguments and parameters"

  /**
   * In the callee's fresh scope: the parameters are bound, then the body
   * runs unless the argument count differs, which is only reported.
   */
  function Invoke(fuel: nat, f: Function, args: seq<Node>, st: State): (r: Res<()>)
    requires |st.scopes| > 0
    ensures r.Ok? ==> Evolves(Leave(st), r.st)
    ensures r.Ok? && |f.params| != |args| ==> |r.st.diags| > 0 && r.st.diags[|r.st.diags| - 1] == Mismatch
    ensures r.Ok? && |f.params| == |args| && r.st.ret.hasValue ==> r.st.returnsRun > st.returnsRun
    decreases fuel
  {
    if fuel == 0 then Stop(OutOfFuel)
    else
      var bound :- BindParams(fuel - 1, f.params, args, 0, st);
      if |f.params| != |args| then
        Ok((), Leave(Report(bound.st, Mismatch)))
      else
        RunBody(fuel - 1, f.body, bound.st)
  }

  /**
   * The body of a called function: the slot is cleared, a frame is pushed
   * and armed for `return` to land on, the body runs, the frame is popped
   * and the innermost scope left: the callee's, unless a `return` unwound
   * out of a nested block and left that block's scope in place.
   */
  function RunBody(fuel: nat, body: Node, st: State): (r: Res<()>)
    requires |st.scopes| > 0
    ensures r.Ok? ==> Evolves(st.(scopes := st.scopes[..|st.scopes| - 1]), r.st)
    ensures r.Ok? && r.st.ret.hasValue ==> r.st.returnsRun > st.returnsRun
    decreases fuel
  {
    if fuel == 0 then Stop(OutOfFuel)
    else
      var ready := st.(ret := st.ret.(hasValue := false), frames := JumpStack.Arm(JumpStack.Push(st.frames)));
      JumpStack.PopUndoesPush(st.frames);
      var ran :- Exec(fuel - 1, body, ready);
      Ok((), Leave(ran.st.(frames := JumpStack.Pop(ran.st.frames))))
  }

  /**
   * Binds parameter `i` onward to the arguments in the same positions, one
   * `BindOne` per position, stopping at the shorter of the two lists.
   */
  function BindParams(fuel: nat, params: seq<Param>, args: seq<Node>, i: nat, st: State): (r: Res<()>)
    ensures r.Ok? ==> Evolves(st, r.st)
    decreases fuel
  {
    if fuel == 0 then Stop(OutOfFuel)
    else if i >= |params| || i >= |args| then Ok((), st)
    else
      var bound :- BindOne(fuel - 1, params[i], args[i], st);
      BindParams(fuel - 1, params, args, i + 1, bound.st)
  }

  /**
   * Binds one parameter: it is added to the callee's scope with its
   * declared type and value 0, and only then is the argument evaluated (in
   * the callee's scope) at the parameter's width and stored; a `char`
   * parameter is stored as an `int`.
   */
  function BindOne(fuel: nat, p: Param, arg: Node, st: State): (r: Res<()>)
    ensures r.Ok? ==> Evolves(st, r.st)
    decreases fuel
  {
    if fuel == 0 then Stop(OutOfFuel)
    else
      var added :- WithScopes(Env.AddVariable(st.scopes, p.paramName, Env.Zeroed.(varType := p.paramType)), st);
      if p.paramType == VarFloat || p.paramType == VarDouble then Stop(Unmodelled("floating-point argument"))
      else if p.paramType == NoType then Ok((), added.st)
      else
        var a :- Eval(fuel - 1, WidthOf(p.paramType), arg, added.st);
        var stored := if p.paramType == VarChar then VarInt else p.paramType;
        StaysBound(added.st.scopes, a.st.scopes, p.paramName);
        Ok((), BindArgument(a.st, p.paramName, stored, a.val))
  }

  /** A name bound in the innermost scope stays bound while no binding disappears. */
  lemma StaysBound(a: seq<Env.Scope>, b: seq<Env.Scope>, name: string)
    requires |a| > 0 && name in a[|a| - 1] && Grows(a, b)
    ensures Env.Find(b, name).Some?
  {
    assert name in b[|a| - 1];
  }

  /** The store of an argument into its parameter, which the callee's scope already binds. */
  function BindArgument(st: State, name: string, t: VarType, value: int): (r: State)
    requires Env.Find(st.scopes, name).Some?
    ensures Evolves(st, r) && r == st.(scopes := r.scopes)
    ensures Env.Get(r.scopes, name).value.payload == Env.Scalar(value) && Env.Get(r.scopes, name).value.varType == t
    ensures var k := Env.Find(st.scopes, name).value;
            r.scopes == st.scopes[k := st.scopes[k][name := Env.Get(r.scopes, name).value]]
  {
    st.(scopes := Env.SetVariable(st.scopes, name, t, value, NoMods).value)
  }

  /**
   * `handle_return_statement`: the slot is marked as holding a value before
   * the expression is evaluated at the slot's current type; the value is
   * then stored, and control unwinds to the topmost frame, if there is one.
   * A call inside the expression clears the mark again, and it stays
   * cleared when that callee runs no `return`.
   */
  function ExecReturn(fuel: nat, result: Option<Node>, st: State): (r: Res<Flow>)
    ensures r.Ok? ==> Evolves(st, r.st) && r.st.returnsRun > st.returnsRun
    ensures r.Ok? && (result.None? || Pure(result.value)) ==> r.st.ret.hasValue
    ensures r.Ok? ==> (r.val == LongJump <==> |st.frames| > 0)
    ensures r.Ok? && r.val == LongJump ==> Landing(st)
    decreases fuel
  {
    if fuel == 0 then Stop(OutOfFuel)
    else
      var marked := st.(ret := st.ret.(hasValue := true), returnsRun := st.returnsRun + 1);
      var stored :- match result
        case None => Ok((), marked)
        case Some(x) =>
          match st.ret.slotType
          case VarFloat => Stop(Unmodelled("floating-point return value"))
          case VarDouble => Stop(Unmodelled("floating-point return value"))
          case VarChar => Stop(Fatal("Unsupported return type"))
          case NoType => Stop(Fatal("Unsupported return type"))
          case _ =>
            var v :- Eval(fuel - 1, WidthOf(st.ret.slotType), x, marked);
            Ok((), v.st.(ret := v.st.ret.(value := v.val)));
      if |stored.st.frames| == 0 then Ok(Normal, stored.st)
      else
        var _ :- Check(JumpStack.LongJmp(stored.st.frames), stored.st);
        Ok(LongJump, stored.st)
  }

  // ---------------------------------------------------------------------
  // Statements
  // ---------------------------------------------------------------------

  /** The builtins a call statement hands to the I/O layer. */
  const Builtins: set<string> := {"yapping", "yappin", "baka", "ragequit", "chill", "slorp"}

  /** `execute_statement` */
  function Exec(fuel: nat, s: Node, st: State): (r: Res<Flow>)
    ensures r.Ok? ==> Evolves(st, r.st)
    ensures r.Ok? && r.val == LongJump ==> Landing(st)
    decreases fuel
  {
    if fuel == 0 then Stop(OutOfFuel)
    else if IsExpressionStatement(s) then ExecExpression(fuel - 1, s, st)
    else if s.Assignment? then Assign(fuel - 1, s.target, s.rhs, s.assignType, s.assignMods, st)
    else if s.ForStatement? then ExecFor(fuel - 1, s, st)
    else if s.WhileStatement? then ExecWhile(fuel - 1, s, st)
    else if s.DoWhileStatement? then ExecDoWhile(fuel - 1, s, st)
    else if s.StatementList? then ExecList(fuel - 1, s.stmts, 0, st)
    else if s.IfStatement? then ExecIf(fuel - 1, s, st)
    else if s.SwitchStatement? then ExecSwitch(fuel - 1, s, st)
    else if s.ReturnStatement? then ExecReturn(fuel - 1, s.result, st)
    else ExecSimple(fuel - 1, s, st)
  }

  /** The statements that neither loop nor branch. */
  function ExecSimple(fuel: nat, s: Node, st: State): (r: Res<Flow>)
    ensures r.Ok? ==> Evolves(st, r.st)
    ensures r.Ok? && r.val == LongJump ==> Landing(st)
    decreases fuel
  {
    if fuel == 0 then Stop(OutOfFuel)
    else if s.Declaration? then
      var added :- WithScopes(Env.AddVariable(st.scopes, s.name, Env.Zeroed), st);
      Assign(fuel - 1, WholeVariable(s.name), s.rhs, s.declType, s.declMods, added.st)
    else if s.PrintStatement? then Output(s, Render(fuel - 1, s.printArg, st))
    else if s.ErrorStatement? then Output(s, Render(fuel - 1, s.errorArg, st))
    else if s.ArrayAccess? then
      Ok(Normal, if s.index.Some? && s.elemType == VarInt then Report(st, "Failed to create array") else st)
    else if s.FuncCall? then
      if s.callee in Builtins then Stop(Unmodelled("I/O builtin")) else Ok(Normal, st)
    else if s.BreakStatement? then
      var _ :- Check(JumpStack.LongJmp(st.frames), st);
      Ok(LongJump, st)
    else if s.FunctionDef? then Ok(Normal, st.(functions := Registry.Create(st.functions, s.def)))
    else Ok(Normal, Report(st, "Unknown statement type"))
  }

  /** `print` appends the rendered item to standard output, `error` to standard error. */
  function Output(s: Node, item: Res<Item>): (r: Res<Flow>)
    requires s.PrintStatement? || s.ErrorStatement?
    ensures r.Ok? <==> item.Ok?
    ensures r.Ok? ==> r.val == Normal && r.st.scopes == item.st.scopes && r.st.frames == item.st.frames
    ensures r.Ok? && s.PrintStatement? ==> r.st.out == item.st.out + [item.val] && r.st.err == item.st.err
    ensures r.Ok? && s.ErrorStatement? ==> r.st.err == item.st.err + [item.val] && r.st.out == item.st.out
  {
    var item :- item;
    if s.PrintStatement? then Ok(Normal, item.st.(out := item.st.out + [item.val]))
    else Ok(Normal, item.st.(err := item.st.err + [item.val]))
  }




  /** The node kinds `execute_statement` hands to `evaluate_expression`. */
  predicate IsExpressionStatement(s: Node)
  {
    s.Operation? || s.Unary? || s.IntNode? || s.ShortNode? || s.FloatNode? || s.DoubleNode?
    || s.CharNode? || s.Identifier?
  }

  /** An expression statement: evaluated for its effects, the value dropped. */
  function ExecExpression(fuel: nat, e: Node, st: State): (r: Res<Flow>)
    ensures r.Ok? ==> r.val == Normal && Evolves(st, r.st)
    decreases fuel
  {
    if fuel == 0 then Stop(OutOfFuel)
    else
      var v :- EvaluateExpr(fuel - 1, e, st);
    Ok(Normal, v.st)
  }

  /** What a print or error statement writes: a string literal, or a number. */
  function Render(fuel: nat, arg: Node, st: State): (r: Res<Item>)
    ensures r.Ok? ==> Evolves(st, r.st)
    ensures arg.StringLiteral? ==> r == Ok(Text(arg.text), st)
    decreases fuel
  {
    if arg.StringLiteral? then Ok(Text(arg.text), st)
    else if fuel == 0 then Stop(OutOfFuel)
    else
      var v :- EvaluateExpr(fuel - 1, arg, st);
      Ok(Number(v.val), v.st)
  }

  /** The statements of a list in order, stopping at the first that unwinds. */
  function ExecList(fuel: nat, stmts: seq<Node>, i: nat, st: State): (r: Res<Flow>)
    ensures r.Ok? ==> Evolves(st, r.st)
    ensures r.Ok? && r.val == LongJump ==> Landing(st)
    decreases fuel
  {
    if fuel == 0 then Stop(OutOfFuel)
    else if i >= |stmts| then Ok(Normal, st)
    else
      var b :- Exec(fuel - 1, stmts[i], st);
      if b.val == LongJump then b
      else ExecList(fuel - 1, stmts, i + 1, b.st)
  }

  /**
   * The C assignment statement (also reached by a declaration after the
   * variable was added): fatal on a const binding, then an element store or
   * a whole-variable store.
   */
  function Assign(fuel: nat, target: Target, rhs: Node, t: VarType, mods: Mods, st: State): (r: Res<Flow>)
    ensures r.Ok? ==> Evolves(st, r.st) && r.val == Normal
    ensures Env.IsConst(st.scopes, TargetName(target)) ==> r == Stop(Fatal("Cannot modify const variable"))
    decreases fuel
  {
    if Env.IsConst(st.scopes, TargetName(target)) then Stop(Fatal("Cannot modify const variable"))
    else if fuel == 0 then Stop(OutOfFuel)
    else match target
      case Element(arr, index) => AssignElement(fuel - 1, arr, index, rhs, st)
      case WholeVariable(name) => AssignScalar(fuel - 1, name, rhs, t, mods, st)
  }

  /**
   * A whole-variable store.  Char, bool and short literals are stored as
   * they are (a char as an `int`); a float or double declaration or
   * expression leaves the model; everything else is evaluated as an `int`
   * and stored as an `int`, whatever type the variable had.
   */
  function AssignScalar(fuel: nat, name: string, rhs: Node, t: VarType, mods: Mods, st: State): (r: Res<Flow>)
    ensures r.Ok? ==> Evolves(st, r.st) && r.val == Normal
    decreases fuel
  {
    if fuel == 0 then Stop(OutOfFuel)
    else if rhs.CharNode? then Store(name, VarInt, rhs.cvalue, mods, "Failed to set character variable", st)
    else if rhs.BoolNode? then Store(name, VarBool, BoolValue(rhs.bvalue), mods, "Failed to set boolean variable", st)
    else if rhs.ShortNode? then Store(name, VarShort, Wrap16(rhs.svalue), mods, "Failed to set short variable", st)
    else
      var floating :- Check(FloatingAssignment(t, rhs, st), st);
      if floating.val then Stop(Unmodelled("floating-point assignment"))
      else
        var v :- Eval(fuel - 1, AsInt, rhs, st);
        Store(name, VarInt, v.val, mods, "Failed to set integer variable", v.st)
  }

  /**
   * The float and double tests of an assignment, in the order the C
   * conditions evaluate them: the declared type first, then the right-hand
   * side's kind.
   */
  function FloatingAssignment(t: VarType, rhs: Node, st: State): (r: Result<bool>)
    ensures r == Value(false) ==> t != VarFloat && t != VarDouble
    ensures t == VarFloat ==> r == Value(true)
    ensures Typing.NamesBound(rhs, st.scopes) ==> r.Value?
  {
    if t == VarFloat then Value(true)
    else
      var isFloat :- Typing.HasKind(rhs, VarFloat, st.scopes, st.functions);
      if isFloat || t == VarDouble then Value(true)
      else Typing.HasKind(rhs, VarDouble, st.scopes, st.functions)
  }

  /**
   * An element store.  The index is evaluated first, then the binding is
   * checked; a bad index or a non-array reports and writes nothing.  The
   * right-hand side is evaluated at the array's element width.
   */
  function AssignElement(fuel: nat, arr: string, index: Option<Node>, rhs: Node, st: State): (r: Res<Flow>)
    ensures r.Ok? ==> Evolves(st, r.st) && r.val == Normal
    decreases fuel
  {
    if fuel == 0 then Stop(OutOfFuel)
    else
      var i :- EvalIndex(fuel - 1, index, st);
      match Env.Find(i.st.scopes, arr)
      case None => Ok(Normal, Report(i.st, "Undefined array variable"))
      case Some(k) =>
        var v := i.st.scopes[k][arr];
        if !v.isArray then Ok(Normal, Report(i.st, "Not an array!"))
        else if i.val < 0 || i.val >= v.arrayLength then Ok(Normal, Report(i.st, "Array index out of bounds!"))
        else if v.varType == VarFloat || v.varType == VarDouble then Stop(Unmodelled("floating-point array element"))
        else if v.varType == NoType then Ok(Normal, Report(i.st, "Unsupported array type"))
        else
          var x :- Eval(fuel - 1, WidthOf(v.varType), rhs, i.st);
          var stored := if v.varType == VarChar then Wrap8(x.val) else x.val;
          var w :- WriteCell(k, arr, i.val, stored, x.st);
          Ok(Normal, w.st)
  }

  /**
   * `if`: a scope around the condition and the chosen branch.  The scope is
   * left only when the branch finished normally.
   */
  function ExecIf(fuel: nat, s: Node, st: State): (r: Res<Flow>)
    requires s.IfStatement?
    ensures r.Ok? ==> Evolves(st, r.st)
    ensures r.Ok? && r.val == LongJump ==> Landing(st)
    ensures r.Ok? && r.val == Normal ==> |r.st.scopes| >= |st.scopes|
    decreases fuel
  {
    if fuel == 0 then Stop(OutOfFuel)
    else
      var entered := st.(scopes := Env.EnterScope(st.scopes));
      var c :- EvaluateExpr(fuel - 1, s.ifCond, entered);
      var b :-
        if c.val != 0 then Exec(fuel - 1, s.thenBranch, c.st)
        else match s.elseBranch
          case Some(e) => Exec(fuel - 1, e, c.st)
          case None => Ok(Normal, c.st);
      if b.val == LongJump then b
      else
        var left := Leave(b.st);
        Ok(Normal, left)
  }

  /**
   * `switch`: the scrutinee is evaluated once, before a frame is pushed and
   * armed; the cases are walked; a break lands on the frame; the frame is
   * popped.
   */
  function ExecSwitch(fuel: nat, s: Node, st: State): (r: Res<Flow>)
    requires s.SwitchStatement?
    ensures r.Ok? ==> Evolves(st, r.st) && r.val == Normal
    decreases fuel
  {
    if fuel == 0 then Stop(OutOfFuel)
    else
      var v :- EvaluateExpr(fuel - 1, s.scrutinee, st);
      var pushed := v.st.(frames := JumpStack.Arm(JumpStack.Push(v.st.frames)));
      JumpStack.PopUndoesPush(v.st.frames);
      var walked :- CaseWalk(fuel - 1, s.cases, 0, v.val, false, pushed);
      Ok(Normal, walked.st.(frames := JumpStack.Pop(walked.st.frames)))
  }

  /**
   * The walk over the cases from `i`.  Every case value is evaluated; a case
   * runs when its value equals the scrutinee or an earlier case ran; a
   * default runs whenever it is reached and ends the walk; a case body that
   * unwinds ends it too.
   */
  function CaseWalk(fuel: nat, cases: seq<Case>, i: nat, v: int, matched: bool, st: State): (r: Res<Flow>)
    ensures r.Ok? ==> Evolves(st, r.st)
    ensures r.Ok? && r.val == LongJump ==> Landing(st)
    decreases fuel
  {
    if fuel == 0 then Stop(OutOfFuel)
    else if i >= |cases| then Ok(Normal, st)
    else match cases[i].caseValue
      case None => Exec(fuel - 1, cases[i].caseBody, st)
      case Some(x) =>
        var c :- EvaluateExpr(fuel - 1, x, st);
        if c.val == v || matched then
          var b :- Exec(fuel - 1, cases[i].caseBody, c.st);
          if b.val == LongJump then b
          else CaseWalk(fuel - 1, cases, i + 1, v, true, b.st)
        else CaseWalk(fuel - 1, cases, i + 1, v, matched, c.st)
  }

  /**
   * `for`: a frame pushed and armed at once, a scope for the initializer,
   * then iterations.  When the condition fails, only the iteration's scope
   * is left; the initializer's scope stays on the chain.  An unwind lands on
   * the frame without leaving any scope.  The frame is popped either way.
   */
  function ExecFor(fuel: nat, s: Node, st: State): (r: Res<Flow>)
    requires s.ForStatement?
    ensures r.Ok? ==> Evolves(st, r.st) && r.val == Normal
    decreases fuel
  {
    if fuel == 0 then Stop(OutOfFuel)
    else
      var pushed := st.(frames := JumpStack.Arm(JumpStack.Push(st.frames)),
                        scopes := Env.EnterScope(st.scopes));
      JumpStack.PopUndoesPush(st.frames);
      var init :-
        match s.init
        case Some(x) => Exec(fuel - 1, x, pushed)
        case None => Ok(Normal, pushed);
      var looped :-
        if init.val == LongJump then init
        else ForIterations(fuel - 1, s, init.st);
      if looped.val == LongJump then
        Ok(Normal, looped.st.(frames := JumpStack.Pop(looped.st.frames)))
      else
        var left := Leave(looped.st);
        Ok(Normal, left.(frames := JumpStack.Pop(left.frames)))
  }

  /**
   * The iterations of a `for`: each enters a scope, stops (without leaving
   * it) when the condition is present and 0, runs the body and the
   * increment, and leaves the scope.
   */
  function ForIterations(fuel: nat, s: Node, st: State): (r: Res<Flow>)
    requires s.ForStatement?
    ensures r.Ok? ==> Evolves(st, r.st)
    ensures r.Ok? && r.val == Normal ==> |r.st.scopes| > |st.scopes|
    decreases fuel
  {
    if fuel == 0 then Stop(OutOfFuel)
    else
      var entered := st.(scopes := Env.EnterScope(st.scopes));
      var c :-
        match s.cond
        case Some(x) => EvaluateExpr(fuel - 1, x, entered)
        case None => Ok(1, entered);
      if c.val == 0 then Ok(Normal, c.st)
      else ForPass(fuel - 1, s, c.st)
  }

  /**
   * The rest of one iteration of a `for`, in the scope the iteration
   * entered: body, increment, leaving the scope, and the next iteration.
   */
  function ForPass(fuel: nat, s: Node, st: State): (r: Res<Flow>)
    requires s.ForStatement? && |st.scopes| > 0
    ensures r.Ok? ==> Evolves(Leave(st), r.st)
    ensures r.Ok? && r.val == Normal ==> |r.st.scopes| >= |st.scopes|
    decreases fuel
  {
    if fuel == 0 then Stop(OutOfFuel)
    else
      var b :- ExecOptional(fuel - 1, s.forBody, st);
      if b.val == LongJump then b
      else ForNext(fuel - 1, s, b.st)
  }

  /** The increment of a `for`, leaving the iteration's scope, and the next iteration. */
  function ForNext(fuel: nat, s: Node, st: State): (r: Res<Flow>)
    requires s.ForStatement? && |st.scopes| > 0
    ensures r.Ok? ==> Evolves(Leave(st), r.st)
    ensures r.Ok? && r.val == Normal ==> |r.st.scopes| >= |st.scopes|
    decreases fuel
  {
    if fuel == 0 then Stop(OutOfFuel)
    else
      var n :- ExecOptional(fuel - 1, s.incr, st);
      if n.val == LongJump then n
      else
        GrowsWithoutInnermost(st.scopes, n.st.scopes);
        ForIterations(fuel - 1, s, Leave(n.st))
  }

  /** An optional statement of a `for`; an absent one finishes normally. */
  function ExecOptional(fuel: nat, s: Option<Node>, st: State): (r: Res<Flow>)
    ensures r.Ok? ==> Evolves(st, r.st)
    ensures s.None? ==> r == Ok(Normal, st)
    decreases fuel
  {
    match s
    case None => Ok(Normal, st)
    case Some(x) => if fuel == 0 then Stop(OutOfFuel) else Exec(fuel - 1, x, st)
  }

  /**
   * `while`: a frame pushed (armed only when the condition first holds) and
   * one scope; iterations; then that scope is left and the frame popped.
   */
  function ExecWhile(fuel: nat, s: Node, st: State): (r: Res<Flow>)
    requires s.WhileStatement?
    ensures r.Ok? ==> Evolves(st, r.st) && r.val == Normal && |r.st.scopes| >= |st.scopes|
    decreases fuel
  {
    if fuel == 0 then Stop(OutOfFuel)
    else
      var pushed := st.(frames := JumpStack.Push(st.frames), scopes := Env.EnterScope(st.scopes));
      var looped :- WhileIterations(fuel - 1, s.whileCond, s.whileBody, pushed);
      var left := Leave(looped.st);
      Ok(Normal, left.(frames := JumpStack.Pop(left.frames)))
  }

  /**
   * The iterations of a `while`: the condition; when it holds, `setjmp`
   * arms the frame and the body runs in its own scope.  An unwind lands on
   * the frame as if the condition had failed, skipping the body scope's exit.
   */
  function WhileIterations(fuel: nat, cond: Node, body: Node, st: State): (r: Res<()>)
    requires |st.frames| > 0
    ensures r.Ok? ==> EvolvesInLoop(st, r.st) && |r.st.scopes| >= |st.scopes|
    decreases fuel
  {
    if fuel == 0 then Stop(OutOfFuel)
    else
      var c :- EvaluateExpr(fuel - 1, cond, st);
      if c.val == 0 then Ok((), c.st)
      else
        var armed := c.st.(frames := JumpStack.Arm(c.st.frames), scopes := Env.EnterScope(c.st.scopes));
        var b :- Exec(fuel - 1, body, armed);
        if b.val == LongJump then Ok((), b.st)
        else
          var left := Leave(b.st);
          WhileIterations(fuel - 1, cond, body, left)
  }

  /** `do`-`while`: like `while`, but the body runs before the first test. */
  function ExecDoWhile(fuel: nat, s: Node, st: State): (r: Res<Flow>)
    requires s.DoWhileStatement?
    ensures r.Ok? ==> Evolves(st, r.st) && r.val == Normal && |r.st.scopes| >= |st.scopes|
    decreases fuel
  {
    if fuel == 0 then Stop(OutOfFuel)
    else
      var pushed := st.(frames := JumpStack.Push(st.frames), scopes := Env.EnterScope(st.scopes));
      var looped :- DoIterations(fuel - 1, s.doCond, s.doBody, pushed);
      var left := Leave(looped.st);
      Ok(Normal, left.(frames := JumpStack.Pop(left.frames)))
  }

  /**
   * The iterations of a `do`-`while`: the body in its own scope, then the
   * condition, whose success arms the frame.  Before the first test the
   * frame is not armed, so a break in the first pass has nowhere to land.
   */
  function DoIterations(fuel: nat, cond: Node, body: Node, st: State): (r: Res<()>)
    requires |st.frames| > 0
    ensures r.Ok? ==> EvolvesInLoop(st, r.st) && |r.st.scopes| >= |st.scopes|
    decreases fuel
  {
    if fuel == 0 then Stop(OutOfFuel)
    else
      var entered := st.(scopes := Env.EnterScope(st.scopes));
      var b :- Exec(fuel - 1, body, entered);
      if b.val == LongJump then Ok((), b.st)
      else
        var left := Leave(b.st);
        var c :- EvaluateExpr(fuel - 1, cond, left);
        if c.val == 0 then Ok((), c.st)
        else DoIterations(fuel - 1, cond, body, c.st.(frames := JumpStack.Arm(c.st.frames)))
  }

  // ---------------------------------------------------------------------
  // Array initializers
  // ---------------------------------------------------------------------

  /**
   * `populate_array_variable`: the initializer list of an array declaration
   * is evaluated element by element, at the array's element width, into
   * the array's cells.  The length is compared with the list's length (the
   * corrected count, see `ExprList.TooMany`); a negative length, read as a
   * `size_t`, is never too short.  The list is walked from its head until
   * the length is reached or the walk comes back to the head.
   */
  function Populate(fuel: nat, name: string, list: ExprList.Ring, st: State): (r: Res<()>)
    requires ExprList.Valid(list)
    ensures r.Ok? ==> Evolves(st, r.st)
    ensures Env.Find(st.scopes, name).None? ==> r == Ok((), Report(st, "Undefined array variable"))
    ensures Env.Get(st.scopes, name).Some? && Env.Get(st.scopes, name).value.isArray
              && ExprList.TooMany(Env.Get(st.scopes, name).value.arrayLength, list)
            ==> r == Stop(Fatal("Too many elements in array initialization"))
    ensures var v := Env.Get(st.scopes, name);
            (r.Ok? && v.Some? && v.value.isArray && v.value.varType != NoType
             && 0 < v.value.arrayLength < TWO64)
            ==> 0 < |list.exprs| <= v.value.arrayLength
  {
    match Env.Find(st.scopes, name)
    case None => Ok((), Report(st, "Undefined array variable"))
    case Some(k) =>
      var v := st.scopes[k][name];
      if !v.isArray then Ok((), Report(st, "Not an array!"))
      else if ExprList.TooMany(v.arrayLength, list) then Stop(Fatal("Too many elements in array initialization"))
      else
        var bound := v.arrayLength % TWO64;
        if bound == 0 then Ok((), st)
        else if v.varType == NoType then Ok((), Report(st, "Unsupported array type"))
        else if v.varType == VarFloat || v.varType == VarDouble then Stop(Unmodelled("floating-point array initializer"))
        else if |list.exprs| == 0 then Stop(Undefined("empty initializer list read through NULL"))
        else PopulateFrom(fuel, k, name, v.varType, list.exprs, 0, bound, st)
  }

  /**
   * The loop of `populate_array_variable` from element `index`: the element
   * is evaluated, truncated to a `char` for char arrays, and stored; the
   * array's binding is re-read after the evaluation.
   */
  function PopulateFrom(fuel: nat, k: nat, name: string, t: VarType, elems: seq<Node>, index: nat, bound: nat, st: State): (r: Res<()>)
    requires k < |st.scopes| && name in st.scopes[k]
    requires index < |elems| && index < bound
    ensures r.Ok? ==> Evolves(st, r.st)
    decreases |elems| - index
  {
    var x :- Eval(fuel, WidthOf(t), elems[index], st);
    var stored := if t == VarChar then Wrap8(x.val) else x.val;
    var written :- WriteCell(k, name, index, stored, x.st);
    if index + 1 == |elems| || index + 1 == bound then Ok((), written.st)
    else PopulateFrom(fuel, k, name, t, elems, index + 1, bound, written.st)
  }
}

=== FILE: interp_facts.dfy ===
/**
 * What the interpreter's control flow does, stated for all states:
 * which cases of a switch run, what a call binds and when its caller sees
 * a value, and how loops leave the scopes and frames they made.
 */
module InterpFacts {
  import opened Outcome
  import opened Syntax
  import opened CInt
  import Env
  import Registry
  import JumpStack
  import Interp

  /** An `int` literal evaluates to itself and changes nothing. */
  lemma IntLiteral(fuel: nat, n: int, st: Interp.State)
    requires fuel >= 2 && IsInt32(n)
    ensures Interp.EvaluateExpr(fuel, IntNode(n), st) == Interp.Ok(n, st)
  {
    assert Interp.Eval(fuel - 1, Interp.AsInt, IntNode(n), st) == Interp.Ok(n, st);
  }

  // ---------------------------------------------------------------------
  // Switch
  // ---------------------------------------------------------------------

  /** A `default`, or a `case` whose value is an `int` literal. */
  predicate LiteralLabel(c: Case)
  {
    c.caseValue.None? || (c.caseValue.value.IntNode? && IsInt32(c.caseValue.value.ivalue))
  }

  predicate LiteralLabels(cases: seq<Case>)
  {
    forall j :: 0 <= j < |cases| ==> LiteralLabel(cases[j])
  }

  /** The labels of literal cases: the value, or none for `default`. */
  function Labels(cases: seq<Case>): seq<Option<int>>
    requires LiteralLabels(cases)
  {
    seq(|cases|, j requires 0 <= j < |cases| && LiteralLabel(cases[j]) =>
      if cases[j].caseValue.None? then None else Some(cases[j].caseValue.value.ivalue))
  }

  /**
   * The positions, from `i` on, whose bodies a switch on `v` runs: a
   * `default` runs whenever it is reached and ends the walk; a `case` runs
   * once a label equal to `v` has been met (or `matched` says one was).
   */
  function Selected(labels: seq<Option<int>>, v: int, i: nat, matched: bool): (r: seq<nat>)
    ensures forall k :: 0 <= k < |r| ==> i <= r[k] < |labels|
    ensures forall k, l :: 0 <= k < l < |r| ==> r[k] < r[l]
    decreases |labels| - i
  {
    if i >= |labels| then []
    else match labels[i]
      case None => [i]
      case Some(x) =>
        if x == v || matched then [i] + Selected(labels, v, i + 1, true)
        else Selected(labels, v, i + 1, matched)
  }

  /**
   * Position `k` runs when no `default` comes before it (from `i`) and it is
   * a `default` itself, or a label equal to `v` was met at or before it.
   */
  predicate Runs(labels: seq<Option<int>>, v: int, i: nat, matched: bool, k: nat)
  {
    i <= k < |labels|
    && (forall j :: i <= j < k ==> labels[j].Some?)
    && (labels[k].None? || matched || exists j :: i <= j <= k && labels[j] == Some(v))
  }

  /** A position before `i` never runs; position `i` runs exactly when it is a default, matched or equal. */
  lemma RunsHere(labels: seq<Option<int>>, v: int, i: nat, matched: bool, k: nat)
    requires i < |labels| && k <= i
    ensures Runs(labels, v, i, matched, k) <==> k == i && (labels[i].None? || matched || labels[i] == Some(v))
  {
    if k == i && labels[i] == Some(v) {
      assert i <= i <= k && labels[i] == Some(v);
    }
  }

  /** Past a default nothing runs; past a `case`, a later position runs as from the next one, matched once the label equalled `v`. */
  lemma RunsPast(labels: seq<Option<int>>, v: int, i: nat, matched: bool, k: nat)
    requires i < k < |labels|
    ensures labels[i].None? ==> !Runs(labels, v, i, matched, k)
    ensures labels[i].Some? ==>
              (Runs(labels, v, i, matched, k) <==> Runs(labels, v, i + 1, matched || labels[i] == Some(v), k))
  {
    if labels[i].Some? {
      if labels[i] == Some(v) {
        assert i <= i <= k && labels[i] == Some(v);
      }
      if Runs(labels, v, i, matched, k) && !labels[k].None? && !matched && labels[i] != Some(v) {
        var j :| i <= j <= k && labels[j] == Some(v);
        assert i + 1 <= j <= k && labels[j] == Some(v);
      }
      if Runs(labels, v, i + 1, matched || labels[i] == Some(v), k) && !labels[k].None? && !matched && labels[i] != Some(v) {
        var j :| i + 1 <= j <= k && labels[j] == Some(v);
        assert i <= j <= k && labels[j] == Some(v);
      }
    }
  }

  /** `Selected` lists, in increasing order, exactly the positions that run. */
  lemma {:induction false} SelectedExactly(labels: seq<Option<int>>, v: int, i: nat, matched: bool, k: nat)
    ensures k in Selected(labels, v, i, matched) <==> Runs(labels, v, i, matched, k)
    decreases |labels| - i
  {
    if i < |labels| {
      if k <= i {
        RunsHere(labels, v, i, matched, k);
      } else if k < |labels| {
        RunsPast(labels, v, i, matched, k);
        if labels[i].Some? {
          SelectedExactly(labels, v, i + 1, matched || labels[i] == Some(v), k);
        }
      }
    }
  }

  /**
   * The bodies of the cases at `idxs` run one after another, as a walk
   * that started at position 0 with `fuel` reaches them (the body at
   * position `j` has `fuel - j - 1` left); the first that unwinds ends it.
   */
  function RunCases(fuel: nat, cases: seq<Case>, idxs: seq<nat>, st: Interp.State): (r: Interp.Res<Interp.Flow>)
    requires forall k :: 0 <= k < |idxs| ==> idxs[k] < |cases| && idxs[k] < fuel
    ensures r.Ok? ==> Interp.Evolves(st, r.st)
    decreases |idxs|
  {
    if idxs == [] then Interp.Ok(Interp.Normal, st)
    else
      var b :- Interp.Exec(fuel - idxs[0] - 1, cases[idxs[0]].caseBody, st);
      if b.val == Interp.LongJump then b else RunCases(fuel, cases, idxs[1..], b.st)
  }

  /** One case that runs: its body, then (unless it unwinds) the walk from the next position, now matched. */
  lemma WalkRuns(fuel: nat, cases: seq<Case>, i: nat, v: int, matched: bool, st: Interp.State)
    requires LiteralLabels(cases) && i < |cases| && fuel >= 3
    requires cases[i].caseValue.Some? ==> cases[i].caseValue.value.ivalue == v || matched
    ensures Interp.CaseWalk(fuel, cases, i, v, matched, st) ==
      match Interp.Exec(fuel - 1, cases[i].caseBody, st)
      case Stop(h) => Interp.Stop(h)
      case Ok(b, st1) =>
        if b == Interp.LongJump || cases[i].caseValue.None? then Interp.Ok(b, st1)
        else Interp.CaseWalk(fuel - 1, cases, i + 1, v, true, st1)
  {
    if cases[i].caseValue.Some? {
      IntLiteral(fuel - 1, cases[i].caseValue.value.ivalue, st);
    }
  }

  /** One case that does not run: the walk goes on from the next position. */
  lemma WalkSkips(fuel: nat, cases: seq<Case>, i: nat, v: int, matched: bool, st: Interp.State)
    requires LiteralLabels(cases) && i < |cases| && fuel >= 3
    requires cases[i].caseValue.Some? && cases[i].caseValue.value.ivalue != v && !matched
    ensures Interp.CaseWalk(fuel, cases, i, v, matched, st) == Interp.CaseWalk(fuel - 1, cases, i + 1, v, matched, st)
  {
    IntLiteral(fuel - 1, cases[i].caseValue.value.ivalue, st);
  }

  /** Running the bodies at `[j] + rest`: the body at `j`, then (unless it unwinds) the rest. */
  lemma RunCasesCons(fuel: nat, cases: seq<Case>, idxs: seq<nat>, st: Interp.State)
    requires forall k :: 0 <= k < |idxs| ==> idxs[k] < |cases| && idxs[k] < fuel
    requires |idxs| > 0
    ensures RunCases(fuel, cases, idxs, st) ==
      match Interp.Exec(fuel - idxs[0] - 1, cases[idxs[0]].caseBody, st)
      case Stop(h) => Interp.Stop(h)
      case Ok(b, st1) => if b == Interp.LongJump then Interp.Ok(b, st1) else RunCases(fuel, cases, idxs[1..], st1)
  {
  }

  /** What `Selected` is at a literal label: a default alone, a running case first, or a skipped case not at all. */
  lemma SelectedAt(cases: seq<Case>, v: int, i: nat, matched: bool)
    requires LiteralLabels(cases) && i < |cases|
    ensures cases[i].caseValue.None? ==> Selected(Labels(cases), v, i, matched) == [i]
    ensures cases[i].caseValue.Some? && (cases[i].caseValue.value.ivalue == v || matched) ==>
              Selected(Labels(cases), v, i, matched) == [i] + Selected(Labels(cases), v, i + 1, true)
    ensures cases[i].caseValue.Some? && cases[i].caseValue.value.ivalue != v && !matched ==>
              Selected(Labels(cases), v, i, matched) == Selected(Labels(cases), v, i + 1, matched)
  {
    assert Labels(cases)[i] == if cases[i].caseValue.None? then None else Some(cases[i].caseValue.value.ivalue);
  }

  /**
   * With literal labels, the walk from position `i` runs exactly the
   * selected bodies, in order, and nothing else happens in between.
   */
  lemma {:induction false} CaseWalkRunsSelected(fuel: nat, cases: seq<Case>, i: nat, v: int, matched: bool, st: Interp.State)
    requires LiteralLabels(cases) && i <= |cases| && fuel >= |cases| - i + 3
    ensures Interp.CaseWalk(fuel, cases, i, v, matched, st)
            == RunCases(fuel + i, cases, Selected(Labels(cases), v, i, matched), st)
    decreases |cases| - i, 1
  {
    if i < |cases| {
      SelectedAt(cases, v, i, matched);
      if cases[i].caseValue.None? {
        WalkRuns(fuel, cases, i, v, matched, st);
        RunCasesCons(fuel + i, cases, [i], st);
      } else if cases[i].caseValue.value.ivalue == v || matched {
        MatchedCaseRunsSelected(fuel, cases, i, v, matched, st);
      } else {
        WalkSkips(fuel, cases, i, v, matched, st);
        CaseWalkRunsSelected(fuel - 1, cases, i + 1, v, matched, st);
      }
    }
  }

  /** The step of `CaseWalkRunsSelected` at a `case` that runs. */
  lemma {:induction false} MatchedCaseRunsSelected(fuel: nat, cases: seq<Case>, i: nat, v: int, matched: bool, st: Interp.State)
    requires LiteralLabels(cases) && i < |cases| && fuel >= |cases| - i + 3
    requires cases[i].caseValue.Some? && (cases[i].caseValue.value.ivalue == v || matched)
    ensures Interp.CaseWalk(fuel, cases, i, v, matched, st)
            == RunCases(fuel + i, cases, Selected(Labels(cases), v, i, matched), st)
    decreases |cases| - i, 0
  {
    var sel := Selected(Labels(cases), v, i, matched);
    SelectedAt(cases, v, i, matched);
    var b := BodyFirst(fuel, cases, i, v, matched, sel, st);
    if b.Ok? && b.val != Interp.LongJump {
      CaseWalkRunsSelected(fuel - 1, cases, i + 1, v, true, b.st);
    }
  }

  /**
   * A `case` at `i` that runs, seen from both sides: the walk and the run
   * of `[i] + rest` both start with the same body result `b`, and go on
   * (when `b` finishes normally) from the state it leaves.
   */
  lemma BodyFirst(fuel: nat, cases: seq<Case>, i: nat, v: int, matched: bool, sel: seq<nat>, st: Interp.State)
      returns (b: Interp.Res<Interp.Flow>)
    requires LiteralLabels(cases) && i < |cases| && fuel >= |cases| - i + 3
    requires cases[i].caseValue.Some? && (cases[i].caseValue.value.ivalue == v || matched)
    requires |sel| > 0 && sel[0] == i && forall k :: 0 <= k < |sel| ==> sel[k] < |cases| && sel[k] < fuel + i
    ensures b.Stop? ==>
              (Interp.CaseWalk(fuel, cases, i, v, matched, st) == Interp.Stop(b.halt)
               && RunCases(fuel + i, cases, sel, st) == Interp.Stop(b.halt))
    ensures b.Ok? && b.val == Interp.LongJump ==>
              (Interp.CaseWalk(fuel, cases, i, v, matched, st) == b && RunCases(fuel + i, cases, sel, st) == b)
    ensures b.Ok? && b.val != Interp.LongJump ==>
              (Interp.CaseWalk(fuel, cases, i, v, matched, st) == Interp.CaseWalk(fuel - 1, cases, i + 1, v, true, b.st)
               && RunCases(fuel + i, cases, sel, st) == RunCases(fuel + i, cases, sel[1..], b.st))
  {
    WalkRuns(fuel, cases, i, v, matched, st);
    RunCasesCons(fuel + i, cases, sel, st);
    b := Interp.Exec(fuel - 1, cases[i].caseBody, st);
  }


  /**
   * A switch with literal labels: the scrutinee is evaluated once; then the
   * selected bodies run in order, the first break ending them; the switch
   * completes normally with its frame popped.
   */
  lemma SwitchRunsSelected(fuel: nat, s: Node, st: Interp.State)
    requires s.SwitchStatement? && LiteralLabels(s.cases) && fuel >= |s.cases| + 5
    ensures Interp.ExecSwitch(fuel, s, st) ==
      match Interp.EvaluateExpr(fuel - 1, s.scrutinee, st)
      case Stop(h) => Interp.Stop(h)
      case Ok(v, st1) =>
        match RunCases(fuel - 1, s.cases, Selected(Labels(s.cases), v, 0, false),
                       st1.(frames := JumpStack.Arm(JumpStack.Push(st1.frames))))
        case Stop(h) => Interp.Stop(h)
        case Ok(_, st2) => Interp.Ok(Interp.Normal, st2.(frames := JumpStack.Pop(st2.frames)))
  {
    var v := Interp.EvaluateExpr(fuel - 1, s.scrutinee, st);
    if v.Ok? {
      var pushed := v.st.(frames := JumpStack.Arm(JumpStack.Push(v.st.frames)));
      CaseWalkRunsSelected(fuel - 1, s.cases, 0, v.val, false, pushed);
    }
  }

  /** A `break` as the first body to run ends the run at once, landing on the switch's frame. */
  lemma BreakEndsCases(fuel: nat, cases: seq<Case>, idxs: seq<nat>, st: Interp.State)
    requires forall k :: 0 <= k < |idxs| ==> idxs[k] < |cases| && idxs[k] < fuel
    requires |idxs| > 0 && cases[idxs[0]].caseBody == BreakStatement && fuel >= idxs[0] + 3
    requires Interp.Landing(st)
    ensures RunCases(fuel, cases, idxs, st) == Interp.Ok(Interp.LongJump, st)
  {
    assert Interp.Exec(fuel - idxs[0] - 1, BreakStatement, st) == Interp.Ok(Interp.LongJump, st);
  }

  // ---------------------------------------------------------------------
  // Calls
  // ---------------------------------------------------------------------

  /** The innermost scope. */
  function Top(scopes: seq<Env.Scope>): Env.Scope
    requires |scopes| > 0
  {
    scopes[|scopes| - 1]
  }

  predicate AllPure(args: seq<Node>)
  {
    forall j :: 0 <= j < |args| ==> Interp.Pure(args[j])
  }

  predicate DistinctNames(params: seq<Param>)
  {
    forall j, k :: 0 <= j < k < |params| ==> params[j].paramName != params[k].paramName
  }

  /** The type a parameter's binding ends up with: a `char` parameter holds an `int`. */
  function BoundType(t: VarType): VarType
  {
    if t == VarChar then VarInt else t
  }

  /** Nothing changed but the innermost scope and the diagnostics. */
  predicate OnlyInnermost(st: Interp.State, st2: Interp.State)
  {
    |st.scopes| > 0 && |st2.scopes| == |st.scopes|
    && st2.scopes[..|st.scopes| - 1] == st.scopes[..|st.scopes| - 1]
    && st2.ret == st.ret && st2.frames == st.frames && st2.functions == st.functions
    && st2.out == st.out && st2.err == st.err && st2.returnsRun == st.returnsRun
  }

  /** With pure arguments, binding parameters touches only the callee's scope. */
  lemma {:induction false} BindParamsLocal(fuel: nat, params: seq<Param>, args: seq<Node>, i: nat, st: Interp.State)
    requires |st.scopes| > 0 && AllPure(args)
    ensures Interp.BindParams(fuel, params, args, i, st).Ok? ==> OnlyInnermost(st, Interp.BindParams(fuel, params, args, i, st).st)
    decreases fuel
  {
    var r := Interp.BindParams(fuel, params, args, i, st);
    if r.Ok? && fuel > 0 && i < |params| && i < |args| {
      var b := Interp.BindOne(fuel - 1, params[i], args[i], st);
      BindOneBinds(fuel - 1, params[i], args[i], st);
      BindParamsLocal(fuel - 1, params, args, i + 1, b.st);
    }
  }

  /** The names of the parameters from position `i` on that have an argument (positions below `n`). */
  function NamesFrom(params: seq<Param>, i: nat, n: nat): set<string>
    decreases |params| - i
  {
    if i >= |params| || i >= n then {} else {params[i].paramName} + NamesFrom(params, i + 1, n)
  }

  /** A name among `NamesFrom(params, i, n)` is the name of a parameter at such a position. */
  lemma {:induction false} NamesFromAt(params: seq<Param>, i: nat, n: nat, name: string) returns (j: nat)
    requires name in NamesFrom(params, i, n)
    ensures i <= j < |params| && j < n && params[j].paramName == name
    decreases |params| - i
  {
    if params[i].paramName == name {
      j := i;
    } else {
      j := NamesFromAt(params, i + 1, n, name);
    }
  }

  /**
   * `next` is `st` with parameter `p` bound in the innermost scope at its
   * declared type, that scope otherwise as it was, and the rest of the
   * state changed only there.
   */
  predicate BindsOne(p: Param, st: Interp.State, next: Interp.State)
  {
    |st.scopes| > 0 && OnlyInnermost(st, next)
    && p.paramName in Top(next.scopes) && Top(next.scopes)[p.paramName].varType == BoundType(p.paramType)
    && Top(next.scopes) == Top(st.scopes)[p.paramName := Top(next.scopes)[p.paramName]]
  }

  /**
   * One binding step with a pure argument, when it succeeds, binds the
   * parameter in the innermost scope at its declared type and leaves the
   * rest of that scope as it was.
   */
  lemma BindOneBinds(fuel: nat, p: Param, arg: Node, st: Interp.State)
    requires |st.scopes| > 0 && Interp.Pure(arg)
    ensures Interp.BindOne(fuel, p, arg, st).Ok? ==> BindsOne(p, st, Interp.BindOne(fuel, p, arg, st).st)
  {
    if fuel > 0 && Interp.BindOne(fuel, p, arg, st).Ok? {
      var added := Interp.WithScopes(Env.AddVariable(st.scopes, p.paramName, Env.Zeroed.(varType := p.paramType)), st);
      if p.paramType != NoType {
        var a := Interp.Eval(fuel - 1, Interp.WidthOf(p.paramType), arg, added.st);
        var stored := if p.paramType == VarChar then VarInt else p.paramType;
        Env.FindAt(a.st.scopes, p.paramName, |a.st.scopes| - 1);
      }
    }
  }

  /** Every parameter from position `i` that has an argument is bound in `s` at its declared type. */
  predicate BoundFrom(params: seq<Param>, nargs: nat, i: nat, s: Env.Scope)
    decreases |params| - i
  {
    i >= |params| || i >= nargs
    || (params[i].paramName in s && s[params[i].paramName].varType == BoundType(params[i].paramType)
        && BoundFrom(params, nargs, i + 1, s))
  }

  /**
   * Binding parameter `i` and then the ones after it leaves every position
   * from `i` bound at its declared type, and the scope outside those
   * parameters' names as it was.
   */
  lemma BindCombine(params: seq<Param>, nargs: nat, i: nat, s0: Env.Scope, s1: Env.Scope, s2: Env.Scope)
    requires DistinctNames(params) && i < |params| && i < nargs
    requires params[i].paramName in s1 && s1[params[i].paramName].varType == BoundType(params[i].paramType)
    requires s1 == s0[params[i].paramName := s1[params[i].paramName]]
    requires BoundFrom(params, nargs, i + 1, s2) && s2 - NamesFrom(params, i + 1, nargs) == s1 - NamesFrom(params, i + 1, nargs)
    ensures BoundFrom(params, nargs, i, s2) && s2 - NamesFrom(params, i, nargs) == s0 - NamesFrom(params, i, nargs)
  {
    var n := params[i].paramName;
    var later := NamesFrom(params, i + 1, nargs);
    if n in later {
      var j := NamesFromAt(params, i + 1, nargs, n);
      assert false;
    }
    assert n in s1 - later;
    assert s2[n] == (s2 - later)[n];
    var all := NamesFrom(params, i, nargs);
    assert all == {n} + later;
    forall k | k !in all
      ensures k in s2 <==> k in s0
      ensures k in s2 ==> s2[k] == s0[k]
    {
      assert (k in s2 <==> k in s2 - later) && (k in s1 <==> k in s1 - later);
      if k in s2 {
        assert s2[k] == (s2 - later)[k] == (s1 - later)[k] == s1[k];
      }
    }
    assert (s2 - all).Keys == (s0 - all).Keys;
  }

  /**
   * What binding from position `i` promises when it succeeds: the scope
   * count is kept, every parameter from `i` that has an argument is bound
   * at its declared type, and the callee's scope is otherwise as it was.
   */
  predicate BoundPositionally(params: seq<Param>, nargs: nat, i: nat, st: Interp.State, r: Interp.Res<()>)
    requires |st.scopes| > 0
  {
    r.Ok? ==> |r.st.scopes| == |st.scopes| && |st.scopes| > 0 && BoundFrom(params, nargs, i, Top(r.st.scopes))
              && Top(r.st.scopes) - NamesFrom(params, i, nargs) == Top(st.scopes) - NamesFrom(params, i, nargs)
  }

  /** One binding step followed by the rest keeps the promise from position `i`. */
  lemma PositionalStep(params: seq<Param>, nargs: nat, i: nat, i1: nat, st: Interp.State, next: Interp.State,
                       r: Interp.Res<()>)
    requires DistinctNames(params) && i < |params| && i < nargs && |st.scopes| > 0 && i1 == i + 1
    requires BindsOne(params[i], st, next) && BoundPositionally(params, nargs, i1, next, r)
    ensures BoundPositionally(params, nargs, i, st, r)
  {
    if r.Ok? {
      BindCombine(params, nargs, i, Top(st.scopes), Top(next.scopes), Top(r.st.scopes));
    }
  }

  /**
   * With pure arguments and distinct parameter names, each parameter from
   * position `i` that has an argument ends up bound in the callee's scope at
   * its declared type (a `char` one as an `int`), and every other binding of
   * that scope is kept.
   */
  lemma {:induction false} BindParamsPositional(fuel: nat, params: seq<Param>, args: seq<Node>, i: nat, st: Interp.State)
    returns (r: Interp.Res<()>)
    requires |st.scopes| > 0 && AllPure(args) && DistinctNames(params)
    ensures r == Interp.BindParams(fuel, params, args, i, st)
    ensures BoundPositionally(params, |args|, i, st, r)
    decreases fuel, 1
  {
    if fuel > 0 && i < |params| && i < |args| {
      r := BindStepPositional(fuel, params, args, i, st);
    } else {
      r := Interp.BindParams(fuel, params, args, i, st);
      assert r.Ok? ==> r.st == st;
    }
  }

  /** The step of `BindParamsPositional` at a position that has both a parameter and an argument. */
  lemma {:induction false} BindStepPositional(fuel: nat, params: seq<Param>, args: seq<Node>, i: nat, st: Interp.State)
    returns (r: Interp.Res<()>)
    requires |st.scopes| > 0 && AllPure(args) && DistinctNames(params)
    requires fuel > 0 && i < |params| && i < |args|
    ensures r == Interp.BindParams(fuel, params, args, i, st)
    ensures BoundPositionally(params, |args|, i, st, r)
    decreases fuel, 0
  {
    r := Interp.BindParams(fuel, params, args, i, st);
    var b := BindFirst(fuel, params, args, i, st, r);
    if b.Ok? {
      var fuel1, i1 := fuel - 1, i + 1;
      BindNext(fuel, params, args, i, b.st, fuel1, i1);
      var bound := BindParamsPositional(fuel1, params, args, i1, b.st);
      PositionalStep(params, |args|, i, i1, st, b.st, r);
    }
  }

  /**
   * Binding from a position that has both a parameter and an argument: the
   * first step's result `b` either stops the whole binding or binds the
   * parameter, and the rest goes on from the state it leaves.
   */
  lemma BindFirst(fuel: nat, params: seq<Param>, args: seq<Node>, i: nat, st: Interp.State, r: Interp.Res<()>)
    returns (b: Interp.Res<()>)
    requires |st.scopes| > 0 && AllPure(args) && fuel > 0 && i < |params| && i < |args|
    requires r == Interp.BindParams(fuel, params, args, i, st)
    ensures b.Stop? ==> r.Stop?
    ensures b.Ok? ==>
              (r == Interp.BindParams(fuel - 1, params, args, i + 1, b.st)
               && BindsOne(params[i], st, b.st) && |b.st.scopes| == |st.scopes|)
  {
    BindOneBinds(fuel - 1, params[i], args[i], st);
    b := Interp.BindOne(fuel - 1, params[i], args[i], st);
  }

  /** Binding from the next position, with the fuel and position handed over as plain values. */
  lemma BindNext(fuel: nat, params: seq<Param>, args: seq<Node>, i: nat, next: Interp.State, fuel1: nat, i1: nat)
    requires fuel > 0 && fuel1 == fuel - 1 && i1 == i + 1
    ensures Interp.BindParams(fuel - 1, params, args, i + 1, next) == Interp.BindParams(fuel1, params, args, i1, next)
  {
  }



  /**
   * A call whose argument count differs from the parameter count reports
   * the mismatch, leaves the scope it entered and skips the body: nothing
   * else it could change (return slot, jump stack, output, returns run) has
   * changed.
   */
  lemma InvokeMismatch(fuel: nat, f: Function, args: seq<Node>, st: Interp.State)
    requires |st.scopes| > 0 && AllPure(args) && |f.params| != |args|
    ensures MismatchOutcome(st, Interp.Invoke(fuel, f, args, st))
  {
    if fuel > 0 {
      BindParamsLocal(fuel - 1, f.params, args, 0, st);
    }
  }

  predicate MismatchOutcome(st: Interp.State, r: Interp.Res<()>)
    requires |st.scopes| > 0
  {
    r.Ok? ==> (r.st.scopes == st.scopes[..|st.scopes| - 1] && r.st.ret == st.ret && r.st.frames == st.frames
               && r.st.out == st.out && r.st.err == st.err && r.st.returnsRun == st.returnsRun
               && |r.st.diags| > 0 && r.st.diags[|r.st.diags| - 1] == Interp.Mismatch)
  }

  /**
   * Entering a call: from the caller's scopes plus one fresh scope, binding
   * leaves the caller's scopes as they were and binds every parameter that
   * has an argument in the fresh scope, at its declared type.
   */
  lemma CallBindsParameters(fuel: nat, f: Function, args: seq<Node>, st: Interp.State)
    requires AllPure(args) && DistinctNames(f.params)
    ensures var entered := st.(scopes := Env.EnterScope(st.scopes), ret := st.ret.(slotType := f.returnType));
            var b := Interp.BindParams(fuel, f.params, args, 0, entered);
            b.Ok? ==> (|b.st.scopes| == |st.scopes| + 1 && b.st.scopes[..|st.scopes|] == st.scopes
                       && BoundFrom(f.params, |args|, 0, Top(b.st.scopes))
                       && Top(b.st.scopes).Keys <= NamesFrom(f.params, 0, |args|))
  {
    var entered := st.(scopes := Env.EnterScope(st.scopes), ret := st.ret.(slotType := f.returnType));
    BindParamsLocal(fuel, f.params, args, 0, entered);
    var bound := BindParamsPositional(fuel, f.params, args, 0, entered);
    var b := Interp.BindParams(fuel, f.params, args, 0, entered);
    if b.Ok? {
      var names := NamesFrom(f.params, 0, |args|);
      assert Top(b.st.scopes) - names == map[];
    }
  }

  /**
   * A call to a function that runs no `return` leaves the return slot
   * without a value, even when it held one before the call; the callee's
   * scope and frame are gone afterwards.
   */
  lemma CallWithoutReturn(fuel: nat, f: Function, st: Interp.State)
    requires fuel >= 5 && f.params == [] && f.body == StatementList([])
    requires Registry.Lookup(st.functions, f.fname) == Some(f)
    ensures Interp.CallFunction(fuel, f.fname, [], st)
            == Interp.Ok((), st.(ret := Interp.ReturnSlot(false, f.returnType, st.ret.value)))
  {
    var entered := st.(scopes := Env.EnterScope(st.scopes), ret := st.ret.(slotType := f.returnType));
    JumpStack.PopUndoesPush(st.frames);
    assert Interp.BindParams(fuel - 2, [], [], 0, entered) == Interp.Ok((), entered);
    var ready := entered.(ret := entered.ret.(hasValue := false), frames := JumpStack.Arm(JumpStack.Push(entered.frames)));
    assert Interp.Exec(fuel - 3, f.body, ready) == Interp.Ok(Interp.Normal, ready);
    assert Interp.RunBody(fuel - 2, f.body, entered) == Interp.Ok((), Interp.Leave(ready.(frames := st.frames)));
    assert Interp.Invoke(fuel - 1, f, [], entered) == Interp.RunBody(fuel - 2, f.body, entered);
  }

  /** An `int` literal evaluated as an `int` is itself and changes nothing. */
  lemma EvalIntLiteral(fuel: nat, n: int, st: Interp.State)
    requires fuel >= 1 && IsInt32(n)
    ensures Interp.Eval(fuel, Interp.AsInt, IntNode(n), st) == Interp.Ok(n, st)
  {
  }

  /**
   * A call to an `int` function whose body returns a literal gives the
   * caller the slot holding that value; one `return` ran.
   */
  lemma CallReturnsLiteral(fuel: nat, f: Function, n: int, st: Interp.State)
    requires fuel >= 7 && f.params == [] && f.returnType == VarInt && IsInt32(n)
    requires f.body == ReturnStatement(Some(IntNode(n)))
    requires Registry.Lookup(st.functions, f.fname) == Some(f)
    ensures Interp.CallFunction(fuel, f.fname, [], st)
            == Interp.Ok((), st.(ret := Interp.ReturnSlot(true, VarInt, n), returnsRun := st.returnsRun + 1))
  {
    var entered := st.(scopes := Env.EnterScope(st.scopes), ret := st.ret.(slotType := f.returnType));
    JumpStack.PopUndoesPush(st.frames);
    assert Interp.BindParams(fuel - 2, [], [], 0, entered) == Interp.Ok((), entered);
    var ready := entered.(ret := entered.ret.(hasValue := false), frames := JumpStack.Arm(JumpStack.Push(entered.frames)));
    var marked := ready.(ret := ready.ret.(hasValue := true), returnsRun := ready.returnsRun + 1);
    EvalIntLiteral(fuel - 5, n, marked);
    var landed := marked.(ret := marked.ret.(value := n));
    assert Interp.ExecReturn(fuel - 4, Some(IntNode(n)), ready) == Interp.Ok(Interp.LongJump, landed);
    assert Interp.Exec(fuel - 3, f.body, ready) == Interp.Ok(Interp.LongJump, landed);
    assert Interp.RunBody(fuel - 2, f.body, entered) == Interp.Ok((), Interp.Leave(landed.(frames := st.frames)));
    assert Interp.Invoke(fuel - 1, f, [], entered) == Interp.RunBody(fuel - 2, f.body, entered);
  }

  /**
   * A `return` inside an `if` unwinds past the `if`'s scope, and the call
   * then leaves only that one: the callee's scope stays on the caller's
   * chain after the call, while the slot holds the value as usual.
   */
  lemma ReturnInIfLeavesCalleeScope(fuel: nat, f: Function, st: Interp.State)
    requires fuel >= 8 && f.params == [] && f.returnType == VarInt
    requires f.body == IfStatement(IntNode(1), ReturnStatement(Some(IntNode(7))), None)
    requires Registry.Lookup(st.functions, f.fname) == Some(f)
    ensures Interp.CallFunction(fuel, f.fname, [], st)
            == Interp.Ok((), st.(scopes := Env.EnterScope(st.scopes), ret := Interp.ReturnSlot(true, VarInt, 7),
                                 returnsRun := st.returnsRun + 1))
  {
    var entered := st.(scopes := Env.EnterScope(st.scopes), ret := st.ret.(slotType := f.returnType));
    var after := entered.(ret := entered.ret.(hasValue := true, value := 7), returnsRun := entered.returnsRun + 1);
    assert after == st.(scopes := Env.EnterScope(st.scopes), ret := Interp.ReturnSlot(true, VarInt, 7),
                        returnsRun := st.returnsRun + 1);
    var f2 := fuel - 2;
    NoParameterCall(fuel, f2, f, st);
    IfReturnBody(f2, entered);
  }

  /** A call of a function without parameters, with no arguments, runs its body in a new scope. */
  lemma NoParameterCall(fuel: nat, f2: nat, f: Function, st: Interp.State)
    requires fuel >= 3 && f2 == fuel - 2 && f.params == []
    requires Registry.Lookup(st.functions, f.fname) == Some(f)
    ensures Interp.CallFunction(fuel, f.fname, [], st)
            == Interp.RunBody(f2, f.body, st.(scopes := Env.EnterScope(st.scopes), ret := st.ret.(slotType := f.returnType)))
  {
    var entered := st.(scopes := Env.EnterScope(st.scopes), ret := st.ret.(slotType := f.returnType));
    assert Interp.BindParams(fuel - 2, [], [], 0, entered) == Interp.Ok((), entered);
  }

  /**
   * The body `if (1) return 7;` of an `int` function: the jump lands on the
   * body's frame, the frame is popped, and the one scope the body's run
   * removes is the `if`'s.
   */
  lemma IfReturnBody(fuel: nat, st: Interp.State)
    requires fuel >= 6 && st.ret.slotType == VarInt && |st.scopes| > 0
    ensures Interp.RunBody(fuel, IfStatement(IntNode(1), ReturnStatement(Some(IntNode(7))), None), st)
            == Interp.Ok((), st.(ret := st.ret.(hasValue := true, value := 7), returnsRun := st.returnsRun + 1))
  {
    JumpStack.PopUndoesPush(st.frames);
    var ready := st.(ret := st.ret.(hasValue := false), frames := JumpStack.Arm(JumpStack.Push(st.frames)));
    IfReturnUnwinds(fuel - 1, ready);
  }

  /** `if (1) return 7;` on an armed frame unwinds with the `if`'s scope still entered. */
  lemma IfReturnUnwinds(fuel: nat, st: Interp.State)
    requires fuel >= 5 && st.ret.slotType == VarInt && Interp.Landing(st)
    ensures Interp.Exec(fuel, IfStatement(IntNode(1), ReturnStatement(Some(IntNode(7))), None), st)
            == Interp.Ok(Interp.LongJump, st.(scopes := Env.EnterScope(st.scopes), ret := st.ret.(hasValue := true, value := 7),
                                             returnsRun := st.returnsRun + 1))
  {
    var inner := st.(scopes := Env.EnterScope(st.scopes));
    IntLiteral(fuel - 2, 1, inner);
    ReturnLiteralUnwinds(fuel - 2, inner);
  }

  /** `return 7;` on an armed frame marks the slot, stores 7 and unwinds. */
  lemma ReturnLiteralUnwinds(fuel: nat, st: Interp.State)
    requires fuel >= 3 && st.ret.slotType == VarInt && Interp.Landing(st)
    ensures Interp.Exec(fuel, ReturnStatement(Some(IntNode(7))), st)
            == Interp.Ok(Interp.LongJump, st.(ret := st.ret.(hasValue := true, value := 7), returnsRun := st.returnsRun + 1))
  {
    var marked := st.(ret := st.ret.(hasValue := true), returnsRun := st.returnsRun + 1);
    EvalIntLiteral(fuel - 2, 7, marked);
  }

  /**
   * `return g();` where `g` runs no `return`: the slot is marked before the
   * call, the call clears the mark, and the statement finishes with no value
   * in the slot (the slot now typed as `g`'s result).
   */
  lemma ReturnOfValuelessCall(fuel: nat, g: Function, st: Interp.State)
    requires fuel >= 8 && g.params == [] && g.body == StatementList([])
    requires Registry.Lookup(st.functions, g.fname) == Some(g)
    requires st.ret.slotType == VarInt && st.frames == []
    ensures Interp.ExecReturn(fuel, Some(FuncCall(g.fname, [])), st)
            == Interp.Ok(Interp.Normal, st.(ret := Interp.ReturnSlot(false, g.returnType, 0), returnsRun := st.returnsRun + 1))
  {
    var marked := st.(ret := st.ret.(hasValue := true), returnsRun := st.returnsRun + 1);
    ValuelessCallReadsZero(fuel - 1, g, marked);
  }

  /** A call to a function that runs no `return`, read as an `int`, is 0, and the slot is left without a value. */
  lemma ValuelessCallReadsZero(fuel: nat, g: Function, st: Interp.State)
    requires fuel >= 7 && g.params == [] && g.body == StatementList([])
    requires Registry.Lookup(st.functions, g.fname) == Some(g)
    ensures Interp.Eval(fuel, Interp.AsInt, FuncCall(g.fname, []), st)
            == Interp.Ok(0, st.(ret := Interp.ReturnSlot(false, g.returnType, st.ret.value)))
  {
    CallTwoBelow(fuel, g, st);
  }

  /** `CallWithoutReturn` at the fuel an evaluation with `fuel` hands to the call. */
  lemma CallTwoBelow(fuel: nat, g: Function, st: Interp.State)
    requires fuel >= 7 && g.params == [] && g.body == StatementList([])
    requires Registry.Lookup(st.functions, g.fname) == Some(g)
    ensures Interp.CallFunction(fuel - 1 - 1, g.fname, [], st)
            == Interp.Ok((), st.(ret := Interp.ReturnSlot(false, g.returnType, st.ret.value)))
  {
    CallWithoutReturn(fuel - 1 - 1, g, st);
  }

  // ---------------------------------------------------------------------
  // Loops
  // ---------------------------------------------------------------------

  /** A `while` whose condition is 0 runs nothing and leaves the state exactly as it was. */
  lemma WhileFalseAtOnce(fuel: nat, body: Node, st: Interp.State)
    requires fuel >= 4
    ensures Interp.ExecWhile(fuel, WhileStatement(IntNode(0), body), st) == Interp.Ok(Interp.Normal, st)
  {
    var pushed := st.(frames := JumpStack.Push(st.frames), scopes := Env.EnterScope(st.scopes));
    IntLiteral(fuel - 2, 0, pushed);
    JumpStack.PopUndoesPush(st.frames);
  }

  /**
   * A `while` whose body breaks in its first pass: the break lands on the
   * loop's frame without leaving the body's scope, so only one of the two
   * scopes the loop entered is left, and one stays behind.
   */
  lemma WhileBreakLeavesAScope(fuel: nat, st: Interp.State)
    requires fuel >= 5
    ensures Interp.ExecWhile(fuel, WhileStatement(IntNode(1), BreakStatement), st)
            == Interp.Ok(Interp.Normal, st.(scopes := Env.EnterScope(st.scopes)))
  {
    var pushed := st.(frames := JumpStack.Push(st.frames), scopes := Env.EnterScope(st.scopes));
    IntLiteral(fuel - 2, 1, pushed);
    JumpStack.PopUndoesPush(st.frames);
    var armed := pushed.(frames := JumpStack.Arm(pushed.frames), scopes := Env.EnterScope(pushed.scopes));
    assert Interp.Exec(fuel - 2, BreakStatement, armed) == Interp.Ok(Interp.LongJump, armed);
  }

  /**
   * A `do`-`while` whose body breaks in its first pass: the loop's frame has
   * not been armed yet, so the jump has nowhere defined to land.
   */
  lemma DoWhileBreakFirstPass(fuel: nat, c: Node, st: Interp.State)
    requires fuel >= 5
    ensures Interp.ExecDoWhile(fuel, DoWhileStatement(c, BreakStatement), st) == Interp.Stop(JumpStack.Unfilled)
  {
    var entered := st.(frames := JumpStack.Push(st.frames), scopes := Env.EnterScope(Env.EnterScope(st.scopes)));
    assert Interp.Exec(fuel - 2, BreakStatement, entered) == Interp.Stop(JumpStack.Unfilled);
  }

  /**
   * A `for` without initializer whose condition is 0 at once: the
   * iteration's scope is left, the one the loop entered first stays, and
   * the frame is popped.
   */
  lemma ForLeavesAScope(fuel: nat, incr: Option<Node>, body: Option<Node>, st: Interp.State)
    requires fuel >= 4
    ensures Interp.ExecFor(fuel, ForStatement(None, Some(IntNode(0)), incr, body), st)
            == Interp.Ok(Interp.Normal, st.(scopes := Env.EnterScope(st.scopes)))
  {
    var pushed := st.(frames := JumpStack.Arm(JumpStack.Push(st.frames)), scopes := Env.EnterScope(st.scopes));
    var entered := pushed.(scopes := Env.EnterScope(pushed.scopes));
    IntLiteral(fuel - 2, 0, entered);
    JumpStack.PopUndoesPush(st.frames);
  }

  // ---------------------------------------------------------------------
  // if
  // ---------------------------------------------------------------------

  /**
   * The branch an `if` runs for condition value `c`: the then-branch when
   * `c` is non-zero, otherwise the else-branch if there is one.
   */
  function Chosen(s: Node, c: int): (b: Option<Node>)
    requires s.IfStatement?
    ensures c != 0 ==> b == Some(s.thenBranch)
    ensures c == 0 ==> b == s.elseBranch
  {
    if c != 0 then Some(s.thenBranch) else s.elseBranch
  }

  /** Runs an optional branch; no branch finishes at once. */
  function RunBranch(fuel: nat, b: Option<Node>, st: Interp.State): Interp.Res<Interp.Flow>
  {
    match b
    case Some(x) => Interp.Exec(fuel, x, st)
    case None => Interp.Ok(Interp.Normal, st)
  }

  /**
   * `r` is `b` run inside a scope of its own: a normal finish leaves that
   * scope and nothing else changes; a stop or a jump passes through as it is.
   */
  predicate LeavesScope(b: Interp.Res<Interp.Flow>, r: Interp.Res<Interp.Flow>)
  {
    (b.Stop? ==> r == b)
    && (b.Ok? && b.val == Interp.LongJump ==> r == b)
    && (b.Ok? && b.val == Interp.Normal ==>
          |b.st.scopes| > 0 && r == Interp.Ok(Interp.Normal, b.st.(scopes := b.st.scopes[..|b.st.scopes| - 1])))
  }

  /**
   * `if`: the condition is evaluated once, in a new scope; then the chosen
   * branch runs in that scope, which a normal finish leaves.
   */
  lemma IfRunsChosenBranch(fuel: nat, s: Node, st: Interp.State)
    requires s.IfStatement? && fuel > 0
    ensures var c := Interp.EvaluateExpr(fuel - 1, s.ifCond, st.(scopes := Env.EnterScope(st.scopes)));
      (c.Stop? ==> Interp.ExecIf(fuel, s, st) == Interp.Stop(c.halt))
      && (c.Ok? ==> LeavesScope(RunBranch(fuel - 1, Chosen(s, c.val), c.st), Interp.ExecIf(fuel, s, st)))
  {
    var entered := st.(scopes := Env.EnterScope(st.scopes));
    var c := Interp.EvaluateExpr(fuel - 1, s.ifCond, entered);
    if c.Ok? {
      var b := RunBranch(fuel - 1, Chosen(s, c.val), c.st);
      assert b.Ok? ==> |b.st.scopes| > |st.scopes|;
    }
  }
}

=== FILE: jumpstack.dfy ===
/**
 * The stack of `setjmp` buffers the interpreter keeps for break and return.
 * A frame is armed once `setjmp` has filled it; only then can a jump land
 * there.  The top of the stack is the last element.
 */
module JumpStack {
  import opened Outcome

  datatype Frame = Frame(armed: bool)

  /** `PUSH_JUMP_BUFFER`: a new, zero-filled (unarmed) frame on top. */
  function Push(frames: seq<Frame>): (r: seq<Frame>)
    ensures |r| == |frames| + 1 && r[..|frames|] == frames && !r[|frames|].armed
  {
    frames + [Frame(false)]
  }

  /** `setjmp` on the top frame. */
  function Arm(frames: seq<Frame>): (r: seq<Frame>)
    requires |frames| > 0
    ensures |r| == |frames| && r[..|frames| - 1] == frames[..|frames| - 1] && r[|frames| - 1].armed
  {
    frames[..|frames| - 1] + [Frame(true)]
  }

  /** `POP_JUMP_BUFFER`: the frame below the top becomes the top. */
  function Pop(frames: seq<Frame>): (r: seq<Frame>)
    requires |frames| > 0
    ensures r + [frames[|frames| - 1]] == frames
  {
    frames[..|frames| - 1]
  }

  /** The end of a jump to a frame whose buffer `setjmp` never filled: undefined behaviour. */
  const Unfilled: Halt := Undefined("longjmp to a buffer setjmp never filled")

  /**
   * `LONGJMP`: control resumes at the top frame.  Without any frame the
   * program reports and exits; a frame `setjmp` never filled has no place
   * to resume.
   */
  function LongJmp(frames: seq<Frame>): (r: Result<()>)
    ensures |frames| == 0 ==> r == Failure(Fatal("No jump buffer available"))
    ensures r.Value? <==> |frames| > 0 && frames[|frames| - 1].armed
    ensures |frames| > 0 && !frames[|frames| - 1].armed ==> r == Failure(Unfilled)
  {
    if |frames| == 0 then Failure(Fatal("No jump buffer available"))
    else if !frames[|frames| - 1].armed then Failure(Unfilled)
    else Value(())
  }

  /** Popping what was pushed restores the stack, armed or not. */
  lemma {:induction false} PopUndoesPush(frames: seq<Frame>)
    ensures Pop(Push(frames)) == frames
    ensures Pop(Arm(Push(frames))) == frames
  {
    assert Push(frames)[..|frames|] == frames;
    assert Arm(Push(frames))[..|frames|] == frames;
  }

  /** Arming the top frame leaves every frame below it as it was. */
  lemma {:induction false} ArmKeepsLowerFrames(frames: seq<Frame>)
    requires |frames| > 0
    ensures Pop(Arm(frames)) == Pop(frames)
  {
  }
}

=== FILE: mem.dfy ===
/**
 * The checked allocator.  Memory is a map from block handles to blocks;
 * a block records the size stored in its header (the aligned request) and
 * its bytes.  A pointer is NULL or a handle with a byte offset.  Whether the
 * system `malloc` succeeds is a parameter.  Sizes are `size_t` values on a
 * 64-bit target: `ALIGNMENT` (`sizeof(void *)`) is 8.
 */
module Mem {
  import opened Outcome
  import opened CInt

  const ALIGNMENT: nat := 8
  /** `(size_t)-1 >> 1` */
  const MAX_ALLOC_SIZE: nat := 0x7FFF_FFFF_FFFF_FFFF

  datatype Ptr = Null | At(block: nat, offset: nat)

  datatype Block = Block(size: nat, data: seq<bv8>)

  datatype Heap = Heap(blocks: map<nat, Block>, next: nat)

  /** Every block's bytes cover its recorded size, and fresh handles lie above every block. */
  predicate Valid(h: Heap)
  {
    forall b :: b in h.blocks ==> b < h.next && |h.blocks[b].data| == h.blocks[b].size
  }

  /** The values `errno` is set to. */
  datatype Errno = ENOMEM | EINVAL | ERANGE

  /** A returned pointer, the heap after the call, and `errno` if the call set it. */
  datatype Returned = Returned(ptr: Ptr, heap: Heap, errno: Option<Errno>)

  /**
   * `align_size`: `(size + 7) & ~7` in `size_t` arithmetic.  Clearing the
   * three low bits rounds down to a multiple of 8; the sum wraps for the
   * seven largest sizes.
   */
  function AlignSize(size: nat): (r: nat)
    requires size < TWO64
    ensures r < TWO64 && r % ALIGNMENT == 0
  {
    var s := (size + ALIGNMENT - 1) % TWO64;
    s - s % ALIGNMENT
  }

  /** For sizes that do not wrap, the aligned size is the least multiple of 8 not below the size. */
  lemma AlignSizeIsLeastMultiple(size: nat, m: nat)
    requires size + ALIGNMENT - 1 < TWO64
    ensures size <= AlignSize(size) < size + ALIGNMENT
    ensures m % ALIGNMENT == 0 && m >= size ==> AlignSize(size) <= m
  {
    var s := size + ALIGNMENT - 1;
    assert s % TWO64 == s;
  }

  /** Near the top of `size_t` the rounding wraps to 0. */
  lemma AlignSizeWraps(size: nat)
    requires TWO64 - ALIGNMENT < size < TWO64
    ensures AlignSize(size) == 0
  {
    assert (size + ALIGNMENT - 1) % TWO64 == size + ALIGNMENT - 1 - TWO64;
  }

  /**
   * `safe_malloc`: NULL for a zero size without touching `errno`; NULL and
   * ENOMEM for a size or aligned size above MAX_ALLOC_SIZE, or when the
   * system allocator fails; otherwise a new zero-filled block of the aligned
   * size, whose size the header records.
   */
  function SafeMalloc(h: Heap, size: nat, available: bool): (r: Returned)
    requires Valid(h) && size < TWO64
    ensures Valid(r.heap)
    ensures r.ptr.At? <==> 0 < size <= MAX_ALLOC_SIZE - (ALIGNMENT - 1) && available
    ensures size == 0 ==> r == Returned(Null, h, None)
    ensures r.ptr.Null? ==> r.heap == h && (size > 0 ==> r.errno == Some(ENOMEM))
    ensures r.ptr.At? ==> (r.ptr.offset == 0 && r.ptr.block !in h.blocks && r.errno.None?
      && r.heap.blocks.Keys == h.blocks.Keys + {r.ptr.block}
      && forall b :: b in h.blocks ==> r.heap.blocks[b] == h.blocks[b])
    ensures r.ptr.At? ==> var b := r.heap.blocks[r.ptr.block];
      size <= b.size < size + ALIGNMENT && b.size % ALIGNMENT == 0
      && forall i :: 0 <= i < |b.data| ==> b.data[i] == 0
  {
    if size == 0 then Returned(Null, h, None)
    else if size > MAX_ALLOC_SIZE then Returned(Null, h, Some(ENOMEM))
    else
      var aligned := AlignSize(size);
      AlignSizeIsLeastMultiple(size, MAX_ALLOC_SIZE - (ALIGNMENT - 1));
      if aligned == 0 || aligned > MAX_ALLOC_SIZE then Returned(Null, h, Some(ENOMEM))
      else if !available then Returned(Null, h, Some(ENOMEM))
      else
        var block := Block(aligned, seq(aligned, _ => 0));
        Returned(At(h.next, 0), Heap(h.blocks[h.next := block], h.next + 1), None)
  }

  /**
   * `safe_malloc_array`: the product of count and size is refused when it
   * would exceed MAX_ALLOC_SIZE, tested by division before multiplying.
   */
  function SafeMallocArray(h: Heap, nmemb: nat, size: nat, available: bool): (r: Returned)
    requires Valid(h) && nmemb < TWO64 && size < TWO64
    ensures Valid(r.heap)
    ensures nmemb * size > MAX_ALLOC_SIZE ==> r == Returned(Null, h, Some(ENOMEM))
    ensures nmemb * size <= MAX_ALLOC_SIZE ==> r == SafeMalloc(h, nmemb * size, available)
  {
    ArrayGuardIsExact(nmemb, size);
    if nmemb > 0 && size > MAX_ALLOC_SIZE / nmemb then Returned(Null, h, Some(ENOMEM))
    else SafeMalloc(h, nmemb * size, available)
  }

  /** The division test refuses exactly the products above MAX_ALLOC_SIZE. */
  lemma ArrayGuardIsExact(nmemb: nat, size: nat)
    ensures (nmemb > 0 && size > MAX_ALLOC_SIZE / nmemb) <==> nmemb * size > MAX_ALLOC_SIZE
  {
    if nmemb > 0 {
      var q := MAX_ALLOC_SIZE / nmemb;
      assert MAX_ALLOC_SIZE == nmemb * q + MAX_ALLOC_SIZE % nmemb;
      if size > q {
        MulAtLeast(nmemb, q + 1, size);
        assert nmemb * (q + 1) == nmemb * q + nmemb;
      } else {
        MulAtLeast(nmemb, size, q);
      }
    }
  }

  lemma MulAtLeast(n: nat, a: nat, b: nat)
    requires a <= b
    ensures n * a <= n * b
  {
    assert n * b == n * a + n * (b - a);
  }

  /**
   * `safe_free(ptr)`, where `ptr` is the address of the caller's pointer:
   * NULL only draws a warning, a NULL pointer is left alone, and a block
   * start is wiped, released, and the caller's pointer set to NULL.  Any
   * other pointer has no size header to read.
   */
  datatype Freed = Freed(heap: Heap, pointer: Option<Ptr>, warned: bool)

  function SafeFree(h: Heap, pointer: Option<Ptr>): (r: Result<Freed>)
    requires Valid(h)
    ensures pointer.None? ==> r == Value(Freed(h, None, true))
    ensures pointer == Some(Null) ==> r == Value(Freed(h, Some(Null), false))
    ensures r.Value? && pointer.Some? && pointer.value.At? ==>
      r.value.pointer == Some(Null) && !r.value.warned && Valid(r.value.heap)
      && pointer.value.block in h.blocks && r.value.heap.blocks == h.blocks - {pointer.value.block}
    ensures r.Failure? <==> pointer.Some? && pointer.value.At? && (pointer.value.offset != 0 || pointer.value.block !in h.blocks)
  {
    match pointer
    case None => Value(Freed(h, None, true))
    case Some(Null) => Value(Freed(h, Some(Null), false))
    case Some(At(b, offset)) =>
      if offset != 0 || b !in h.blocks then Failure(Undefined("freeing memory safe_malloc did not return"))
      else Value(Freed(Heap(h.blocks - {b}, h.next), Some(Null), false))
  }

  /** A C string: its bytes, none of them NUL. */
  predicate CString(s: seq<bv8>)
  {
    forall i :: 0 <= i < |s| ==> s[i] != 0
  }

  /** The C string a block holds from its start: the bytes before the first NUL. */
  function ReadString(data: seq<bv8>): (s: seq<bv8>)
    ensures CString(s) && |s| <= |data|
  {
    if |data| == 0 || data[0] == 0 then [] else [data[0]] + ReadString(data[1..])
  }

  /**
   * `safe_strdup`: NULL and EINVAL for a NULL string; otherwise a block of
   * `strlen + 1` one-byte elements holding the string and its terminator,
   * or NULL and ENOMEM when the allocator refuses the size or fails.
   */
  function SafeStrdup(h: Heap, str: Option<seq<bv8>>, available: bool): (r: Returned)
    requires Valid(h)
    requires str.Some? ==> CString(str.value) && |str.value| < MAX_ALLOC_SIZE
    ensures Valid(r.heap)
    ensures str.None? ==> r == Returned(Null, h, Some(EINVAL))
    ensures str.Some? ==> (r.ptr.At? <==> available && |str.value| + ALIGNMENT <= MAX_ALLOC_SIZE)
    ensures str.Some? && r.ptr.Null? ==> r.errno == Some(ENOMEM)
    ensures r.ptr.At? ==> r.errno.None?
    ensures r.ptr.Null? ==> r.heap == h
    ensures r.ptr.At? ==> (str.Some? && r.ptr.offset == 0 && r.ptr.block !in h.blocks
      && r.heap.blocks.Keys == h.blocks.Keys + {r.ptr.block}
      && forall b :: b in h.blocks ==> r.heap.blocks[b] == h.blocks[b])
    ensures r.ptr.At? ==> var b := r.heap.blocks[r.ptr.block];
      |str.value| < b.size && b.data[..|str.value| + 1] == str.value + [0]
  {
    match str
    case None => Returned(Null, h, Some(EINVAL))
    case Some(s) =>
      var len := |s| + 1;
      var a := SafeMallocArray(h, len, 1, available);
      if a.ptr.Null? then a
      else
        var b := a.heap.blocks[a.ptr.block];
        var data := s + [0] + b.data[len..];
        Returned(a.ptr, Heap(a.heap.blocks[a.ptr.block := b.(data := data)], a.heap.next), a.errno)
  }

  /** The copy reads back as the original string. */
  lemma {:induction false} StrdupReadsBack(h: Heap, s: seq<bv8>, available: bool)
    requires Valid(h) && CString(s) && |s| < MAX_ALLOC_SIZE
    ensures var r := SafeStrdup(h, Some(s), available);
      r.ptr.At? ==> ReadString(r.heap.blocks[r.ptr.block].data) == s
  {
    var r := SafeStrdup(h, Some(s), available);
    if r.ptr.At? {
      var data := r.heap.blocks[r.ptr.block].data;
      ReadStringOfTerminated(s, data);
    }
  }

  lemma {:induction false} ReadStringOfTerminated(s: seq<bv8>, data: seq<bv8>)
    requires CString(s) && |s| < |data| && data[..|s| + 1] == s + [0]
    ensures ReadString(data) == s
    decreases |s|
  {
    if |s| > 0 {
      assert data[0] == s[0];
      assert data[1..][..|s| - 1 + 1] == s[1..] + [0];
      ReadStringOfTerminated(s[1..], data[1..]);
      assert [s[0]] + s[1..] == s;
    } else {
      assert data[0] == 0;
    }
  }

  /**
   * The overlap test of `safe_memcpy` as written: `src < dest && src + n >
   * dest` or `dest < src && dest + n > src`.  Pointers into different
   * blocks are separate objects, whose ranges do not meet while they stay
   * inside their blocks.
   */
  predicate OverlapsAsWritten(dest: Ptr, src: Ptr, n: nat)
    requires dest.At? && src.At?
  {
    dest.block == src.block
    && ((src.offset < dest.offset && src.offset + n > dest.offset)
        || (dest.offset < src.offset && dest.offset + n > src.offset))
  }

  /** The two `n`-byte ranges share a byte. */
  predicate Overlaps(dest: Ptr, src: Ptr, n: nat)
    requires dest.At? && src.At?
  {
    dest.block == src.block && n > 0
    && dest.offset < src.offset + n && src.offset < dest.offset + n
  }

  /**
   * The test as written misses exactly one case: a copy of a range onto
   * itself, such as `safe_memcpy(p, p, 1)`, which `memcpy` does not allow.
   */
  lemma OverlapTestMissesSelfCopy(dest: Ptr, src: Ptr, n: nat)
    requires dest.At? && src.At?
    ensures OverlapsAsWritten(dest, src, n) ==> Overlaps(dest, src, n)
    ensures Overlaps(dest, src, n) && !OverlapsAsWritten(dest, src, n) <==> n > 0 && dest == src
    ensures Overlaps(At(0, 0), At(0, 0), 1) && !OverlapsAsWritten(At(0, 0), At(0, 0), 1)
  {
  }

  /**
   * `safe_memcpy`: NULL and EINVAL for a NULL argument; `dest` itself for a
   * zero count; NULL and ERANGE for a count above MAX_ALLOC_SIZE; NULL and
   * EINVAL for overlapping ranges; NULL and ERANGE when the destination's
   * recorded size is below the count; otherwise the bytes are copied and
   * `dest` returned.  The destination must be a block start (its header is
   * read); the source is not checked and must hold `n` bytes.
   */
  function SafeMemcpy(h: Heap, dest: Ptr, src: Ptr, n: nat): (r: Result<Returned>)
    requires Valid(h)
    ensures (dest.Null? || src.Null?) ==> r == Value(Returned(Null, h, Some(EINVAL)))
    ensures dest.At? && src.At? && n == 0 ==> r == Value(Returned(dest, h, None))
    ensures r.Value? ==> Valid(r.value.heap) && (r.value.ptr.Null? || r.value.ptr == dest)
    ensures r.Value? && r.value.ptr.Null? ==> r.value.heap == h && r.value.errno.Some?
    ensures r.Value? && dest.At? && src.At? && Overlaps(dest, src, n) ==> r.value.ptr.Null?
    ensures r.Value? && n > 0 && r.value.ptr.At? ==>
      dest.offset == 0 && dest.block in h.blocks && src.block in h.blocks && n <= h.blocks[dest.block].size
      && src.offset + n <= h.blocks[src.block].size
      && r.value.heap.blocks.Keys == h.blocks.Keys
      && (forall b :: b in h.blocks && b != dest.block ==> r.value.heap.blocks[b] == h.blocks[b])
      && |r.value.heap.blocks[dest.block].data| == h.blocks[dest.block].size
      && r.value.heap.blocks[dest.block].data[..n] == h.blocks[src.block].data[src.offset..src.offset + n]
      && r.value.heap.blocks[dest.block].data[n..] == h.blocks[dest.block].data[n..]
  {
    if dest.Null? || src.Null? then Value(Returned(Null, h, Some(EINVAL)))
    else if n == 0 then Value(Returned(dest, h, None))
    else if n > MAX_ALLOC_SIZE then Value(Returned(Null, h, Some(ERANGE)))
    else if Overlaps(dest, src, n) then Value(Returned(Null, h, Some(EINVAL)))
    else if dest.offset != 0 || dest.block !in h.blocks then
      Failure(Undefined("size header read before a pointer safe_malloc did not return"))
    else if h.blocks[dest.block].size < n then Value(Returned(Null, h, Some(ERANGE)))
    else if src.block !in h.blocks || src.offset + n > h.blocks[src.block].size then
      Failure(Undefined("memcpy reads past the end of the source"))
    else
      var d := h.blocks[dest.block];
      var bytes := h.blocks[src.block].data[src.offset..src.offset + n];
      Value(Returned(dest, Heap(h.blocks[dest.block := d.(data := bytes + d.data[n..])], h.next), None))
  }
}

=== FILE: outcome.dfy ===
/**
 * How an interpreter step can end other than by producing a value.  The C
 * program terminates the process (`exit`), invokes undefined behaviour, or
 * never returns; a model of it has to name each of these.
 */
module Outcome {

  datatype Option<T> = None | Some(value: T)

  /** Why evaluation stopped without a result. */
  datatype Halt =
    | Fatal(message: string)      // a diagnostic followed by `exit`
    | Undefined(what: string)     // C undefined behaviour (NULL dereference, a jump to an unset buffer, ...)
    | Unmodelled(what: string)    // floating point, pointer values, I/O builtins
    | Diverges                    // a loop in the C code that never terminates
    | OutOfFuel                   // the model's step budget ran out

  /** A value, or the reason none was produced. */
  datatype Result<T> = Value(value: T) | Failure(halt: Halt)
  {
    predicate IsFailure() { Failure? }

    function PropagateFailure<U>(): Result<U>
      requires Failure?
    {
      Failure(halt)
    }

    function Extract(): T
      requires Value?
    {
      value
    }
  }
}

=== FILE: registry.dfy ===
/**
 * The global table of user-defined functions: a list that every definition
 * is put in front of, searched from the front.
 */
module Registry {
  import opened Outcome
  import opened Syntax

  /** `create_function`: the new definition goes in front. */
  function Create(table: seq<Function>, f: Function): (r: seq<Function>)
    ensures |r| == |table| + 1 && r[0] == f && r[1..] == table
  {
    [f] + table
  }

  /** `get_function`: the first entry with the name. */
  function Lookup(table: seq<Function>, name: string): (r: Option<Function>)
    ensures r.Some? ==> r.value in table && r.value.fname == name
    ensures r.None? <==> forall j :: 0 <= j < |table| ==> table[j].fname != name
    ensures r.Some? ==> exists k :: 0 <= k < |table| && table[k] == r.value
                         && forall j :: 0 <= j < k ==> table[j].fname != name
    decreases |table|
  {
    if |table| == 0 then None
    else if table[0].fname == name then Some(table[0])
    else
      var r := Lookup(table[1..], name);
      if r.Some? then
        var k :| 0 <= k < |table[1..]| && table[1..][k] == r.value && forall j :: 0 <= j < k ==> table[1..][j].fname != name;
        assert table[k + 1] == r.value;
        r
      else r
  }

  /** `get_function_return_type`: the declared return type, or no type. */
  function ReturnTypeOf(table: seq<Function>, name: string): VarType
  {
    match Lookup(table, name)
    case None => NoType
    case Some(f) => f.returnType
  }

  /** The most recent definition of a name is the one a lookup finds. */
  lemma {:induction false} LatestDefinitionWins(table: seq<Function>, f: Function)
    ensures Lookup(Create(table, f), f.fname) == Some(f)
  {
  }

  /** A definition of one name leaves the lookup of every other name alone. */
  lemma {:induction false} OtherNamesUnaffected(table: seq<Function>, f: Function, name: string)
    requires name != f.fname
    ensures Lookup(Create(table, f), name) == Lookup(table, name)
  {
    assert Create(table, f)[1..] == table;
  }
}

=== FILE: syntax.dfy ===
/**
 * The syntax tree the interpreter walks, as the parser hands it over:
 * the value kinds, the type modifiers, the operators and the node kinds
 * of the scripting language, and the records of user-defined functions.
 */
module Syntax {
  import opened Outcome

  /** The six value kinds plus the "no type" marker. */
  datatype VarType = VarInt | VarShort | VarFloat | VarDouble | VarBool | VarChar | NoType

  /** The qualifiers a declaration can carry. */
  datatype Mods = Mods(isVolatile: bool, isSigned: bool, isUnsigned: bool, isSizeof: bool, isConst: bool)

  const NoMods := Mods(false, false, false, false, false)

  datatype BinaryOp = Plus | Minus | Times | Divide | Modulo | Lt | Gt | Le | Ge | Eq | Ne | And | Or

  datatype UnaryOp = Neg | PostInc | PostDec | PreInc | PreDec

  /**
   * One node of the syntax tree.  Float and double literals carry no value:
   * floating point is outside the model, and evaluating one stops with
   * `Unmodelled`.  Declarations and assignments record the type and the
   * modifiers the parser attached to them.
   */
  datatype Node =
    | IntNode(ivalue: int)
    | ShortNode(svalue: int)
    | FloatNode
    | DoubleNode
    | CharNode(cvalue: int)
    | BoolNode(bvalue: bool)
    | StringLiteral(text: string)
    | Identifier(name: string)
    | Declaration(name: string, rhs: Node, declType: VarType, declMods: Mods)
    | Assignment(target: Target, rhs: Node, assignType: VarType, assignMods: Mods)
    | Operation(op: BinaryOp, left: Node, right: Node, opMods: Mods)
    | Unary(uop: UnaryOp, operand: Node)
    | ForStatement(init: Option<Node>, cond: Option<Node>, incr: Option<Node>, forBody: Option<Node>)
    | WhileStatement(whileCond: Node, whileBody: Node)
    | DoWhileStatement(doCond: Node, doBody: Node)
    | PrintStatement(printArg: Node)
    | ErrorStatement(errorArg: Node)
    | StatementList(stmts: seq<Node>)
    | IfStatement(ifCond: Node, thenBranch: Node, elseBranch: Option<Node>)
    | SwitchStatement(scrutinee: Node, cases: seq<Case>)
    | BreakStatement
    | SizeOf(sizeExpr: Node)
    | ArrayAccess(arrayName: string, index: Option<Node>, elemType: VarType)
    | FuncCall(callee: string, args: seq<Node>)
    | FunctionDef(def: Function)
    | ReturnStatement(result: Option<Node>)

  /** The left-hand side of an assignment: a whole variable or one element. */
  datatype Target = WholeVariable(varName: string) | Element(elemArray: string, elemIndex: Option<Node>)

  /** A `case` (with a value) or `default` (without one) of a switch. */
  datatype Case = Case(caseValue: Option<Node>, caseBody: Node)

  datatype Param = Param(paramName: string, paramType: VarType)

  /** A user-defined function: parameters in binding order, and the body. */
  datatype Function = Function(fname: string, returnType: VarType, params: seq<Param>, body: Node)

  function TargetName(t: Target): string
  {
    match t
    case WholeVariable(n) => n
    case Element(n, _) => n
  }

  /** The 0/1 value a boolean is stored as. */
  function BoolValue(b: bool): (r: int)
    ensures r == 0 || r == 1
    ensures (r == 1) <==> b
  {
    if b then 1 else 0
  }
}

=== FILE: typing.dfy ===
/**
 * The interpreter's static view of expressions, computed from the syntax
 * tree and the current bindings without evaluating anything: the type an
 * expression is classified as, the width a binary operation is computed
 * in, the short/float/double tests that pick an evaluator, and `sizeof`.
 * The diagnostics these routines print on unknown names are not recorded.
 */
module Typing {
  import opened Outcome
  import opened Syntax
  import opened CInt
  import Env
  import Registry

  /** The numeric types ordered by the promotion ladder; everything else ranks 0. */
  function Rank(t: VarType): nat
  {
    match t
    case VarDouble => 3
    case VarFloat => 2
    case VarInt => 1
    case _ => 0
  }

  /**
   * The width `handle_binary_operation` computes in: the higher-ranked
   * operand type, and `short` when neither operand is `int`, `float` or
   * `double` (so two bools, two chars or two calls are added as shorts).
   */
  function Promote(l: VarType, r: VarType): (p: VarType)
    ensures Rank(p) == if Rank(l) >= Rank(r) then Rank(l) else Rank(r)
    ensures p == VarShort <==> Rank(l) == 0 && Rank(r) == 0
    ensures p == VarShort || p == VarInt || p == VarFloat || p == VarDouble
  {
    if l == VarDouble || r == VarDouble then VarDouble
    else if l == VarFloat || r == VarFloat then VarFloat
    else if l == VarInt || r == VarInt then VarInt
    else VarShort
  }

  /**
   * The type `get_expression_type` gives a binary operation: the same ladder,
   * but `int` at the bottom, so an operation is never classified `short`.
   */
  function OperationType(l: VarType, r: VarType): (t: VarType)
    ensures t == VarInt || t == VarFloat || t == VarDouble
    ensures t == (if Promote(l, r) == VarShort then VarInt else Promote(l, r))
  {
    if l == VarDouble || r == VarDouble then VarDouble
    else if l == VarFloat || r == VarFloat then VarFloat
    else VarInt
  }

  /**
   * `get_expression_type`.  A char literal is classified `int`; an element
   * access has its array's type when the name is bound and the index is
   * classified `int` or `short`; a name has its binding's type; anything
   * unbound or of another kind has no type.
   */
  function ExprType(e: Node, scopes: seq<Env.Scope>): (t: VarType)
    ensures e.Operation? ==> t != VarShort && t != NoType
    ensures e.CharNode? ==> t == VarInt
    ensures e.Identifier? ==> (t != NoType ==> Env.Get(scopes, e.name).Some?)
  {
    match e
    case IntNode(_) => VarInt
    case ShortNode(_) => VarShort
    case FloatNode => VarFloat
    case DoubleNode => VarDouble
    case BoolNode(_) => VarBool
    case CharNode(_) => VarInt
    case ArrayAccess(name, index, _) =>
      (match Env.Get(scopes, name)
       case None => NoType
       case Some(v) =>
         var it := (match index case None => NoType case Some(i) => ExprType(i, scopes));
         if it == VarInt || it == VarShort then v.varType else NoType)
    case Identifier(name) =>
      (match Env.Get(scopes, name)
       case None => NoType
       case Some(v) => v.varType)
    case Operation(_, l, r, _) => OperationType(ExprType(l, scopes), ExprType(r, scopes))
    case Unary(_, x) => ExprType(x, scopes)
    case SizeOf(_) => VarInt
    case _ => NoType
  }

  /** The width a binary operation node is evaluated in. */
  function OperationWidth(e: Node, scopes: seq<Env.Scope>): VarType
    requires e.Operation?
  {
    Promote(ExprType(e.left, scopes), ExprType(e.right, scopes))
  }

  /**
   * The static type of an operation is its computed width, except that a
   * width of `short` is reported as `int`.
   */
  lemma StaticTypeOfOperation(e: Node, scopes: seq<Env.Scope>)
    requires e.Operation?
    ensures OperationWidth(e, scopes) == VarShort ==> ExprType(e, scopes) == VarInt
    ensures OperationWidth(e, scopes) != VarShort ==> ExprType(e, scopes) == OperationWidth(e, scopes)
  {
  }

  /** `short + short` is classified `int` but computed in `short`. */
  lemma ShortSumWidth(scopes: seq<Env.Scope>)
    ensures ExprType(Operation(Plus, ShortNode(1), ShortNode(2), NoMods), scopes) == VarInt
    ensures OperationWidth(Operation(Plus, ShortNode(1), ShortNode(2), NoMods), scopes) == VarShort
  {
  }

  /** The three kinds `evaluate_expression` tests for, in its order. */
  predicate IsKind(k: VarType)
  {
    k == VarShort || k == VarFloat || k == VarDouble
  }

  /** No identifier in `e` is reached unbound by the kind tests. */
  predicate NamesBound(e: Node, scopes: seq<Env.Scope>)
  {
    match e
    case Identifier(name) => Env.Get(scopes, name).Some?
    case Operation(_, l, r, _) => NamesBound(l, scopes) && NamesBound(r, scopes)
    case _ => true
  }

  /**
   * `is_short_expression`, `is_float_expression`, `is_double_expression`:
   * a literal of the kind, a name bound with that type, an operation with
   * either operand of the kind (the right one tested only when the left one
   * is not), a call of a function declared with that return type.  Other
   * nodes, unary operations included, are never of any kind.  A name that is
   * not bound ends the program.
   */
  function HasKind(e: Node, k: VarType, scopes: seq<Env.Scope>, functions: seq<Function>): (r: Result<bool>)
    requires IsKind(k)
    ensures NamesBound(e, scopes) ==> r.Value?
    ensures r.Failure? ==> r.halt == Fatal("Undefined variable in type check")
    ensures e.Unary? || e.ArrayAccess? || e.SizeOf? ==> r == Value(false)
  {
    match e
    case ShortNode(_) => Value(k == VarShort)
    case FloatNode => Value(k == VarFloat)
    case DoubleNode => Value(k == VarDouble)
    case Identifier(name) =>
      (match Env.Get(scopes, name)
       case None => Failure(Fatal("Undefined variable in type check"))
       case Some(v) => Value(v.varType == k))
    case Operation(_, l, rt, _) =>
      var left :- HasKind(l, k, scopes, functions);
      if left then Value(true) else HasKind(rt, k, scopes, functions)
    case FuncCall(name, _) => Value(Registry.ReturnTypeOf(functions, name) == k)
    case _ => Value(false)
  }

  /** Expressions built from literals, names and binary operations only. */
  predicate Plain(e: Node)
  {
    match e
    case IntNode(_) => true
    case ShortNode(_) => true
    case FloatNode => true
    case DoubleNode => true
    case BoolNode(_) => true
    case CharNode(_) => true
    case Identifier(_) => true
    case Operation(_, l, r, _) => Plain(l) && Plain(r)
    case _ => false
  }

  /**
   * On plain expressions the double test agrees with the static type, and
   * an expression that passes the float test is classified float or double.
   */
  lemma {:induction false} KindAgreesWithType(e: Node, scopes: seq<Env.Scope>, functions: seq<Function>)
    requires Plain(e) && NamesBound(e, scopes)
    ensures HasKind(e, VarDouble, scopes, functions) == Value(ExprType(e, scopes) == VarDouble)
    ensures HasKind(e, VarFloat, scopes, functions) == Value(true) ==>
      ExprType(e, scopes) == VarFloat || ExprType(e, scopes) == VarDouble
  {
    match e
    case Operation(_, l, r, _) =>
      KindAgreesWithType(l, scopes, functions);
      KindAgreesWithType(r, scopes, functions);
    case _ =>
  }

  /** The bytes of one element of a type, or nothing when there is no type. */
  function TypeSize(t: VarType): (n: Option<nat>)
    ensures n.Some? <==> t != NoType
  {
    match t
    case VarInt => Some(4)
    case VarShort => Some(2)
    case VarFloat => Some(4)
    case VarDouble => Some(8)
    case VarBool => Some(1)
    case VarChar => Some(1)
    case NoType => None
  }

  /** A `size_t` value and the diagnostics printed while computing it. */
  datatype Sized = Sized(bytes: nat, diags: seq<string>)

  /**
   * `handle_sizeof`.  On a name (`get_type_size`) the size is the element
   * size times the array length for an array binding; the product is a
   * `size_t`, so a negative length wraps modulo 2^64.  A `char` or untyped
   * binding falls through to "Undefined variable in sizeof" twice.  On any
   * other expression the size of its static type is used.
   */
  function SizeOf(x: Node, scopes: seq<Env.Scope>): (r: Sized)
    ensures r.bytes < TWO64
    ensures r.diags != [] ==> r.bytes == 0
    ensures !x.Identifier? ==> r.bytes <= 8 && (r.diags == [] <==> ExprType(x, scopes) != NoType)
  {
    if x.Identifier? then
      match Env.Get(scopes, x.name)
      case None => Sized(0, ["Undefined variable in sizeof"])
      case Some(v) =>
        if v.varType == VarChar || v.varType == NoType then
          Sized(0, ["Undefined variable in sizeof", "Undefined variable in sizeof"])
        else
          var unit := TypeSize(v.varType).value;
          Sized((if v.isArray then unit * v.arrayLength else unit) % TWO64, [])
    else
      match TypeSize(ExprType(x, scopes))
      case None => Sized(0, ["Invalid type in sizeof"])
      case Some(n) => Sized(n, [])
  }
}
